=== FILE: README.md ===
# Arcade game cores in Dafny

This project models the frame logic of three small games from the edumgt/pygame repository.

- The tank arena (`UnityProject`): the player's differential-drive tank, the road-surface profile it drives on, enemy tanks, the wave spawner, ballistic shells, the turret's lock-on zone and the match manager.
- The lane racer (`UnityCarRacing`): the sideways-moving car with its boost, the obstacle and shield spawner, the obstacles and shield pickups, the scrolling scenery, the homing missile, the track-mark trails and its copy of the match manager.
- The pygame racer (`core/game.py`): the `CarRaceGame` scene machine (start, playing, paused, game over) with frame-counted boost, shield and score ticks.

Every component is an immutable record with pure step functions `step(state, inputs, dt) -> (state', effects)` over `real` and `int`. Engine services become inputs:

- the magnitude of a vector is a `length` oracle constrained by `IsLength` (non-negative, and its square is the squared magnitude);
- `Vector3.Slerp` is an oracle with one law (turning toward the current heading changes nothing);
- `Mathf.PerlinNoise` is an uninterpreted noise field;
- `Random.Range`, `Random.value` and `random.randint` are raw draws, clamped into the range the engine guarantees;
- the spawner's `(cos a, 0, sin a)` for a drawn angle `a` is a drawn direction, assumed a flat unit vector where a lemma needs it;
- physics overlap queries and trigger contacts are the sequence of colliders the engine reports;
- `Rect.colliderect` is an uninterpreted predicate;
- scene look-ups (`FindAnyObjectByType`, singletons) are explicit optional arguments.

Calls into other components (the manager, a spawner, a shell to create) are returned as effect or event values, in the order the source issues them.

Files:

- `foundation.dfy`: the `Mathf` and `Vector3` helpers, the arena rectangle, and order-preserving filtering (`List.RemoveAll`).
- `surface.dfy`: `RuntimeRoadFactory` surface zones.
- `tank_player.dfy`, `tank_enemy.dfy`, `tank_spawner.dfy`, `tank_shell.dfy`, `tank_aim_zone.dfy`: the tank arena's player, enemies, spawner, shells and aim zone.
- `match.dfy`: both `GameManager`s.
- `racer_car.dfy`, `racer_spawner.dfy`, `racer_obstacle.dfy`, `racer_shield.dfy`, `loop_mover.dfy`, `racer_missile.dfy`, `track_trail.dfy`: the lane racer.
- `car_race_game.dfy`: the pygame racer.

## Model

| member | source | states |
|---|---|---|
| Surface.AxisWeight | UnityProject/Assets/Scripts/RuntimeRoadFactory.cs:229-230 | the per-axis falloff lies in [0,1], is 1 at the zone centre and 0 once the distance reaches the half-extent floored at 0.1 |
| Surface.Influence | UnityProject/Assets/Scripts/RuntimeRoadFactory.cs:229-231 | the bilinear influence of a zone lies in [0,1] |
| Surface.Smoothstep | UnityProject/Assets/Scripts/RuntimeRoadFactory.cs:238 | the edge smoothing maps [0,1] into [0,1], fixing 0 and 1 |
| Surface.Contribution | UnityProject/Assets/Scripts/RuntimeRoadFactory.cs:231-246 | a zone contributes nothing iff its influence is at most 0.001; otherwise each blended factor lies between 1 and the zone's factor |
| Surface.MinProfile | UnityProject/Assets/Scripts/RuntimeRoadFactory.cs:242-246 | the componentwise minimum is below both profiles |
| Surface.Aggregate | UnityProject/Assets/Scripts/RuntimeRoadFactory.cs:224-247 | before noise, each factor is at most 1 and at most every contributing zone's blended value, and the traction is 1 or is set by some contributing zone |
| Surface.RoughPenalty | UnityProject/Assets/Scripts/RuntimeRoadFactory.cs:249-251 | the roughness penalty lies in [0.86,1] and is 1 on ground rough at most 0.6 |
| Surface.TurnScale | UnityProject/Assets/Scripts/RuntimeRoadFactory.cs:252 | the turn multiplier lies in [0.9,1] and is 1 without a penalty |
| Surface.Finish | UnityProject/Assets/Scripts/RuntimeRoadFactory.cs:249-257 | the returned profile has traction in [0.42,1], speed factor in [0.62,1] and turn factor in [0.55,1] |
| Surface.SampleSurfaceProfile | UnityProject/Assets/Scripts/RuntimeRoadFactory.cs:216-258 | every sample is within the final clamps, and an empty zone list gives exactly (1,1,1) with no roughness penalty |
| Surface.SpeedIgnoresNoise | UnityProject/Assets/Scripts/RuntimeRoadFactory.cs:249-256 | two noise fields give the same speed factor: the noise scales traction and turn only |
| Surface.SmoothGroundNoPenalty | UnityProject/Assets/Scripts/RuntimeRoadFactory.cs:249-256 | where roughness stays at or below 0.6, the sample is the clamped zone aggregate |
| Surface.FinishNoPenalty | UnityProject/Assets/Scripts/RuntimeRoadFactory.cs:254-256 | with a unit penalty, finishing only clamps each factor |
| Surface.AggregateAppendBelow | UnityProject/Assets/Scripts/RuntimeRoadFactory.cs:224-247 | appending a zone never raises an aggregated factor, and a negligible zone leaves the aggregate unchanged |
| Surface.AddingZoneNeverRaises | UnityProject/Assets/Scripts/RuntimeRoadFactory.cs:216-258 | adding a zone anywhere never improves the surface at any point, noise included |
| Surface.NegligibleZoneIgnored | UnityProject/Assets/Scripts/RuntimeRoadFactory.cs:231-235 | a zone with negligible influence at a point leaves a non-empty list's sample there unchanged |
| Surface.AddSurfaceZone | UnityProject/Assets/Scripts/RuntimeRoadFactory.cs:260-270 | the existing zones are kept and one zone is appended with the x/z centre, non-negative half-extents abs(size)/2 and the given factors |
| Surface.SurfaceNamed | UnityProject/Assets/Scripts/RuntimeRoadFactory.cs:283-290 | only the patch names are kept |
| Surface.SurfaceNamedMembers | UnityProject/Assets/Scripts/RuntimeRoadFactory.cs:283-290 | a transform is among the rebuilt patches iff it is in the root and named "DirtPatch" or "GroundMound" |
| Surface.ZonesFrom | UnityProject/Assets/Scripts/RuntimeRoadFactory.cs:281-291 | the rebuild appends one zone per named patch after the existing zones |
| Surface.EnsureSurfaceZonesFromExisting | UnityProject/Assets/Scripts/RuntimeRoadFactory.cs:272-292 | a non-empty list or a missing scene root is left alone; otherwise one zone per named patch is added |
| Surface.ZonesFromContents | UnityProject/Assets/Scripts/RuntimeRoadFactory.cs:283-290 | the i-th rebuilt zone comes from the i-th named patch: a "DirtPatch" gets (0.72,0.84,0.82), a "GroundMound" gets (0.55,0.7,0.64), and other names add nothing |
| TankPlayer.ReadForwardInput | UnityProject/Assets/Scripts/PlayerCarController.cs:270-284 | the throttle is 1 iff an up input is held, −1 iff only a down input is held, and 0 otherwise |
| TankPlayer.ReadTurnInput | UnityProject/Assets/Scripts/PlayerCarController.cs:286-300 | the steer is 1 iff a right input is held, −1 iff only a left input is held, and 0 otherwise |
| TankPlayer.ReadTurretInput | UnityProject/Assets/Scripts/PlayerCarController.cs:316-329 | Q gives −1 and wins over E, E alone gives 1, and neither gives 0 |
| TankPlayer.TargetTrackSpeeds | UnityProject/Assets/Scripts/PlayerCarController.cs:86-103 | in pivot mode (|throttle| < 0.05, |steer| > 0.01) the targets are opposite, with the right one steer·pivotSpeed·turnFactor; otherwise they average to the throttle's base speed and the right exceeds the left by 2·steer·steerMixSpeed·turnFactor, scaled by 0.72 when reversing (throttle < −0.01) |
| TankPlayer.BaseTrackSpeed | UnityProject/Assets/Scripts/PlayerCarController.cs:95-97 | the base speed has the throttle's sign and magnitude |throttle| times the forward top speed (throttle ≥ 0) or the reverse one; no throttle gives zero and full throttle gives the top speed either way |
| TankPlayer.ClampTrackTarget | UnityProject/Assets/Scripts/PlayerCarController.cs:105-108 | a target is clamped into [−maxReverse·lerp(sf,1,0.2), maxForward·sf]: unchanged when already inside, the reverse limit below it, the forward limit above it |
| TankPlayer.TractionScale | UnityProject/Assets/Scripts/PlayerCarController.cs:311 | the traction scale lies in [0.45,1]: 1 at full traction and 0.45 at none |
| TankPlayer.BaseTrackAccel | UnityProject/Assets/Scripts/PlayerCarController.cs:304-309 | the acceleration is idle deceleration when the target is at most 0.01, braking when reversing, and drive otherwise |
| TankPlayer.TrackAccel | UnityProject/Assets/Scripts/PlayerCarController.cs:304-312 | the applied acceleration lies between 0.45 times and 1 times the unscaled one |
| TankPlayer.MoveTrackSpeed | UnityProject/Assets/Scripts/PlayerCarController.cs:302-314 | a track moves toward its target by at most accel·dt and never overshoots |
| TankPlayer.ClampedTargets | UnityProject/Assets/Scripts/PlayerCarController.cs:104-107 | both clamped targets lie between minus the surface's reverse limit and its forward limit, whenever that range is non-empty; each equals its unclamped target when that is inside, the reverse limit when it is below, and the forward limit when it is above |
| TankPlayer.DriveTracks | UnityProject/Assets/Scripts/PlayerCarController.cs:104-111 | each track moves toward its clamped target: never past it, by at most its applied acceleration times dt when that step is non-negative, and onto it when the step covers the gap; with dt ≥ 0 and non-negative accelerations each new speed lies between the old speed and the target |
| TankPlayer.AccelStepNonNegative | UnityProject/Assets/Scripts/PlayerCarController.cs:304-314 | with dt ≥ 0 and non-negative configured accelerations, a track's step accel·dt is non-negative |
| TankPlayer.MinTrackStepBelow | UnityProject/Assets/Scripts/PlayerCarController.cs:304-314 | every frame's step is at least 0.45 times the least configured acceleration times dt, and that floor is non-negative |
| TankPlayer.TrackGapShrinks | UnityProject/Assets/Scripts/PlayerCarController.cs:302-314 | one frame lands on the target or closes the gap by at least any amount its step covers |
| TankPlayer.TrackReachesTarget | UnityProject/Assets/Scripts/PlayerCarController.cs:108-111 | a track held at one target for n frames ends exactly on it once n floor steps cover the starting gap |
| TankPlayer.TrackStaysOnTarget | UnityProject/Assets/Scripts/PlayerCarController.cs:108-111 | a track already at its target stays there for any number of frames |
| TankPlayer.AngularSpeedDeg | UnityProject/Assets/Scripts/PlayerCarController.cs:114 | with a positive turn factor the hull turns positive exactly when the right track is faster and negative exactly when it is slower; equal tracks give no turn |
| TankPlayer.SteerTurnsHull | UnityProject/Assets/Scripts/PlayerCarController.cs:86-103 | with positive steering gains and turn factor, the track targets turn the hull the way the steer input points, pivoting or driving, and not at all without steering |
| TankPlayer.TouchedIffOutside | UnityProject/Assets/Scripts/PlayerCarController.cs:137-141 | the boundary test holds exactly when the unclamped step leaves the arena |
| TankPlayer.HandleMovement | UnityProject/Assets/Scripts/PlayerCarController.cs:76-151 | after a move the tank is inside the arena at its initial height with turn magnitude in [0,1]; when the unclamped step stays inside, the tracks are the driven ones and the position is the step; the cannon, spawn pose, target and destruction state are untouched |
| TankPlayer.BoundaryBrake | UnityProject/Assets/Scripts/PlayerCarController.cs:142-148 | the brake never increases either track's speed and changes only the tracks and hull velocity |
| TankPlayer.MoveTowardsZeroShrinksBoth | UnityProject/Assets/Scripts/PlayerCarController.cs:144-146 | pulling toward zero by a non-negative step never increases a magnitude |
| TankPlayer.BoundaryNeverSpeedsUp | UnityProject/Assets/Scripts/PlayerCarController.cs:131-150 | whether or not the boundary is touched, neither track ends faster than driving alone left it |
| TankPlayer.FindBestTargetInCone | UnityProject/Assets/Scripts/PlayerCarController.cs:344-381 | no target iff no view is alive, within 0.1 and the range, inside the cone and below the seed; otherwise the index minimises dist + 0.12·angle, with the first winning ties |
| TankPlayer.BestIsUnique | UnityProject/Assets/Scripts/PlayerCarController.cs:344-381 | any index with the best-target property is the scan's answer |
| TankPlayer.ScanTargets | UnityProject/Assets/Scripts/PlayerCarController.cs:346-380 | the single pass with a running best seeded at float.MaxValue computes the same answer as the specification |
| TankPlayer.Lookup | UnityProject/Assets/Scripts/PlayerCarController.cs:385 | a found view carries the identity; none is found only when no view carries it |
| TankPlayer.ResolveAutoTarget | UnityProject/Assets/Scripts/PlayerCarController.cs:331-342 | a valid cached target is kept while the refresh timer is positive; otherwise a rescan runs and the timer restarts at 0.2; a kept or found target qualifies |
| TankPlayer.CachedTargetKept | UnityProject/Assets/Scripts/PlayerCarController.cs:331-342 | over any run of frames in which the cached target stays valid and the timer does not run out, the target is kept, no rescan happens, and the timer has dropped by n·dt |
| TankPlayer.HandleTurretAim | UnityProject/Assets/Scripts/PlayerCarController.cs:153-190 | without a turret nothing happens; manual input clears the target and timer and turns at the turret speed; otherwise targeting is resolved; any rotation is flat, above the threshold, at the auto or manual rate |
| TankPlayer.HandleFire | UnityProject/Assets/Scripts/PlayerCarController.cs:192-210 | a shot happens only when fire is pressed with the timer at or below 0; it restarts the cooldown and emits exactly one shell, followed by the shot notice exactly when a manager exists |
| TankPlayer.Update | UnityProject/Assets/Scripts/PlayerCarController.cs:59-74 | nothing happens while destroyed or over; otherwise the tank ends inside the arena at its initial height, fires at most one shell, and fires exactly when fire is pressed and the counted-down timer is at or below 0, which then restarts the cooldown; without a shot the timer has only counted down; the shot notice goes out exactly with a shot and a manager |
| TankPlayer.CooldownBetweenShots | UnityProject/Assets/Scripts/PlayerCarController.cs:66-69 | after a shot the cannon is ready again exactly when the elapsed frames cover the cooldown |
| TankPlayer.ApplyDamage | UnityProject/Assets/Scripts/PlayerCarController.cs:212-221 | damage is forwarded to the manager exactly when the tank is alive, managed and the match is running |
| TankPlayer.HandleDestroyed | UnityProject/Assets/Scripts/PlayerCarController.cs:223-238 | a destroyed tank is unchanged; the first call stops the tank, holds the cannon for a cooldown and disables collisions |
| TankPlayer.HandleDestroyedIdempotent | UnityProject/Assets/Scripts/PlayerCarController.cs:225-228 | destroying twice is destroying once |
| TankPlayer.DestroyedIsFrozen | UnityProject/Assets/Scripts/PlayerCarController.cs:61-64 | a destroyed tank ignores every frame |
| TankPlayer.ResetPlayer | UnityProject/Assets/Scripts/PlayerCarController.cs:240-268 | the tank is back at its spawn pose, stationary, with the cannon ready, no target and collisions on |
| TankPlayer.ResetForgetsHistory | UnityProject/Assets/Scripts/PlayerCarController.cs:240-268 | two tanks with the same spawn pose reset to the same state, and a reset undoes a destruction |
| TankEnemy.Awake | UnityProject/Assets/Scripts/ObstacleMover.cs:34-41 | full health at the given position, a first shot within [0.35, fireInterval] when the interval allows it, a strafe period in [0.6,1.6] and a strafe side of ±1 |
| TankEnemy.Configure | UnityProject/Assets/Scripts/ObstacleMover.cs:43-64 | every stat is floored (move ≥ 1, turn ≥ 25, interval ≥ 0.65, health ≥ 10, shell speed ≥ 8, damage ≥ 1), the preferred distance is clamped to [6,18], health is refilled, the first shot is within [0.25, interval], and in-range values are kept |
| TankEnemy.ApplyDamage | UnityProject/Assets/Scripts/ObstacleMover.cs:92-106 | a dead enemy ignores hits; otherwise health drops by max(0, damage) and never rises; the enemy dies exactly at health ≤ 0 and reports its death then, when a manager exists |
| TankEnemy.DestroyEnemy | UnityProject/Assets/Scripts/ObstacleMover.cs:194-206 | a live enemy dies and, when a manager exists, reports `HandleEnemyDestroyed` once at its position; a dead one is unchanged |
| TankEnemy.DestroyedReportedOnce | UnityProject/Assets/Scripts/ObstacleMover.cs:100-106 | under any sequence of hits, death is reported exactly once if and when the enemy dies and a manager exists, never for a dead one, with no way back to alive |
| TankEnemy.ChooseMode | UnityProject/Assets/Scripts/ObstacleMover.cs:127-138 | approach iff dist > pref+1.8, retreat iff dist < pref−1.6 otherwise, and strafe within the band |
| TankEnemy.MoveDirection | UnityProject/Assets/Scripts/ObstacleMover.cs:126-138 | approach drives forward, retreat backward, and the strafe blend is a unit or zero vector |
| TankEnemy.TickStrafe | UnityProject/Assets/Scripts/ObstacleMover.cs:119-124 | on expiry the strafe timer restarts in [0.8,1.8] with a side of ±1; otherwise it just counts down |
| TankEnemy.TickMovement | UnityProject/Assets/Scripts/ObstacleMover.cs:108-145 | the new position is clamped into the arena at ride height 0.55, after the strafe bookkeeping |
| TankEnemy.TickFire | UnityProject/Assets/Scripts/ObstacleMover.cs:165-192 | no decision while the timer stays positive; otherwise: the player within a unit of the firing point holds fire for a full interval; a misaligned barrel retries after 0.08 s; else one shell at the configured speed and damage, with the timer at interval + j for j in [−0.2,0.35] |
| TankEnemy.NoBackToBackShots | UnityProject/Assets/Scripts/ObstacleMover.cs:191 | with configured stats and frames under 0.45 s, a shot is never followed by a shot on the next frame |
| TankEnemy.Update | UnityProject/Assets/Scripts/ObstacleMover.cs:66-90 | nothing happens when dead, over or without a player; otherwise the enemy stays in the arena, keeps health and stats, ends in the state that the fire check reaches after the movement step, and emits one `EnemyShellFired` carrying the fire check's shot exactly when that check fires |
| TankEnemy.NoBackToBackFrames | UnityProject/Assets/Scripts/ObstacleMover.cs:66-90 | with configured stats and frames under 0.45 s, a whole frame that fires a shell is followed by a frame that fires none |
| TankEnemy.DeadIsInert | UnityProject/Assets/Scripts/ObstacleMover.cs:68-71 | a dead enemy ignores frames and hits |
| TankSpawner.WaveAt | UnityProject/Assets/Scripts/ObstacleSpawner.cs:52 | the wave is at least 1 for non-negative elapsed time |
| TankSpawner.WaveMonotone | UnityProject/Assets/Scripts/ObstacleSpawner.cs:51-52 | the wave never decreases as elapsed time grows |
| TankSpawner.MaxAlive | UnityProject/Assets/Scripts/ObstacleSpawner.cs:57 | the cap is never below the base cap |
| TankSpawner.DynamicInterval | UnityProject/Assets/Scripts/ObstacleSpawner.cs:58 | the interval is at least 0.65 s, and is max(0.65, spawnInterval) in wave 1 |
| TankSpawner.PressureGrowsWithWave | UnityProject/Assets/Scripts/ObstacleSpawner.cs:57-58 | a later wave allows at least as many enemies and spawns at least as often |
| TankSpawner.StatsForWave | UnityProject/Assets/Scripts/ObstacleSpawner.cs:97-104 | fire interval ≥ 0.85 and preferred distance ≥ 7; turn speed and health follow their wave lines; move speed lies within ±0.25 of its line |
| TankSpawner.StatsMonotone | UnityProject/Assets/Scripts/ObstacleSpawner.cs:97-104 | with the same jitter, a later wave's enemy is at least as fast, tough and hard-hitting, and fires at least as often from no farther |
| TankSpawner.SpawnCenter | UnityProject/Assets/Scripts/ObstacleSpawner.cs:121-122 | the ring centre is at spawn height |
| TankSpawner.Candidate | UnityProject/Assets/Scripts/ObstacleSpawner.cs:126-133 | every ring sample lies inside the arena at y = 0.55 |
| TankSpawner.RingOffsetInAnnulus | UnityProject/Assets/Scripts/ObstacleSpawner.cs:125-127 | a drawn offset is flat, and its length lies between minSpawnRadius and maxSpawnRadius |
| TankSpawner.CandidateOnRing | UnityProject/Assets/Scripts/ObstacleSpawner.cs:125-133 | a ring sample the arena does not clamp lies between the two spawn radii of the ring centre |
| TankSpawner.TryFrom | UnityProject/Assets/Scripts/ObstacleSpawner.cs:124-147 | the search accepts the first sample that stops it, none before it having stopped, or falls back to the uniform point after all attempts fail |
| TankSpawner.ResolveSpawnPosition | UnityProject/Assets/Scripts/ObstacleSpawner.cs:119-148 | the position is inside the arena at y = 0.55; without a player it is the first sample; the accepted sample is the first of at most 12 with sqrDist ≥ 0.45·minRadius², and the position is that sample; the uniform fallback happens iff there is a player and all 12 fail |
| TankSpawner.CleanupEnemies | UnityProject/Assets/Scripts/ObstacleSpawner.cs:150-153 | exactly the live entries are kept |
| TankSpawner.Facing | UnityProject/Assets/Scripts/ObstacleSpawner.cs:79-84 | a new enemy faces along the ground plane |
| TankSpawner.SpawnEnemy | UnityProject/Assets/Scripts/ObstacleSpawner.cs:76-117 | the new enemy is appended to the tracked list and nothing else in the spawner changes; it is configured with the wave's stats, placed inside the arena at the ring search's result, and faces the player |
| TankSpawner.SpawnFarFromPlayer | UnityProject/Assets/Scripts/ObstacleSpawner.cs:119-148 | with a player present, a spawn the search accepted is at least the minimum distance from it |
| TankSpawner.FacingTowardPlayer | UnityProject/Assets/Scripts/ObstacleSpawner.cs:79-84 | the facing has a positive dot product with the direction to the player whenever the flat part of that direction is not negligible |
| TankSpawner.Update | UnityProject/Assets/Scripts/ObstacleSpawner.cs:35-65 | nothing happens while over or without a player; otherwise the clock and wave advance and the dead are pruned; one enemy spawns iff the timer reached the interval and the live count is under the cap, resetting the timer, never exceeding the cap; the emitted order is the one SpawnEnemy makes for the next id from the ticked, pruned spawner with the timer at 0 |
| TankSpawner.TrackedAreAlive | UnityProject/Assets/Scripts/ObstacleSpawner.cs:54 | after an update every tracked enemy, except the one just spawned, is alive |
| TankSpawner.UpdateWaveMonotone | UnityProject/Assets/Scripts/ObstacleSpawner.cs:51-52 | consecutive updates never lower the recorded wave |
| TankSpawner.ResetSpawner | UnityProject/Assets/Scripts/ObstacleSpawner.cs:67-74 | timers are zero, the wave is 1 and no enemy is tracked |
| TankShell.Initialize | UnityProject/Assets/Scripts/MissileProjectile.cs:67-76 | the direction is unit (forward when negligible), speed ≥ 8 and damage ≥ 1 (in-range values kept), and the lifetime is full |
| TankShell.CreateThenInitialize | UnityProject/Assets/Scripts/MissileProjectile.cs:47 | normalising the heading a second time in `Initialize` changes nothing |
| TankShell.FirstHit | UnityProject/Assets/Scripts/MissileProjectile.cs:105-139 | the scan returns the first collider the shell damages (skipping the owner and its descendants), or none iff no collider qualifies |
| TankShell.Update | UnityProject/Assets/Scripts/MissileProjectile.cs:78-101 | the shell is removed on game over or once its lifetime runs out, before moving; a strike damages only the first qualifying collider, exactly once, and posts the player-hit notice exactly for a player shell with a manager; a flight advances by direction·speed·dt; a live unexpired shell is never removed, and strikes iff some collider at the probed next position qualifies |
| TankShell.HitEventsDamageOnce | UnityProject/Assets/Scripts/MissileProjectile.cs:118-123 | a hit emits exactly one damage event |
| TankShell.CoastLifetime | UnityProject/Assets/Scripts/MissileProjectile.cs:86-91 | without a hit the shell lasts exactly while its lifetime covers the elapsed frames, so it is gone within ⌈L/dt⌉ frames |
| TankShell.CoastGone | UnityProject/Assets/Scripts/MissileProjectile.cs:86-91 | a shell whose next frame expires it stays gone |
| TankShell.CoastStraight | UnityProject/Assets/Scripts/MissileProjectile.cs:93-100 | in open air the shell flies a straight line at constant speed |
| TankAimZone.IndexOf | UnityProject/Assets/Scripts/TankAimZone.cs:57 | the first occurrence of a tracked entry |
| TankAimZone.RemoveFirst | UnityProject/Assets/Scripts/TankAimZone.cs:57 | removing an absent entry changes nothing; removing a present one shortens the list by one |
| TankAimZone.Enter | UnityProject/Assets/Scripts/TankAimZone.cs:37-48 | only a live, untracked enemy is appended, and the list stays duplicate-free |
| TankAimZone.Exit | UnityProject/Assets/Scripts/TankAimZone.cs:50-58 | the leaving enemy is removed and, in a duplicate-free list, nothing else changes |
| TankAimZone.RemoveKeepsOthers | UnityProject/Assets/Scripts/TankAimZone.cs:57 | in a duplicate-free list, removal drops exactly the one entry and keeps the list duplicate-free |
| TankAimZone.RemoveMembers | UnityProject/Assets/Scripts/TankAimZone.cs:57 | in a duplicate-free list, removing x keeps exactly the other entries |
| TankAimZone.RemoveNoDup | UnityProject/Assets/Scripts/TankAimZone.cs:57 | removal keeps a duplicate-free list duplicate-free |
| TankAimZone.EnterThenExit | UnityProject/Assets/Scripts/TankAimZone.cs:37-58 | entering and leaving again restores the list |
| TankAimZone.RemoveLast | UnityProject/Assets/Scripts/TankAimZone.cs:57 | removing the just-appended entry gives back the list |
| TankAimZone.Cleanup | UnityProject/Assets/Scripts/TankAimZone.cs:95-98 | exactly the live entries are kept, and a duplicate-free list stays duplicate-free |
| TankAimZone.HasTarget | UnityProject/Assets/Scripts/TankAimZone.cs:11-18 | the list is pruned first; the answer is true iff some tracked entry is alive |
| TankAimZone.Nearest | UnityProject/Assets/Scripts/TankAimZone.cs:69-85 | none iff no entry is alive and below float.MaxValue; otherwise the alive entry nearest the centre, with the first winning ties |
| TankAimZone.TryGetLockedTarget | UnityProject/Assets/Scripts/TankAimZone.cs:60-88 | after pruning, it returns a tracked alive entry at minimum squared distance to the centre, strictly nearer than every lockable entry tracked before it, or false iff no tracked entry is lockable |
| TankAimZone.Clear | UnityProject/Assets/Scripts/TankAimZone.cs:90-93 | the list is empty and there is no target |
| TankAimZone.NoDupPreserved | UnityProject/Assets/Scripts/TankAimZone.cs:9 | every operation keeps the tracked list duplicate-free |
| Seqs.Filter | UnityProject/Assets/Scripts/ObstacleSpawner.cs:152 | `RemoveAll` keeps exactly the entries that pass |
| Seqs.FilterSubsequence | UnityProject/Assets/Scripts/ObstacleSpawner.cs:152 | the survivors keep their original order |
| Seqs.FilterCounts | UnityProject/Assets/Scripts/ObstacleSpawner.cs:152 | every copy of a passing entry survives and no copy of a failing one |
| Seqs.FilterConcat | UnityProject/Assets/Scripts/ObstacleSpawner.cs:152 | filtering a concatenation filters each part |
| Seqs.FilterIdempotent | UnityProject/Assets/Scripts/TankAimZone.cs:97 | pruning twice is pruning once |
| Seqs.FilterNoDup | UnityProject/Assets/Scripts/TankAimZone.cs:97 | pruning keeps a duplicate-free list duplicate-free |
| ArenaBounds.ClampToArena | UnityProject/Assets/Scripts/ObstacleMover.cs:141-143 | the clamped point is inside a valid arena at the given height, and a point already inside keeps its x and z |
| Match.StartGame | UnityProject/Assets/Scripts/GameManager.cs:61-82 | a fresh running match: no score, timer or shield; the high score is kept; the player and spawner are reset exactly when present, and the spawner is enabled |
| Match.Start | UnityProject/Assets/Scripts/GameManager.cs:36-40 | loading the stored high score, then starting; the invariant holds iff the stored value is non-negative |
| Match.AddScore | UnityProject/Assets/Scripts/GameManager.cs:84-100 | nothing happens while over; otherwise the score moves by the value and the high score is raised, and saved, exactly when beaten, so high score ≥ score |
| Match.AcquireShield | UnityCarRacing/Assets/Scripts/GameManager.cs:115-124 | nothing happens while over; otherwise only the shield goes up |
| Match.GameOver | UnityProject/Assets/Scripts/GameManager.cs:130-140 | idempotent; the first call ends the match and disables the spawner; with no spawner, the arena copy dereferences null and the racer copy skips it (UnityCarRacing/Assets/Scripts/GameManager.cs:143-156) |
| Match.HandleObstacleCollision | UnityCarRacing/Assets/Scripts/GameManager.cs:126-141 | nothing happens while over; a shield is spent with no game over; without one the match ends |
| Match.RestartGame | UnityCarRacing/Assets/Scripts/GameManager.cs:158-171 | all obstacles and shields are removed before `StartGame` |
| Match.Update | UnityProject/Assets/Scripts/GameManager.cs:42-59 | while over only the restart key acts; while running the timer adds one point on reaching the tick and restarts at 0 |
| Match.FramesScore | UnityCarRacing/Assets/Scripts/GameManager.cs:55-72 | a running match never ends by itself, keeps its shield, and gains at most one point per frame; it gains exactly one per frame when frames last at least a tick |
| Match.ShieldAbsorbsOne | UnityCarRacing/Assets/Scripts/GameManager.cs:126-141 | the shield absorbs exactly one collision; the next one ends the match |
| Match.GameOverIdempotent | UnityCarRacing/Assets/Scripts/GameManager.cs:145-148 | a second game over changes nothing and asks nothing |
| Match.OverIsFrozen | UnityProject/Assets/Scripts/GameManager.cs:84-128 | once over, scoring, shields, collisions and frames leave the match unchanged |
| RacerCar.Awake | UnityCarRacing/Assets/Scripts/PlayerCarController.cs:19-22 | the spawn position is remembered, and both timers are zero |
| RacerCar.HandleBoost | UnityCarRacing/Assets/Scripts/PlayerCarController.cs:35-52 | both timers count down only while positive; shift starts a boost only with the cooldown run out, setting both timers afresh |
| RacerCar.CurrentSpeed | UnityCarRacing/Assets/Scripts/PlayerCarController.cs:57 | boost speed iff the boost timer is positive, else normal speed |
| RacerCar.HandleMovement | UnityCarRacing/Assets/Scripts/PlayerCarController.cs:54-63 | x ends in [minX, maxX]: exact when the step stays inside, minX or maxX on the side the step leaves; y and z are unchanged |
| RacerCar.Update | UnityCarRacing/Assets/Scripts/PlayerCarController.cs:24-33 | nothing happens while over; otherwise boost, then move, staying on the road |
| RacerCar.ResetPlayer | UnityCarRacing/Assets/Scripts/PlayerCarController.cs:65-70 | both timers are zero and the car is back at its initial position |
| RacerCar.OnTriggerEnter | UnityCarRacing/Assets/Scripts/PlayerCarController.cs:72-78 | an obstacle contact reports one collision to the match; anything else is ignored |
| RacerCar.FramesBoostTimer | UnityCarRacing/Assets/Scripts/PlayerCarController.cs:37-45 | without shift, both timers only count down, frame after frame |
| RacerCar.BoostLasts | UnityCarRacing/Assets/Scripts/PlayerCarController.cs:37-57 | a boost lasts exactly as long as its timer covers the frames, at boost speed throughout and normal speed after |
| RacerCar.NoBoostDuringCooldown | UnityCarRacing/Assets/Scripts/PlayerCarController.cs:47-51 | while the cooldown covers the next frame, shift does nothing |
| RacerSpawner.ResetSpawner | UnityCarRacing/Assets/Scripts/ObstacleSpawner.cs:55-60 | both timers are zero and the speed is back at its initial value |
| RacerSpawner.SpawnPosition | UnityCarRacing/Assets/Scripts/ObstacleSpawner.cs:69 | the lane x lies in [minX, maxX] at y = spawnY |
| RacerSpawner.SpawnObstacle | UnityCarRacing/Assets/Scripts/ObstacleSpawner.cs:62-75 | nothing without a prefab; otherwise one obstacle at the spawn position, given the speed iff it has a mover |
| RacerSpawner.Update | UnityCarRacing/Assets/Scripts/ObstacleSpawner.cs:31-53 | nothing happens while over; both timers gain dt; a full obstacle timer restarts, spawns at the pre-increment speed and raises the speed, prefab or not; a shield spawns iff a prefab exists and its timer is full, then that timer restarts |
| RacerSpawner.StepObstacles | UnityCarRacing/Assets/Scripts/ObstacleSpawner.cs:41-46 | a frame contributes exactly the due obstacle at the current speed, or none |
| RacerSpawner.ObstaclesConcat | UnityCarRacing/Assets/Scripts/ObstacleSpawner.cs:41-46 | the obstacles of two event runs are the obstacles of each, in order |
| RacerSpawner.SpeedCountsSpawns | UnityCarRacing/Assets/Scripts/ObstacleSpawner.cs:45 | after n spawns the speed is initial + n·increase, and the i-th obstacle got initial + i·increase |
| RacerSpawner.ShiftSpeeds | UnityCarRacing/Assets/Scripts/ObstacleSpawner.cs:45 | prepending an obstacle spawned at v to a run that started at v + inc keeps the speed schedule |
| RacerObstacle.SetSpeed | UnityCarRacing/Assets/Scripts/ObstacleMover.cs:8-11 | the speed is stored as given, with nothing else changed |
| RacerObstacle.Moved | UnityCarRacing/Assets/Scripts/ObstacleMover.cs:15 | z decreases by moveSpeed·dt, and x and y are kept |
| RacerObstacle.Update | UnityCarRacing/Assets/Scripts/ObstacleMover.cs:13-22 | past the despawn line the obstacle asks for one point and is removed, otherwise it moves; with no game-over guard, a finished match drops the point |
| RacerObstacle.RunTravel | UnityCarRacing/Assets/Scripts/ObstacleMover.cs:15-21 | while it lasts, the obstacle has travelled n steps, and it lasts exactly while that keeps it at or before the despawn line |
| RacerObstacle.ScoresOnce | UnityCarRacing/Assets/Scripts/ObstacleMover.cs:17-21 | an obstacle is worth at most one point, earned exactly when it despawns during a running match |
| RacerShield.Update | UnityCarRacing/Assets/Scripts/ShieldPickup.cs:8-16 | the pickup falls by fallSpeed·dt and survives iff it is not below the despawn height |
| RacerShield.OnTriggerEnter2D | UnityCarRacing/Assets/Scripts/ShieldPickup.cs:18-27 | non-player contacts are ignored; the player raises the match's shield once and removes the pickup |
| RacerShield.GrantsOnce | UnityCarRacing/Assets/Scripts/ShieldPickup.cs:18-27 | over any contacts the shield is granted exactly once iff the player touched the pickup, and then the running match holds a shield |
| LoopMover.Update | UnityCarRacing/Assets/Scripts/RuntimeLoopMover.cs:9-24 | nothing happens while over; z drops by moveSpeed·dt and gains one period once when below minZ; x and y never change; a step no longer than the loop keeps z in [minZ, maxZ] |
| LoopMover.Configure | UnityCarRacing/Assets/Scripts/RuntimeLoopMover.cs:26-31 | exactly the speed and both ends are replaced |
| LoopMover.StaysInLoop | UnityCarRacing/Assets/Scripts/RuntimeLoopMover.cs:16-23 | a piece starting inside the loop stays inside forever, keeping its speed and loop and drifting only in z |
| RacerMissile.Initialize | UnityCarRacing/Assets/Scripts/MissileProjectile.cs:41-46 | the heading is unit (forward when negligible), the target is kept and the lifetime is full |
| RacerMissile.Create | UnityCarRacing/Assets/Scripts/MissileProjectile.cs:14-39 | guarding the heading before `Initialize` gives the same missile as `Initialize` alone |
| RacerMissile.DesiredDirection | UnityCarRacing/Assets/Scripts/MissileProjectile.cs:63-71 | a live target more than a negligible distance away gives a unit direction toward it; otherwise the current heading |
| RacerMissile.Update | UnityCarRacing/Assets/Scripts/MissileProjectile.cs:48-88 | removed on game over or expiry before steering, and never otherwise; a flight advances by heading·speed·dt, flying straight without a live target; a hit only on the live locked target, iff within hitRadius² of the new position |
| RacerMissile.UnitFixed | UnityCarRacing/Assets/Scripts/MissileProjectile.cs:73 | renormalising a unit heading changes nothing |
| RacerMissile.StraightStep | UnityCarRacing/Assets/Scripts/MissileProjectile.cs:50-74 | without a live target a frame is one straight step, or removal at expiry |
| RacerMissile.CoastLifetime | UnityCarRacing/Assets/Scripts/MissileProjectile.cs:57-61 | without a live target the missile lasts exactly as many frames as its lifetime covers |
| RacerMissile.CoastIsGlide | UnityCarRacing/Assets/Scripts/MissileProjectile.cs:63-74 | every frame it survives without a target is a frame of straight flight |
| RacerMissile.GlideStraight | UnityCarRacing/Assets/Scripts/MissileProjectile.cs:74 | straight flight covers n steps of speed·dt along an unchanged heading |
| RacerMissile.CoastStraight | UnityCarRacing/Assets/Scripts/MissileProjectile.cs:63-74 | without a live target the missile flies a straight line at constant speed |
| TrackTrail.MarkPosition | UnityCarRacing/Assets/Scripts/TankVFXController.cs:287 | a mark sits 0.015 above its anchor |
| TrackTrail.Alpha | UnityCarRacing/Assets/Scripts/TankVFXController.cs:306 | the alpha lies in [0.09, 0.42], reaching each end when the blend saturates |
| TrackTrail.Push | UnityCarRacing/Assets/Scripts/TankVFXController.cs:293-304 | the line never exceeds the bound; when full the oldest point goes and the rest keep their order; the new mark is last |
| TrackTrail.UpdateTrackTrail | UnityCarRacing/Assets/Scripts/TankVFXController.cs:274-313 | without a line or with a too-close mark nothing changes; otherwise the mark is pushed, the line retinted, and it becomes the last mark |
| TrackTrail.ResetTrail | UnityCarRacing/Assets/Scripts/TankVFXController.cs:315-323 | the line is emptied and the last mark forgotten |
| TrackTrail.LateUpdate | UnityCarRacing/Assets/Scripts/TankVFXController.cs:123-127 | the trails update only when speed > 0.65 and (slip > 0.11 or traction < 0.92), the match is running and the rig exists |
| TrackTrail.PushAllKeepsNewest | UnityCarRacing/Assets/Scripts/TankVFXController.cs:293-304 | the line is a bounded queue: after any pushes it holds exactly the newest max points, in order |
| TrackTrail.PushStep | UnityCarRacing/Assets/Scripts/TankVFXController.cs:293-304 | one push, then the rest, keeps the same newest points |
| TrackTrail.TooCloseIffSquared | UnityCarRacing/Assets/Scripts/TankVFXController.cs:287-291 | the spacing test through the length oracle is the squared-distance test |
| CarRaceGame.RandInt | core/game.py:45 | the draw lands in [lo, hi] and is kept when already there |
| CarRaceGame.SavedHighScore | systems/save_system.py:22-33 | the saved value is the larger of the stored value and the score |
| CarRaceGame.LineRow | core/game.py:52 | lane lines every 90 pixels from y down the screen |
| CarRaceGame.InitialLines | core/game.py:52 | seven lines at y = 0, 90, …, 540 |
| CarRaceGame.ResetRound | core/game.py:41-59 | the car is back at the start, a new obstacle is at the top within [80, 270], no score, shield or boost; the scene, running flag and high score are untouched |
| CarRaceGame.NewGame | core/game.py:37-39 | the game opens on the start screen, running, with the stored high score |
| CarRaceGame.HandleKeydown | core/game.py:78-107 | START+SPACE plays; P pauses and resumes; shift boosts only while playing off cooldown; GAME_OVER+Y resets and plays; ESC, and N after a game over, stop; other keys change nothing; the invariant is kept |
| CarRaceGame.HandleEvents | core/game.py:69-76 | a quit request anywhere among the frame's events stops the game, nothing restarts a stopped game, and the invariant is kept |
| CarRaceGame.KeyDownEvent | core/game.py:69-76 | a single key press is handled by `handle_keydown` |
| CarRaceGame.HandleEventsConcat | core/game.py:69-76 | without a quit request the frame's events are handled one after another |
| CarRaceGame.QuitDropsRest | core/game.py:69-73 | a quit request stops the game after the events before it and drops every event after it |
| CarRaceGame.PauseResumeInOneFrame | core/game.py:69-97 | two P presses in one frame leave a playing game as it was |
| CarRaceGame.PauseResume | core/game.py:86-97 | pausing and resuming gives back the same game |
| CarRaceGame.MoveCar | core/game.py:113-117 | left only when x > 50 and right only when x < width−80; with both keys the moves cancel when the left one is taken and the right test still passes, the car moves right when the left is refused, and it moves left when the right test fails after the left move; the car stays within one step of those limits |
| CarRaceGame.BothKeysInSequence | core/game.py:113-117 | both keys held equals the left move followed by the right move, the right test made on the moved position |
| CarRaceGame.TickFrames | core/game.py:119-122 | a frame timer counts down by one only while positive |
| CarRaceGame.UpdateObstacle | core/game.py:132-139 | the obstacle falls by its speed; past the bottom it restarts at −80 at a new x, scores a point, and both the obstacle and line speeds increase |
| CarRaceGame.SpeedCountsPasses | core/game.py:132-139 | over any number of steps the score grows by at most one per step, and the obstacle and line speeds are their start plus one increment per point scored |
| CarRaceGame.UpdateShieldItem | core/game.py:141-153 | a falling item drops 4 pixels and goes past the bottom; a new item appears only with no shield and no item when the countdown runs out, then the countdown restarts at 360 |
| CarRaceGame.HandleCollisions | core/game.py:155-174 | touching the item raises the shield; an obstacle hit with a shield (even one just picked up) spends it and respawns the obstacle; without one it is game over with the saved high score, and only then |
| CarRaceGame.MoveLines | core/game.py:176-180 | each line moves down by the line speed or restarts at −90 once past the bottom, and no line ends below the screen |
| CarRaceGame.UpdatePlaying | core/game.py:109-130 | one playing frame: the frame counter steps; the score gains one per obstacle passed plus one per tick frame; timers, car, line and obstacle speeds follow their rules; the game ends exactly when the moved car meets the dropped obstacle with no shield to spend; the lane lines move by the new line speed; the invariant is kept |
| CarRaceGame.Advance | core/game.py:110-126 | before the collision test the frame is counted and the car steered at the boost or normal speed, while scene, shield, lines and high score are untouched |
| CarRaceGame.Frame | core/game.py:236-244 | one loop pass handles the events, then a playing step only while playing, which counts one frame past the handled state; a paused game with no events is frozen, a playing one takes exactly one playing step; the invariant is kept |
| CarRaceGame.TimersAfter | core/game.py:119-122 | counting down from t for n frames gives max(0, t − n), so the timers never go negative |
| CarRaceGame.BoostWindow | core/game.py:89-91 | a boost lasts 40 frames, and the next can start only after 240 |
| CarRaceGame.ShieldCountdown | core/game.py:147-153 | with no shield and no item, an item appears after exactly the countdown's frames, not before, and the countdown restarts |
| CarRaceGame.TickStep | core/game.py:129-130 | one more frame adds a tick exactly when it completes a period |
| CarRaceGame.TicksCount | core/game.py:129-130 | over any n frames the score tick fires once per completed 60-frame period |
| CarRaceGame.SteerStaysNearRoad | core/game.py:113-117 | over any steering with speeds in [0, top], the car stays within top of the steering limits |
| CarRaceGame.ShieldAbsorbsOneHit | core/game.py:163-174 | an active shield absorbs one obstacle hit, and a second hit right after ends the game |

## Left out

- Quaternion and vector maths (`RotateTowards`, `LookRotation`, `Vector3.Angle`, `Slerp`) are inputs or oracles. The hull and turret rotation themselves, and the enemy's `TickTurret`, are not modelled: they only turn transforms toward a direction the model already computes.
- Floating point: every quantity is an unbounded `real` or `int`, not an IEEE float.
- Engine-measured values are inputs: the enemy views' distance and bearing, the hull frame after a turn, muzzle positions, and `Time.deltaTime`.
- `Destroy` is modelled as removal within the same frame. The engine defers it to the end of the frame.
- Singletons and scene queries (`Instance`, `Bootstrap`, `FindAnyObjectByType`) are explicit optional arguments; a `GameManager.Instance?.` call is an event emitted only when the `hasManager` flag is set.
- Actor construction (`CreateRuntimeEnemyTank`, the rig and physics set-up, the road and car factories) has no stateable behaviour.
- Rendering, audio and UI are presentation only: materials, impact effects, sounds, `OnGUI`, the UI controller, and `draw_*`/`render` in `core/game.py`.
- TankVFXController dust, slip smoothing and the speed, slip and traction fed to the trails are presentation numerics; they are inputs.
- `PlayerPrefs` and the JSON save file are I/O. `Match.Start` takes the stored high score as a value, and a save is an effect.
- CarRaceGame.SavedHighScore: the score is compared with the high score the game holds, not with one re-read from the file, and a failed write (which keeps the old value) is not modelled, because file I/O is outside the model.
- CarRaceGame: pygame `Rect` stores integer coordinates, so the lane lines' fractional line speed is truncated on every move. The model keeps lane-line and shield positions as reals.
- CarRaceGame: `BALANCE.initial_obstacle_speed`, `car_speed`, `boost_speed` and `obstacle_speed_increase` are not defined by `BalanceConfig` (config.py:15-27). They are the free parameters of `Balance`.
- The game calls `HandlePlayerDamaged`, `RegisterPlayerShot`, `RegisterPlayerHit`, `HandleEnemyDestroyed` and `ApplyMissileHit`, but no file here defines them. They are emitted as events, and their effect is not modelled.
- TrackTrail.Push and TrackTrail.UpdateTrackTrail require `maxPointsPerTrail >= 1`. With a bound below 1 the source would index an empty line.
- TankPlayer.HandleMovement: the hull rotation and the hull velocity's direction come from the engine frame oracle. Only the arena clamp, the height, the track speeds and the turn magnitude are stated.
- RacerMissile.Update: the turn toward the target goes through the `Slerp` oracle. Only the law that turning toward the current heading changes nothing is assumed, so the steered heading is stated as unit or zero, not as a specific direction.
- TankEnemy.TickFire: the misalignment test uses the engine's normalisation. The contract states which branch fires and with what timer, not the dot product's value.
- ShieldPickup uses a 2D trigger; contact is an input flag.
- Gameplay that no file here contains (kill goals, hull health, victory) is not invented.

=== FILE: car_race_game.dfy ===
/**
 The pygame racer (`CarRaceGame` in `core/game.py`): a scene machine
 START / PLAYING / PAUSED / GAME_OVER driven by key presses, and a
 frame-counted playing step that moves the car, ticks the boost timers,
 drops the obstacle and the shield item, resolves collisions, scrolls the
 lane lines and adds a point every `score_tick_frames` frames.

 Screen coordinates are reals (y grows downwards). `random.randint` is a
 raw integer draw clamped into its range, `Rect.colliderect` is an oracle,
 and the saved high score is `max(stored, score)`. The four balance values
 the game reads but the configuration does not define are parameters.
 */
module CarRaceGame {
  import opened Options

  /** Display and balance constants. */
  const Width: int := 400
  const Height: int := 600
  const BoostDurationFrames: int := 40
  const BoostCooldownFrames: int := 240
  const InitialLineSpeed: real := 5.0
  const LineSpeedIncrease: real := 0.04
  const ScoreTickFrames: int := 60
  const ShieldSpawnIntervalFrames: int := 360
  const ShieldFallSpeed: real := 4.0
  const ShieldSize: real := 28.0

  /** Where a respawned obstacle and a wrapped lane line restart. */
  const ObstacleTop: real := -80.0
  const LineTop: real := -90.0

  /** The car is steerable left of this x and right of `RightLimit`. */
  const LeftLimit: real := 50.0
  const RightLimit: real := 320.0   // `DISPLAY.width - 80`

  /** Balance values the game reads that the configuration does not provide. */
  datatype Balance = Balance(initialObstacleSpeed: real, carSpeed: real, boostSpeed: real, obstacleSpeedIncrease: real)

  datatype Scene = Start | Playing | Paused | GameOver

  datatype Key = Space | Escape | KeyP | LeftShift | KeyY | KeyN | OtherKey(code: int)

  datatype Event = Quit | KeyDown(key: Key) | OtherEvent

  datatype Rect = Rect(x: real, y: real, w: real, h: real)

  datatype Game = Game(
    scene: Scene,
    running: bool,
    highScore: int,
    carX: real,
    carY: real,
    obsX: int,
    obsY: real,
    obsSpeed: real,
    score: int,
    frameCounter: int,
    lineSpeed: real,
    lines: seq<real>,          // the y of each lane line
    shieldActive: bool,
    shieldItem: Option<Rect>,
    nextShieldSpawn: int,
    boostTimer: int,
    boostCooldown: int)

  /** The per-frame inputs: arrow keys held and the frame's random draws. */
  datatype Input = Input(left: bool, right: bool, obstacleDraw: int, shieldDraw: int, respawnDraw: int)

  /**
   What every reachable game keeps: the boost never outlasts its cooldown,
   the shield countdown stays within its interval, counters are
   non-negative and the lane lines are all there.
   */
  predicate Inv(g: Game) {
    && 0 <= g.boostTimer <= g.boostCooldown <= BoostCooldownFrames
    && g.boostTimer <= BoostDurationFrames
    && 1 <= g.nextShieldSpawn <= ShieldSpawnIntervalFrames
    && 0 <= g.score && 0 <= g.frameCounter
    && |g.lines| == 7
  }

  /** `random.randint(lo, hi)` from a raw draw. */
  function RandInt(lo: int, hi: int, draw: int): (r: int)
    requires lo <= hi
    ensures lo <= r <= hi
    ensures lo <= draw <= hi ==> r == draw
  {
    if draw < lo then lo else if draw > hi then hi else draw
  }

  /** `update_highscore`: the stored value, or the score when it beats it. */
  function SavedHighScore(stored: int, score: int): (r: int)
    ensures r >= stored && r >= score
    ensures r == stored || r == score
  {
    if score <= stored then stored else score
  }

  /** The lane lines' y from `y` down the screen, one every 90 pixels. */
  function LineRow(y: int): (r: seq<real>)
    requires 0 <= y
    ensures forall k :: 0 <= k < |r| ==> r[k] == (y + 90 * k) as real && r[k] < Height as real
    ensures y < Height ==> |r| > 0
    decreases Height - y
  {
    if y >= Height then [] else [y as real] + LineRow(y + 90)
  }

  /** The seven lines of a fresh round, at y = 0, 90, …, 540. */
  function InitialLines(): (r: seq<real>)
    ensures |r| == 7
    ensures forall k :: 0 <= k < 7 ==> r[k] == (90 * k) as real
  {
    LineRow(0)
  }

  /**
   `reset_round`: the car back at the start, a new obstacle at the top,
   no score, no shield, no boost; the scene, `running` and the high score
   are untouched.
   */
  function ResetRound(g: Game, b: Balance, draw: int): (r: Game)
    ensures r.carX == (Width / 2 - 25) as real && r.carY == (Height - 110) as real
    ensures 80 <= r.obsX <= Width - 130 && r.obsY == ObstacleTop && r.obsSpeed == b.initialObstacleSpeed
    ensures r.score == 0 && r.frameCounter == 0 && r.lineSpeed == InitialLineSpeed && r.lines == InitialLines()
    ensures !r.shieldActive && r.shieldItem.None? && r.nextShieldSpawn == ShieldSpawnIntervalFrames
    ensures r.boostTimer == 0 && r.boostCooldown == 0
    ensures r.scene == g.scene && r.running == g.running && r.highScore == g.highScore
    ensures Inv(r)
  {
    g.(carX := (Width / 2 - 25) as real, carY := (Height - 110) as real,
       obsX := RandInt(80, Width - 130, draw), obsY := ObstacleTop, obsSpeed := b.initialObstacleSpeed,
       score := 0, frameCounter := 0, lineSpeed := InitialLineSpeed, lines := InitialLines(),
       shieldActive := false, shieldItem := None, nextShieldSpawn := ShieldSpawnIntervalFrames,
       boostTimer := 0, boostCooldown := 0)
  }

  /** The opening state: the start screen over a fresh round. */
  function NewGame(storedHighScore: int, b: Balance, draw: int): (r: Game)
    ensures r.scene == Start && r.running && r.highScore == storedHighScore
    ensures Inv(r)
  {
    ResetRound(Game(Start, true, storedHighScore, 0.0, 0.0, 0, 0.0, 0.0, 0, 0, 0.0, [], false, None, 1, 0, 0), b, draw)
  }

  /** The key presses `handle_keydown` reacts to in each scene. */
  predicate Reacts(scene: Scene, key: Key, boostCooldown: int) {
    || key == Escape
    || (scene == Start && key == Space)
    || (scene == Playing && key == KeyP)
    || (scene == Playing && key == LeftShift && boostCooldown == 0)
    || (scene == Paused && key == KeyP)
    || (scene == GameOver && (key == KeyY || key == KeyN))
  }

  /**
   `handle_keydown`. SPACE starts from the start screen, P pauses and
   resumes, left shift starts a boost while playing and off cooldown, Y
   after a game over resets the round and plays, N there and ESC anywhere
   stop the game; every other key changes nothing.
   */
  function HandleKeydown(g: Game, key: Key, b: Balance, draw: int): (r: Game)
    ensures !Reacts(g.scene, key, g.boostCooldown) ==> r == g
    ensures g.scene == Start && key == Space ==> r == g.(scene := Playing)
    ensures g.scene == Playing && key == KeyP ==> r == g.(scene := Paused)
    ensures g.scene == Paused && key == KeyP ==> r == g.(scene := Playing)
    ensures g.scene == Playing && key == LeftShift && g.boostCooldown == 0 ==>
      r == g.(boostTimer := BoostDurationFrames, boostCooldown := BoostCooldownFrames)
    ensures g.scene == GameOver && key == KeyY ==> r == ResetRound(g, b, draw).(scene := Playing)
    ensures key == Escape || (g.scene == GameOver && key == KeyN) ==> r == g.(running := false)
    ensures r.running ==> g.running
    ensures r.boostTimer != g.boostTimer ==> g.scene == Playing || g.scene == GameOver
    ensures Inv(g) ==> Inv(r)
  {
    match g.scene
    case Start =>
      if key == Space then g.(scene := Playing)
      else if key == Escape then g.(running := false)
      else g
    case Playing =>
      if key == KeyP then g.(scene := Paused)
      else if key == LeftShift && g.boostCooldown == 0 then
        g.(boostTimer := BoostDurationFrames, boostCooldown := BoostCooldownFrames)
      else if key == Escape then g.(running := false)
      else g
    case Paused =>
      if key == KeyP then g.(scene := Playing)
      else if key == Escape then g.(running := false)
      else g
    case GameOver =>
      if key == KeyY then ResetRound(g, b, draw).(scene := Playing)
      else if key == KeyN || key == Escape then g.(running := false)
      else g
  }

  /**
   `handle_events`: key presses in order; a quit request stops the game and
   drops the rest of the frame's events. One draw serves the frame: at most
   one Y press can find the game over, since it leaves the scene playing.
   */
  function HandleEvents(g: Game, events: seq<Event>, b: Balance, draw: int): (r: Game)
    ensures Quit in events ==> !r.running
    ensures r.running ==> g.running
    ensures Inv(g) ==> Inv(r)
    decreases |events|
  {
    if |events| == 0 then g
    else match events[0]
      case Quit => g.(running := false)
      case KeyDown(key) => HandleEvents(HandleKeydown(g, key, b, draw), events[1..], b, draw)
      case OtherEvent => HandleEvents(g, events[1..], b, draw)
  }

  /** Pausing and resuming gives back the game as it was. */
  lemma PauseResume(g: Game, b: Balance, draw: int)
    requires g.scene == Playing
    ensures HandleKeydown(HandleKeydown(g, KeyP, b, draw), KeyP, b, draw) == g
  {
  }

  /** A single key press is handled by `handle_keydown`. */
  lemma KeyDownEvent(g: Game, key: Key, b: Balance, draw: int)
    ensures HandleEvents(g, [KeyDown(key)], b, draw) == HandleKeydown(g, key, b, draw)
  {
    assert [KeyDown(key)][1..] == [];
  }

  /** Without a quit request, the events of a frame are handled one after another. */
  lemma {:induction false} HandleEventsConcat(g: Game, a: seq<Event>, c: seq<Event>, b: Balance, draw: int)
    requires Quit !in a
    ensures HandleEvents(g, a + c, b, draw) == HandleEvents(HandleEvents(g, a, b, draw), c, b, draw)
    decreases |a|
  {
    if |a| == 0 {
      assert a + c == c;
    } else {
      assert (a + c)[0] == a[0];
      assert (a + c)[1..] == a[1..] + c;
      assert Quit !in a[1..];
      match a[0]
      case KeyDown(key) => HandleEventsConcat(HandleKeydown(g, key, b, draw), a[1..], c, b, draw);
      case OtherEvent => HandleEventsConcat(g, a[1..], c, b, draw);
    }
  }

  /**
   A quit request stops the game after the events before it were handled,
   and drops every event after it.
   */
  lemma {:induction false} QuitDropsRest(g: Game, a: seq<Event>, c: seq<Event>, b: Balance, draw: int)
    requires Quit !in a
    ensures HandleEvents(g, a + [Quit] + c, b, draw) == HandleEvents(g, a, b, draw).(running := false)
    decreases |a|
  {
    if |a| == 0 {
      assert a + [Quit] + c == [Quit] + c;
    } else {
      assert (a + [Quit] + c)[0] == a[0];
      assert (a + [Quit] + c)[1..] == a[1..] + [Quit] + c;
      assert Quit !in a[1..];
      match a[0]
      case KeyDown(key) => QuitDropsRest(HandleKeydown(g, key, b, draw), a[1..], c, b, draw);
      case OtherEvent => QuitDropsRest(g, a[1..], c, b, draw);
    }
  }

  /** Pressing P twice in one frame leaves a playing game as it was. */
  lemma PauseResumeInOneFrame(g: Game, b: Balance, draw: int)
    requires g.scene == Playing
    ensures HandleEvents(g, [KeyDown(KeyP), KeyDown(KeyP)], b, draw) == g
  {
    assert [KeyDown(KeyP), KeyDown(KeyP)] == [KeyDown(KeyP)] + [KeyDown(KeyP)];
    HandleEventsConcat(g, [KeyDown(KeyP)], [KeyDown(KeyP)], b, draw);
    KeyDownEvent(g, KeyP, b, draw);
    KeyDownEvent(HandleKeydown(g, KeyP, b, draw), KeyP, b, draw);
    PauseResume(g, b, draw);
  }

  /** Steering: left only right of the left limit, then right only left of the right limit. */
  function MoveCar(x: real, left: bool, right: bool, speed: real): (r: real)
    ensures !left && !right ==> r == x
    ensures left && !right ==> r == if x > LeftLimit then x - speed else x
    ensures right && !left ==> r == if x < RightLimit then x + speed else x
    ensures left && right && x > LeftLimit && x - speed < RightLimit ==> r == x
    ensures left && right && x > LeftLimit && x - speed >= RightLimit ==> r == x - speed
    ensures left && right && x <= LeftLimit && x < RightLimit ==> r == x + speed
    ensures 0.0 <= speed && LeftLimit - speed <= x <= RightLimit + speed ==>
      LeftLimit - speed <= r <= RightLimit + speed
  {
    var afterLeft := if left && x > LeftLimit then x - speed else x;
    if right && afterLeft < RightLimit then afterLeft + speed else afterLeft
  }

  /** Both keys held: the left move, then the right move tested against the moved position. */
  lemma BothKeysInSequence(x: real, speed: real)
    ensures MoveCar(x, true, true, speed) == MoveCar(MoveCar(x, true, false, speed), false, true, speed)
  {
  }

  /** A frame timer counts down by one while positive. */
  function TickFrames(t: int): (r: int)
    ensures t > 0 ==> r == t - 1
    ensures t <= 0 ==> r == t
  {
    if t > 0 then t - 1 else t
  }

  /**
   `update_obstacle`: the obstacle falls by its speed; once below the
   screen it restarts at the top at a new x, scores a point, and both the
   obstacle and the lane lines speed up.
   */
  function UpdateObstacle(g: Game, b: Balance, draw: int): (r: Game)
    ensures g.obsY + g.obsSpeed <= Height as real ==> r == g.(obsY := g.obsY + g.obsSpeed)
    ensures g.obsY + g.obsSpeed > Height as real ==>
      && r == g.(obsY := ObstacleTop, obsX := r.obsX, score := g.score + 1,
                 obsSpeed := g.obsSpeed + b.obstacleSpeedIncrease, lineSpeed := g.lineSpeed + LineSpeedIncrease)
      && 80 <= r.obsX <= Width - 130
  {
    var y := g.obsY + g.obsSpeed;
    if y > Height as real then
      g.(obsY := ObstacleTop, obsX := RandInt(80, Width - 130, draw), score := g.score + 1,
         obsSpeed := g.obsSpeed + b.obstacleSpeedIncrease, lineSpeed := g.lineSpeed + LineSpeedIncrease)
    else g.(obsY := y)
  }

  /**
   `update_shield_item`: a falling item drops by its speed and is gone
   below the screen; with no shield and no item the countdown runs, and
   when it runs out an item appears at the top and the countdown restarts.
   */
  function UpdateShieldItem(g: Game, draw: int): (r: Game)
    ensures r == g.(shieldItem := r.shieldItem, nextShieldSpawn := r.nextShieldSpawn)
    ensures g.shieldItem.Some? && g.shieldItem.value.y + ShieldFallSpeed <= Height as real ==>
      r.shieldItem == Some(g.shieldItem.value.(y := g.shieldItem.value.y + ShieldFallSpeed)) &&
      r.nextShieldSpawn == g.nextShieldSpawn
    ensures r.shieldItem.Some? && g.shieldItem.None? ==>
      && !g.shieldActive && g.nextShieldSpawn <= 1
      && r.nextShieldSpawn == ShieldSpawnIntervalFrames
      && var item := r.shieldItem.value;
        60.0 <= item.x <= (Width - 90) as real && item.y == -ShieldSize && item.w == ShieldSize && item.h == ShieldSize
    ensures g.shieldActive ==> r.nextShieldSpawn == g.nextShieldSpawn && (r.shieldItem.Some? ==> g.shieldItem.Some?)
    ensures !g.shieldActive && r.shieldItem.None? ==> r.nextShieldSpawn == g.nextShieldSpawn - 1 && g.nextShieldSpawn > 1
    ensures 1 <= g.nextShieldSpawn <= ShieldSpawnIntervalFrames ==> 1 <= r.nextShieldSpawn <= ShieldSpawnIntervalFrames
  {
    var item :=
      if g.shieldItem.Some? then
        var fallen := g.shieldItem.value.(y := g.shieldItem.value.y + ShieldFallSpeed);
        if fallen.y > Height as real then None else Some(fallen)
      else None;
    if !g.shieldActive && item.None? then
      var next := g.nextShieldSpawn - 1;
      if next <= 0 then
        var x := RandInt(60, Width - 90, draw) as real;
        g.(shieldItem := Some(Rect(x, -ShieldSize, ShieldSize, ShieldSize)), nextShieldSpawn := ShieldSpawnIntervalFrames)
      else g.(shieldItem := None, nextShieldSpawn := next)
    else g.(shieldItem := item)
  }

  /** The car's and the obstacle's rectangles. */
  function CarRect(g: Game): Rect {
    Rect(g.carX, g.carY, 50.0, 90.0)
  }

  function ObstacleRect(g: Game): Rect {
    Rect(g.obsX as real, g.obsY, 50.0, 80.0)
  }

  /** The car touches the shield item this frame. */
  predicate PicksShield(g: Game, collide: (Rect, Rect) -> bool) {
    g.shieldItem.Some? && collide(CarRect(g), g.shieldItem.value)
  }

  /** The car meets the obstacle with no shield to spend, not even one it picks up now. */
  predicate Crashes(g: Game, collide: (Rect, Rect) -> bool) {
    collide(CarRect(g), ObstacleRect(g)) && !(g.shieldActive || PicksShield(g, collide))
  }

  /**
   `handle_collisions`: touching the item raises the shield and removes the
   item. Touching the obstacle with a shield (even one just picked up)
   spends it and sends the obstacle back to the top; without one the game
   is over and the high score saved.
   */
  function HandleCollisions(g: Game, collide: (Rect, Rect) -> bool, draw: int): (r: Game)
    ensures r == g.(scene := r.scene, highScore := r.highScore, shieldActive := r.shieldActive,
                    shieldItem := r.shieldItem, obsX := r.obsX, obsY := r.obsY)
    ensures r.shieldItem == if PicksShield(g, collide) then None else g.shieldItem
    ensures !collide(CarRect(g), ObstacleRect(g)) ==>
      r == g.(shieldActive := g.shieldActive || PicksShield(g, collide), shieldItem := r.shieldItem)
    ensures collide(CarRect(g), ObstacleRect(g)) && (g.shieldActive || PicksShield(g, collide)) ==>
      && !r.shieldActive && r.scene == g.scene && r.highScore == g.highScore
      && r.obsY == ObstacleTop && 80 <= r.obsX <= Width - 130
    ensures collide(CarRect(g), ObstacleRect(g)) && !(g.shieldActive || PicksShield(g, collide)) ==>
      && r.scene == GameOver && r.highScore == SavedHighScore(g.highScore, g.score)
      && !r.shieldActive && r.obsX == g.obsX && r.obsY == g.obsY
    ensures r.scene == (if Crashes(g, collide) then GameOver else g.scene)
  {
    var picked := PicksShield(g, collide);
    var g1 := if picked then g.(shieldActive := true, shieldItem := None) else g;
    if collide(CarRect(g1), ObstacleRect(g1)) then
      if g1.shieldActive then
        g1.(shieldActive := false, obsY := ObstacleTop, obsX := RandInt(80, Width - 130, draw))
      else
        g1.(scene := GameOver, highScore := SavedHighScore(g1.highScore, g1.score))
    else g1
  }

  /**
   `move_lines`: every line moves down by the line speed and one that
   leaves the screen restarts above it. No line ever ends below the
   screen, and lines on screen stay on screen while the speed is
   non-negative.
   */
  function MoveLines(lines: seq<real>, speed: real): (r: seq<real>)
    ensures |r| == |lines|
    ensures forall i :: 0 <= i < |r| ==> r[i] <= Height as real
    ensures forall i :: 0 <= i < |r| ==> (r[i] == LineTop <==> lines[i] + speed > Height as real || lines[i] + speed == LineTop)
    ensures forall i :: 0 <= i < |r| ==> r[i] == LineTop || r[i] == lines[i] + speed
    ensures 0.0 <= speed && (forall i :: 0 <= i < |lines| ==> LineTop <= lines[i]) ==>
      forall i :: 0 <= i < |r| ==> LineTop <= r[i]
    decreases |lines|
  {
    if |lines| == 0 then []
    else
      var y := lines[0] + speed;
      [if y > Height as real then LineTop else y] + MoveLines(lines[1..], speed)
  }

  /** The score tick: a point on every `score_tick_frames`-th frame. */
  predicate TickFrame(frame: int) {
    frame % ScoreTickFrames == 0
  }

  /**
   The part of `update_playing` before the collision test: count the frame,
   steer, tick the boost timers, drop the obstacle and the shield item.
   */
  function Advance(g: Game, b: Balance, inp: Input): (r: Game)
    ensures r.scene == g.scene && r.running == g.running && r.highScore == g.highScore
    ensures r.shieldActive == g.shieldActive && r.lines == g.lines && r.carY == g.carY
    ensures r.frameCounter == g.frameCounter + 1
    ensures r.carX == MoveCar(g.carX, inp.left, inp.right, if g.boostTimer > 0 then b.boostSpeed else b.carSpeed)
  {
    var speed := if g.boostTimer > 0 then b.boostSpeed else b.carSpeed;
    var moved := g.(frameCounter := g.frameCounter + 1, carX := MoveCar(g.carX, inp.left, inp.right, speed),
                    boostTimer := TickFrames(g.boostTimer), boostCooldown := TickFrames(g.boostCooldown));
    UpdateShieldItem(UpdateObstacle(moved, b, inp.obstacleDraw), inp.shieldDraw)
  }

  /**
   `update_playing`, one frame while playing. The score gains one point for
   an obstacle that left the screen and one on a tick frame — the tick is
   added even on the frame that ends the game, so the saved high score may
   trail the final score by that one point.
   */
  function UpdatePlaying(g: Game, b: Balance, inp: Input, collide: (Rect, Rect) -> bool): (r: Game)
    ensures r.frameCounter == g.frameCounter + 1
    ensures r.running == g.running
    ensures r.scene == g.scene || r.scene == GameOver
    ensures r.score == g.score + (if g.obsY + g.obsSpeed > Height as real then 1 else 0) + (if TickFrame(r.frameCounter) then 1 else 0)
    ensures r.boostTimer == TickFrames(g.boostTimer) && r.boostCooldown == TickFrames(g.boostCooldown)
    ensures r.carX == MoveCar(g.carX, inp.left, inp.right, if g.boostTimer > 0 then b.boostSpeed else b.carSpeed)
    ensures r.carY == g.carY
    ensures r.lineSpeed == g.lineSpeed + (if g.obsY + g.obsSpeed > Height as real then LineSpeedIncrease else 0.0)
    ensures r.obsSpeed == g.obsSpeed + (if g.obsY + g.obsSpeed > Height as real then b.obstacleSpeedIncrease else 0.0)
    ensures r.scene == GameOver && g.scene != GameOver ==>
      && r.highScore == SavedHighScore(g.highScore, r.score - (if TickFrame(r.frameCounter) then 1 else 0))
      && r.score <= r.highScore + 1
    ensures r.scene != GameOver ==> r.highScore == g.highScore
    ensures g.scene != GameOver ==> (r.scene == GameOver <==> Crashes(Advance(g, b, inp), collide))
    ensures r.lines == MoveLines(g.lines, r.lineSpeed)
    ensures |r.lines| == |g.lines|
    ensures Inv(g) ==> Inv(r)
  {
    var g5 := Advance(g, b, inp);
    var g6 := HandleCollisions(g5, collide, inp.respawnDraw);
    var g7 := g6.(lines := MoveLines(g6.lines, g6.lineSpeed));
    if TickFrame(g7.frameCounter) then g7.(score := g7.score + 1) else g7
  }

  /** One pass of the main loop: the frame's events, then a playing step if the game is playing. */
  function Frame(g: Game, events: seq<Event>, b: Balance, inp: Input, collide: (Rect, Rect) -> bool, draw: int): (r: Game)
    ensures Inv(g) ==> Inv(r)
    ensures r.running ==> g.running
    ensures HandleEvents(g, events, b, draw).scene != Playing ==> r == HandleEvents(g, events, b, draw)
    ensures HandleEvents(g, events, b, draw).scene == Playing ==>
      r.frameCounter == HandleEvents(g, events, b, draw).frameCounter + 1 && r.running == HandleEvents(g, events, b, draw).running
    ensures events == [] && g.scene == Paused ==> r == g
    ensures events == [] && g.scene == Playing ==> r == UpdatePlaying(g, b, inp, collide)
  {
    var h := HandleEvents(g, events, b, draw);
    if h.scene == Playing then UpdatePlaying(h, b, inp, collide) else h
  }

  /** `n` frames of the boost timer and its cooldown, without a new boost. */
  function Timers(t: int, c: int, n: nat): (int, int)
    decreases n
  {
    if n == 0 then (t, c) else Timers(TickFrames(t), TickFrames(c), n - 1)
  }

  /** Counting down from `t >= 0` for `n` frames gives `max(0, t - n)`. */
  lemma {:induction false} TimersAfter(t: int, c: int, n: nat)
    requires t >= 0 && c >= 0
    ensures Timers(t, c, n) == (if t >= n then t - n else 0, if c >= n then c - n else 0)
    decreases n
  {
    if n > 0 {
      TimersAfter(TickFrames(t), TickFrames(c), n - 1);
    }
  }

  /**
   A boost runs for `boost_duration_frames` frames, and the next one can
   start only after `boost_cooldown_frames` frames.
   */
  lemma BoostWindow(n: nat)
    ensures Timers(BoostDurationFrames, BoostCooldownFrames, n).0 > 0 <==> n < BoostDurationFrames
    ensures Timers(BoostDurationFrames, BoostCooldownFrames, n).1 == 0 <==> n >= BoostCooldownFrames
  {
    TimersAfter(BoostDurationFrames, BoostCooldownFrames, n);
  }

  /** `n` frames of the shield item logic, with one draw. */
  function ShieldFrames(g: Game, draw: int, n: nat): Game
    decreases n
  {
    if n == 0 then g else ShieldFrames(UpdateShieldItem(g, draw), draw, n - 1)
  }

  /**
   With no shield and no item, an item appears after exactly
   `nextShieldSpawn` frames, not before, and the countdown restarts.
   */
  lemma {:induction false} ShieldCountdown(g: Game, draw: int, n: nat)
    requires !g.shieldActive && g.shieldItem.None? && 1 <= g.nextShieldSpawn
    requires n <= g.nextShieldSpawn
    ensures n < g.nextShieldSpawn ==>
      ShieldFrames(g, draw, n).shieldItem.None? && ShieldFrames(g, draw, n).nextShieldSpawn == g.nextShieldSpawn - n
    ensures n == g.nextShieldSpawn ==>
      ShieldFrames(g, draw, n).shieldItem.Some? && ShieldFrames(g, draw, n).nextShieldSpawn == ShieldSpawnIntervalFrames
    decreases n
  {
    if n > 0 {
      var g1 := UpdateShieldItem(g, draw);
      if g.nextShieldSpawn == 1 {
        assert n == 1;
        assert ShieldFrames(g1, draw, 0) == g1;
      } else {
        ShieldCountdown(g1, draw, n - 1);
      }
    }
  }

  /** Tick frames among frames `f + 1 .. f + n`. */
  function Ticks(f: nat, n: nat): nat
    decreases n
  {
    if n == 0 then 0 else (if TickFrame(f + 1) then 1 else 0) + Ticks(f + 1, n - 1)
  }

  /** One more frame adds a tick exactly when it completes a multiple of the period. */
  lemma TickStep(f: nat)
    ensures (f + 1) / ScoreTickFrames - f / ScoreTickFrames == if TickFrame(f + 1) then 1 else 0
  {
    var q := f / ScoreTickFrames;
    var m := f % ScoreTickFrames;
    assert f == ScoreTickFrames * q + m;
    if m == ScoreTickFrames - 1 {
      assert f + 1 == ScoreTickFrames * (q + 1);
    } else {
      assert f + 1 == ScoreTickFrames * q + (m + 1);
    }
  }

  /** Over any `n` frames the tick scores once per completed period. */
  lemma {:induction false} TicksCount(f: nat, n: nat)
    ensures Ticks(f, n) == (f + n) / ScoreTickFrames - f / ScoreTickFrames
    decreases n
  {
    if n > 0 {
      TickStep(f);
      TicksCount(f + 1, n - 1);
    }
  }

  /** Steering over several frames; each step is (left held, right held, speed). */
  function Steer(x: real, steps: seq<(bool, bool, real)>): real
    decreases |steps|
  {
    if |steps| == 0 then x else Steer(MoveCar(x, steps[0].0, steps[0].1, steps[0].2), steps[1..])
  }

  /**
   The car never leaves the road by more than one step: with every speed
   in `[0, top]`, a car within `top` of the steering limits stays there.
   */
  lemma {:induction false} SteerStaysNearRoad(x: real, steps: seq<(bool, bool, real)>, top: real)
    requires LeftLimit - top <= x <= RightLimit + top
    requires forall i :: 0 <= i < |steps| ==> 0.0 <= steps[i].2 <= top
    ensures LeftLimit - top <= Steer(x, steps) <= RightLimit + top
    decreases |steps|
  {
    if |steps| > 0 {
      var s := steps[0];
      var next := MoveCar(x, s.0, s.1, s.2);
      assert LeftLimit - top <= next <= RightLimit + top;
      SteerStaysNearRoad(next, steps[1..], top);
    }
  }

  /** A shield absorbs one obstacle hit; the next hit ends the game. */
  lemma ShieldAbsorbsOneHit(g: Game, collide: (Rect, Rect) -> bool, draw1: int, draw2: int)
    requires g.shieldActive && g.shieldItem.None? && g.scene == Playing
    requires collide(CarRect(g), ObstacleRect(g))
    requires var g1 := HandleCollisions(g, collide, draw1); collide(CarRect(g1), ObstacleRect(g1))
    ensures HandleCollisions(g, collide, draw1).scene == Playing
    ensures HandleCollisions(HandleCollisions(g, collide, draw1), collide, draw2).scene == GameOver
  {
  }

  /** `n` obstacle steps, one draw each. */
  function ObstacleFrames(g: Game, b: Balance, draws: seq<int>): Game
    decreases |draws|
  {
    if |draws| == 0 then g else ObstacleFrames(UpdateObstacle(g, b, draws[0]), b, draws[1..])
  }

  /**
   Each obstacle that leaves the screen scores a point and speeds the
   obstacle and the lane lines up by one increment each: after any number
   of steps both speeds are their start plus one increment per point.
   */
  lemma {:induction false} SpeedCountsPasses(g: Game, b: Balance, draws: seq<int>)
    ensures var r := ObstacleFrames(g, b, draws);
      && g.score <= r.score <= g.score + |draws|
      && r.obsSpeed == g.obsSpeed + (r.score - g.score) as real * b.obstacleSpeedIncrease
      && r.lineSpeed == g.lineSpeed + (r.score - g.score) as real * LineSpeedIncrease
    decreases |draws|
  {
    if |draws| > 0 {
      var g1 := UpdateObstacle(g, b, draws[0]);
      SpeedCountsPasses(g1, b, draws[1..]);
      var r := ObstacleFrames(g1, b, draws[1..]);
      var n := (r.score - g1.score) as real;
      if g1.score == g.score + 1 {
        assert (n + 1.0) * b.obstacleSpeedIncrease == n * b.obstacleSpeedIncrease + b.obstacleSpeedIncrease;
        assert (n + 1.0) * LineSpeedIncrease == n * LineSpeedIncrease + LineSpeedIncrease;
      }
    }
  }
}

=== FILE: foundation.dfy ===
/** The optional value used wherever the source holds a nullable reference. */
module Options {
  datatype Option<+T> = None | Some(value: T)
}

/**
 Scalar helpers with the semantics of Unity's `Mathf` and `Random`, over exact
 reals. Random draws are passed in as raw oracle values and pushed through
 Unity's clamped `Lerp`, so any draw lands in the range the engine promises.
 */
module UnityMath {

  /** `float.MaxValue`, the seed of every running minimum in the source. */
  const FloatMax: real := 340282346638528859811704183484516925440.0

  /** `Mathf.Rad2Deg` as a single-precision literal. */
  const Rad2Deg: real := 57.29578

  function Abs(x: real): (r: real)
    ensures r >= 0.0
    ensures r == x || r == -x
  {
    if x < 0.0 then -x else x
  }

  function Max(a: real, b: real): (r: real)
    ensures r >= a && r >= b
    ensures r == a || r == b
  {
    if a > b then a else b
  }

  function Min(a: real, b: real): (r: real)
    ensures r <= a && r <= b
    ensures r == a || r == b
  {
    if a < b then a else b
  }

  /** `Mathf.Sign`: zero counts as positive. */
  function Sign(x: real): (r: real)
    ensures r == 1.0 || r == -1.0
    ensures r == 1.0 <==> x >= 0.0
  {
    if x >= 0.0 then 1.0 else -1.0
  }

  /** `Mathf.Clamp`: the lower bound is tested first. */
  function Clamp(v: real, lo: real, hi: real): (r: real)
    ensures lo <= hi ==> lo <= r <= hi
    ensures lo <= v <= hi ==> r == v
    ensures v < lo ==> r == lo
  {
    if v < lo then lo else if v > hi then hi else v
  }

  function Clamp01(v: real): (r: real)
    ensures 0.0 <= r <= 1.0
    ensures 0.0 <= v <= 1.0 ==> r == v
  {
    Clamp(v, 0.0, 1.0)
  }

  /** `Mathf.Lerp`, whose parameter is clamped into [0, 1] first. */
  function Lerp(a: real, b: real, t: real): (r: real)
    ensures a <= b ==> a <= r <= b
    ensures b <= a ==> b <= r <= a
    ensures t <= 0.0 ==> r == a
    ensures t >= 1.0 ==> r == b
  {
    LerpUnclamped(a, b, Clamp01(t))
  }

  /** The affine blend behind `Lerp`, for a parameter already in [0, 1]. */
  function LerpUnclamped(a: real, b: real, c: real): (r: real)
    requires 0.0 <= c <= 1.0
    ensures a <= b ==> a <= r <= b
    ensures b <= a ==> b <= r <= a
    ensures c == 0.0 ==> r == a
    ensures c == 1.0 ==> r == b
  {
    var r := a + (b - a) * c;
    LerpBetween(a, b, c, r);
    r
  }

  /** The blend lies between its ends and meets them at 0 and 1. */
  lemma LerpBetween(a: real, b: real, c: real, r: real)
    requires 0.0 <= c <= 1.0 && r == a + (b - a) * c
    ensures a <= b ==> a <= r <= b
    ensures b <= a ==> b <= r <= a
    ensures c == 0.0 ==> r == a
    ensures c == 1.0 ==> r == b
  {
    var p := (b - a) * c;
    if a <= b {
      ScaledPart(b - a, c);
    } else {
      ScaledPart(a - b, c);
      assert p == -((a - b) * c);
    }
  }

  /** A non-negative amount scaled by a factor in [0, 1] stays between 0 and itself. */
  lemma ScaledPart(d: real, c: real)
    requires d >= 0.0 && 0.0 <= c <= 1.0
    ensures 0.0 <= d * c
    ensures d * c <= d
  {
    MulMono(0.0, c, d);
    MulMono(c, 1.0, d);
  }

  /** Multiplying both sides by a non-negative factor keeps the order. */
  lemma MulMono(a: real, b: real, c: real)
    requires a <= b && c >= 0.0
    ensures a * c <= b * c
  {
  }

  /** Squaring is strictly increasing on the non-negative reals. */
  lemma SquareLess(a: real, b: real)
    requires 0.0 <= a < b
    ensures a * a < b * b
  {
    var e := b - a;
    assert b * b == (a + e) * (a + e);
    assert (a + e) * (a + e) == a * a + 2.0 * a * e + e * e;
    assert a * e >= 0.0;
    assert e * e > 0.0;
  }

  /** The product of two values in [0, 1] stays in [0, 1]. */
  lemma UnitProductBounds(a: real, b: real)
    requires 0.0 <= a <= 1.0 && 0.0 <= b <= 1.0
    ensures 0.0 <= a * b <= 1.0
  {
    MulMono(0.0, a, b);
    MulMono(a, 1.0, b);
    assert a * b <= 1.0 * b;
    assert 1.0 * b == b;
  }

  /** `Mathf.MoveTowards`: step from `current` toward `target` by at most `maxDelta`. */
  function MoveTowards(current: real, target: real, maxDelta: real): (r: real)
    ensures Abs(target - current) <= maxDelta ==> r == target
    ensures maxDelta >= 0.0 ==> Abs(r - current) <= maxDelta
    ensures maxDelta >= 0.0 ==> Between(r, current, target)
  {
    if Abs(target - current) <= maxDelta then target
    // the step `Sign(target - current) * maxDelta`, with the sign taken apart
    else if target - current >= 0.0 then current + maxDelta
    else current - maxDelta
  }

  /** A step of at least `m` lands on the target or closes the gap by at least `m`. */
  lemma MoveTowardsGap(current: real, target: real, step: real, m: real)
    requires 0.0 <= m <= step
    ensures || MoveTowards(current, target, step) == target
            || Abs(target - MoveTowards(current, target, step)) <= Abs(target - current) - m
  {
  }

  /** `v` lies on the closed segment between `a` and `b`. */
  predicate Between(v: real, a: real, b: real) {
    (a <= v <= b) || (b <= v <= a)
  }

  /**
   One frame of a track speed: toward `target` and never past it, by at
   most `step` when that is non-negative, landing on it within one step.
   */
  predicate Approaches(r: real, current: real, target: real, step: real) {
    && (step >= 0.0 ==> Between(r, current, target) && Abs(r - current) <= step)
    && (Abs(target - current) <= step ==> r == target)
  }

  /** `Mathf.FloorToInt`. */
  function FloorToInt(x: real): (r: int)
    ensures r as real <= x < r as real + 1.0
  {
    x.Floor
  }

  /** `Random.Range(lo, hi)` for floats, driven by the raw draw `u`. */
  function RandomRange(lo: real, hi: real, u: real): (r: real)
    ensures lo <= hi ==> lo <= r <= hi
  {
    Lerp(lo, hi, u)
  }

  /** `Random.value`, driven by the raw draw `u`. */
  function RandomValue(u: real): (r: real)
    ensures 0.0 <= r <= 1.0
  {
    Clamp01(u)
  }

  /** The source's coin flip `Random.value > 0.5f ? 1f : -1f`. */
  function RandomSign(u: real): (r: real)
    ensures r == 1.0 || r == -1.0
    ensures r == 1.0 <==> RandomValue(u) > 0.5
  {
    if RandomValue(u) > 0.5 then 1.0 else -1.0
  }

  /** A countdown that only runs while positive: `if (t > 0f) t -= dt;`. */
  function TickDown(t: real, dt: real): (r: real)
    ensures t > 0.0 ==> r == t - dt
    ensures t <= 0.0 ==> r == t
  {
    if t > 0.0 then t - dt else t
  }

  /** `n` successive countdown ticks. */
  function TickDownN(t: real, dt: real, n: nat): real
    decreases n
  {
    if n == 0 then t else TickDownN(TickDown(t, dt), dt, n - 1)
  }

  /** A positive countdown reaches zero after `n` ticks exactly when `n` ticks cover it. */
  lemma {:induction false} TickDownExpires(t: real, dt: real, n: nat)
    requires t > 0.0 && dt > 0.0
    ensures TickDownN(t, dt, n) <= 0.0 <==> (n as real) * dt >= t
    decreases n
  {
    if n > 0 {
      var next := TickDown(t, dt);
      assert (n as real) * dt == ((n - 1) as real) * dt + dt;
      if next <= 0.0 {
        TickDownStays(next, dt, n - 1);
        MulMono(0.0, (n - 1) as real, dt);
      } else {
        TickDownExpires(next, dt, n - 1);
      }
    }
  }

  /** A countdown at or below zero stays where it is. */
  lemma {:induction false} TickDownStays(t: real, dt: real, n: nat)
    requires t <= 0.0
    ensures TickDownN(t, dt, n) == t
    decreases n
  {
    if n > 0 {
      TickDownStays(t, dt, n - 1);
    }
  }

  /** Moving toward zero never increases the magnitude. */
  lemma MoveTowardsZeroShrinks(v: real, maxDelta: real)
    requires maxDelta >= 0.0
    ensures Abs(MoveTowards(v, 0.0, maxDelta)) <= Abs(v)
  {
  }
}

/** Three-component vectors and the few `Vector3` operations the core uses. */
module Vectors {
  import opened UnityMath

  datatype Vec3 = Vec3(x: real, y: real, z: real)

  const Zero: Vec3 := Vec3(0.0, 0.0, 0.0)
  const Forward: Vec3 := Vec3(0.0, 0.0, 1.0)
  const Up: Vec3 := Vec3(0.0, 1.0, 0.0)

  function Add(a: Vec3, b: Vec3): Vec3 {
    Vec3(a.x + b.x, a.y + b.y, a.z + b.z)
  }

  function Sub(a: Vec3, b: Vec3): Vec3 {
    Vec3(a.x - b.x, a.y - b.y, a.z - b.z)
  }

  function Scale(v: Vec3, k: real): Vec3 {
    Vec3(v.x * k, v.y * k, v.z * k)
  }

  function Dot(a: Vec3, b: Vec3): real {
    a.x * b.x + a.y * b.y + a.z * b.z
  }

  function SqrMag(v: Vec3): (r: real)
    ensures r >= 0.0
  {
    v.x * v.x + v.y * v.y + v.z * v.z
  }

  /** A length oracle: Dafny has no real square root, so the engine's magnitude is passed in. */
  ghost predicate IsLength(length: Vec3 -> real) {
    forall v :: length(v) >= 0.0 && length(v) * length(v) == SqrMag(v)
  }

  /** `Vector3.normalized`: vectors shorter than 1e-5 normalise to zero. */
  function Normalized(v: Vec3, length: Vec3 -> real): (r: Vec3)
    requires IsLength(length)
    ensures length(v) > 0.00001 ==> SqrMag(r) == 1.0
    ensures length(v) <= 0.00001 ==> r == Zero
  {
    var m := length(v);
    if m > 0.00001 then
      UnitScale(v, m);
      Scale(v, 1.0 / m)
    else Zero
  }

  /** Dividing a vector by its length gives a unit vector. */
  lemma UnitScale(v: Vec3, m: real)
    requires m > 0.0 && m * m == SqrMag(v)
    ensures SqrMag(Scale(v, 1.0 / m)) == 1.0
  {
    var k := 1.0 / m;
    Reciprocal(m);
    ScaleSqrMag(v, k);
    UnitProduct(k, m, SqrMag(v));
  }

  lemma Reciprocal(m: real)
    requires m != 0.0
    ensures (1.0 / m) * m == 1.0
  {
  }

  lemma ScaleSqrMag(v: Vec3, k: real)
    ensures SqrMag(Scale(v, k)) == (k * k) * SqrMag(v)
  {
  }

  lemma UnitProduct(k: real, m: real, s: real)
    requires k * m == 1.0 && m * m == s
    ensures (k * k) * s == 1.0
  {
    assert (k * k) * (m * m) == (k * m) * (k * m);
  }

  /** A unit vector is its own normalisation. */
  lemma NormalizedUnit(v: Vec3, length: Vec3 -> real)
    requires IsLength(length)
    requires SqrMag(v) == 1.0
    ensures Normalized(v, length) == v
  {
    var m := length(v);
    UnitLength(m);
    assert Scale(v, 1.0 / 1.0) == v;
  }

  lemma UnitLength(m: real)
    requires m >= 0.0 && m * m == 1.0
    ensures m == 1.0
  {
    if m < 1.0 {
      MulMono(m, 1.0, m);
    } else if m > 1.0 {
      MulMono(1.0, m, m);
    }
  }

  /** `sqrMagnitude > 0.001f ? v.normalized : Vector3.forward`, the heading guard of both projectiles. */
  function HeadingOf(v: Vec3, length: Vec3 -> real): (r: Vec3)
    requires IsLength(length)
    ensures SqrMag(r) == 1.0
    ensures SqrMag(v) <= 0.001 ==> r == Forward
  {
    if SqrMag(v) > 0.001 then
      LongEnough(v, length(v));
      Normalized(v, length)
    else Forward
  }

  lemma LongEnough(v: Vec3, m: real)
    requires m >= 0.0 && m * m == SqrMag(v) && SqrMag(v) > 0.001
    ensures m > 0.00001
  {
    if m <= 0.00001 {
      MulMono(m, 0.00001, m);
      MulMono(m, 0.00001, 0.00001);
    }
  }

  /** `Vector3.MoveTowards(current, target, maxDelta)`. */
  function MoveTowardsVec(current: Vec3, target: Vec3, maxDelta: real, length: Vec3 -> real): (r: Vec3)
    requires IsLength(length)
    ensures SqrMag(Sub(target, current)) == 0.0 ==> r == target
  {
    var d := Sub(target, current);
    var sq := SqrMag(d);
    if sq == 0.0 || (maxDelta >= 0.0 && sq <= maxDelta * maxDelta) then target
    else
      var m := length(d);
      Add(current, Scale(d, maxDelta / m))
  }
}

/** The axis-aligned arena rectangle every tank is kept inside. */
module ArenaBounds {
  import opened UnityMath
  import opened Vectors

  datatype Arena = Arena(minX: real, maxX: real, minZ: real, maxZ: real) {
    predicate Valid() { minX <= maxX && minZ <= maxZ }

    predicate Contains(p: Vec3) { minX <= p.x <= maxX && minZ <= p.z <= maxZ }
  }

  /** The serialized default of every arena-bounded component: a 56 by 56 field. */
  const DefaultArena: Arena := Arena(-28.0, 28.0, -28.0, 28.0)

  /** Clamp x and z into the arena and pin the elevation to `y`. */
  function ClampToArena(a: Arena, p: Vec3, y: real): (r: Vec3)
    ensures a.Valid() ==> a.Contains(r)
    ensures r.y == y
    ensures a.Contains(p) ==> r.x == p.x && r.z == p.z
  {
    Vec3(Clamp(p.x, a.minX, a.maxX), y, Clamp(p.z, a.minZ, a.maxZ))
  }
}

/** Filtering that keeps order and multiplicity, the model of `List.RemoveAll`. */
module Seqs {

  function Filter<T(!new)>(s: seq<T>, keep: T -> bool): (r: seq<T>)
    ensures |r| <= |s|
    ensures forall x :: x in r <==> x in s && keep(x)
    ensures forall i :: 0 <= i < |r| ==> keep(r[i])
  {
    if |s| == 0 then []
    else if keep(s[0]) then [s[0]] + Filter(s[1..], keep)
    else Filter(s[1..], keep)
  }

  /** Filtering keeps everything when everything passes. */
  lemma {:induction false} FilterAll<T(!new)>(s: seq<T>, keep: T -> bool)
    requires forall i :: 0 <= i < |s| ==> keep(s[i])
    ensures Filter(s, keep) == s
  {
    if |s| > 0 {
      FilterAll(s[1..], keep);
    }
  }

  /** Filtering a second time changes nothing. */
  lemma FilterIdempotent<T(!new)>(s: seq<T>, keep: T -> bool)
    ensures Filter(Filter(s, keep), keep) == Filter(s, keep)
  {
    FilterAll(Filter(s, keep), keep);
  }

  /** Filtering a concatenation filters each part. */
  lemma {:induction false} FilterConcat<T(!new)>(a: seq<T>, b: seq<T>, keep: T -> bool)
    ensures Filter(a + b, keep) == Filter(a, keep) + Filter(b, keep)
    decreases |a|
  {
    if |a| > 0 {
      assert (a + b)[1..] == a[1..] + b;
      FilterConcat(a[1..], b, keep);
    } else {
      assert a + b == b;
    }
  }

  /** `r` is `s` with some elements left out, the rest in their order. */
  predicate IsSubsequence<T(==)>(r: seq<T>, s: seq<T>)
    decreases |s|
  {
    || |r| == 0
    || (|s| > 0 && ((r[0] == s[0] && IsSubsequence(r[1..], s[1..])) || IsSubsequence(r, s[1..])))
  }

  /** Filtering keeps the survivors in their original order. */
  lemma {:induction false} FilterSubsequence<T(!new)>(s: seq<T>, keep: T -> bool)
    ensures IsSubsequence(Filter(s, keep), s)
    decreases |s|
  {
    if |s| > 0 {
      FilterSubsequence(s[1..], keep);
      if keep(s[0]) {
        assert Filter(s, keep)[1..] == Filter(s[1..], keep);
      }
    }
  }

  /** Filtering keeps every copy of a passing element and no copy of a failing one. */
  lemma {:induction false} FilterCounts<T(!new)>(s: seq<T>, keep: T -> bool, x: T)
    ensures multiset(Filter(s, keep))[x] == if keep(x) then multiset(s)[x] else 0
    decreases |s|
  {
    if |s| > 0 {
      FilterCounts(s[1..], keep, x);
      assert s == [s[0]] + s[1..];
      assert multiset(s) == multiset([s[0]]) + multiset(s[1..]);
    }
  }

  predicate NoDup<T(==)>(s: seq<T>) {
    forall i, j :: 0 <= i < j < |s| ==> s[i] != s[j]
  }

  lemma {:induction false} FilterNoDup<T(!new)>(s: seq<T>, keep: T -> bool)
    ensures NoDup(s) ==> NoDup(Filter(s, keep))
  {
    if |s| > 0 && NoDup(s) {
      FilterNoDup(s[1..], keep);
      if keep(s[0]) {
        assert s[0] !in s[1..];
        assert s[0] !in Filter(s[1..], keep);
      }
    }
  }
}

=== FILE: loop_mover.dfy ===
/**
 The scrolling scenery (`RuntimeLoopMover`): a piece moves along −z and,
 once past the near end of its loop, jumps back by one loop length.
 */
module LoopMover {
  import opened Vectors

  datatype Loop = Loop(position: Vec3, moveSpeed: real, minZ: real, maxZ: real)

  /** The serialized speed and loop ends. */
  const DefaultMoveSpeed: real := 12.0
  const DefaultMinZ: real := -32.0
  const DefaultMaxZ: real := 32.0

  /** The length of one loop. */
  function Period(l: Loop): real {
    l.maxZ - l.minZ
  }

  /**
   `Update`: frozen while the match is over. Otherwise z drops by
   `moveSpeed · dt` and, when that passes `minZ`, one period is added
   back, once; x and y never change.
   */
  function Update(l: Loop, gameOver: bool, dt: real): (r: Loop)
    ensures gameOver ==> r == l
    ensures !gameOver ==> r == l.(position := r.position)
    ensures r.position.x == l.position.x && r.position.y == l.position.y
    ensures !gameOver && l.position.z - l.moveSpeed * dt >= l.minZ ==> r.position.z == l.position.z - l.moveSpeed * dt
    ensures !gameOver && l.position.z - l.moveSpeed * dt < l.minZ ==> r.position.z == l.position.z - l.moveSpeed * dt + Period(l)
    ensures l.minZ <= l.position.z <= l.maxZ && 0.0 <= l.moveSpeed * dt <= Period(l) ==> l.minZ <= r.position.z <= l.maxZ
  {
    if gameOver then l
    else
      var z := l.position.z - l.moveSpeed * dt;
      var wrapped := if z < l.minZ then z + (l.maxZ - l.minZ) else z;
      l.(position := l.position.(z := wrapped))
  }

  /** `Configure`: the speed and both ends are replaced; the position is kept. */
  function Configure(l: Loop, speed: real, loopMinZ: real, loopMaxZ: real): (r: Loop)
    ensures r.moveSpeed == speed && r.minZ == loopMinZ && r.maxZ == loopMaxZ
    ensures r.position == l.position
  {
    l.(moveSpeed := speed, minZ := loopMinZ, maxZ := loopMaxZ)
  }

  /** `n` running frames. */
  function Frames(l: Loop, dt: real, n: nat): Loop
    decreases n
  {
    if n == 0 then l else Frames(Update(l, false, dt), dt, n - 1)
  }

  /**
   With a step no longer than the loop, a piece that starts inside the loop
   stays inside it forever, keeps its speed and loop, and drifts only in z.
   */
  lemma {:induction false} StaysInLoop(l: Loop, dt: real, n: nat)
    requires l.minZ <= l.position.z <= l.maxZ
    requires 0.0 <= l.moveSpeed * dt <= Period(l)
    ensures var f := Frames(l, dt, n);
      && l.minZ <= f.position.z <= l.maxZ
      && f == l.(position := f.position)
      && f.position.x == l.position.x && f.position.y == l.position.y
    decreases n
  {
    if n > 0 {
      var next := Update(l, false, dt);
      assert next.moveSpeed == l.moveSpeed && next.minZ == l.minZ && next.maxZ == l.maxZ;
      assert l.minZ <= next.position.z <= l.maxZ;
      StaysInLoop(next, dt, n - 1);
      assert Frames(l, dt, n) == Frames(next, dt, n - 1);
    }
  }
}

=== FILE: match.dfy ===
/**
 The match state machine shared by both games' `GameManager`: score, high
 score, a one-hit shield, a score tick while the match runs, an idempotent
 game over and a restart. The two copies differ only in `GameOver`: the tank
 arena disables its spawner without a null check, the lane racer checks.

 The player and spawner references are explicit (`hasPlayer`, `spawner`);
 what the manager asks of other components is returned as effects.
 */
module Match {
  import opened Options

  /** Which project's `GameManager` this is. */
  datatype Variant = Arena | Racer

  datatype Match = Match(
    variant: Variant,
    score: int,
    highScore: int,
    isGameOver: bool,
    scoreTimer: real,
    hasShield: bool,
    scoreTickSeconds: real,
    hasPlayer: bool,
    spawner: Option<bool>)   // the spawner reference, holding its `enabled` flag

  /** The serialized score tick. */
  const DefaultScoreTickSeconds: real := 1.0

  /** Requests to other components, in the order the manager issues them. */
  datatype Effect =
    | PlayerReset
    | SpawnerReset
    | HighScoreSaved(value: int)   // `PlayerPrefs.SetInt` followed by `Save`
    | ObstaclesDestroyed
    | ShieldsDestroyed
    | NullReference                // the arena's `GameOver` dereferencing a missing spawner

  /** The high score never trails the score and is never negative. */
  predicate Inv(m: Match) {
    0 <= m.highScore && m.score <= m.highScore
  }

  /**
   `StartGame`: a fresh running match with no score, timer or shield; the
   high score survives; the player and spawner are reset when present and
   the spawner is switched on.
   */
  function StartGame(m: Match): (r: (Match, seq<Effect>))
    ensures !r.0.isGameOver && r.0.score == 0 && r.0.scoreTimer == 0.0 && !r.0.hasShield
    ensures r.0.highScore == m.highScore
    ensures r.0 == m.(score := r.0.score, isGameOver := false, scoreTimer := 0.0, hasShield := false, spawner := r.0.spawner)
    ensures r.0.spawner.Some? <==> m.spawner.Some?
    ensures r.0.spawner.Some? ==> r.0.spawner.value
    ensures PlayerReset in r.1 <==> m.hasPlayer
    ensures SpawnerReset in r.1 <==> m.spawner.Some?
    ensures |r.1| <= 2 && NullReference !in r.1
    ensures 0 <= m.highScore ==> Inv(r.0)
  {
    var resets := (if m.hasPlayer then [PlayerReset] else []) + (if m.spawner.Some? then [SpawnerReset] else []);
    (m.(isGameOver := false, score := 0, scoreTimer := 0.0, hasShield := false,
        spawner := if m.spawner.Some? then Some(true) else None), resets)
  }

  /** `Start`: load the stored high score, then start a match. */
  function Start(m: Match, stored: int): (r: (Match, seq<Effect>))
    ensures r == StartGame(m.(highScore := stored))
    ensures Inv(r.0) <==> stored >= 0
  {
    StartGame(m.(highScore := stored))
  }

  /**
   `AddScore`: ignored once the match is over; otherwise the score moves by
   `value` and the high score becomes the larger of the two, saved exactly
   when it was beaten.
   */
  function AddScore(m: Match, value: int): (r: (Match, seq<Effect>))
    ensures m.isGameOver ==> r == (m, [])
    ensures !m.isGameOver ==> r.0 == m.(score := m.score + value, highScore := r.0.highScore)
    ensures !m.isGameOver ==> r.0.highScore >= r.0.score && r.0.highScore >= m.highScore
    ensures !m.isGameOver ==> r.0.highScore == m.highScore || r.0.highScore == r.0.score
    ensures !m.isGameOver && m.score + value > m.highScore ==> r.1 == [HighScoreSaved(m.score + value)]
    ensures !m.isGameOver && m.score + value <= m.highScore ==> r.1 == [] && r.0.highScore == m.highScore
    ensures Inv(m) ==> Inv(r.0)
  {
    if m.isGameOver then (m, [])
    else
      var score := m.score + value;
      if score > m.highScore then (m.(score := score, highScore := score), [HighScoreSaved(score)])
      else (m.(score := score), [])
  }

  /** `AcquireShield`: ignored once over; otherwise the shield is up. */
  function AcquireShield(m: Match): (r: Match)
    ensures m.isGameOver ==> r == m
    ensures !m.isGameOver ==> r.hasShield && r == m.(hasShield := true)
  {
    if m.isGameOver then m else m.(hasShield := true)
  }

  /**
   `GameOver`: idempotent. The first call ends the match and disables the
   spawner. The arena copy does so without a null check, so with no spawner
   it stops with a null reference after setting the flag; the racer copy
   skips the missing spawner.
   */
  function GameOver(m: Match): (r: (Match, seq<Effect>))
    ensures m.isGameOver ==> r == (m, [])
    ensures !m.isGameOver ==> r.0 == m.(isGameOver := true, spawner := r.0.spawner)
    ensures !m.isGameOver && m.spawner.Some? ==> r.0.spawner == Some(false) && r.1 == []
    ensures !m.isGameOver && m.spawner.None? ==> r.0.spawner.None?
    ensures !m.isGameOver && m.spawner.None? ==> (r.1 == [NullReference] <==> m.variant == Arena)
    ensures r.1 == [] || r.1 == [NullReference]
    ensures Inv(m) ==> Inv(r.0)
  {
    if m.isGameOver then (m, [])
    else
      var over := m.(isGameOver := true);
      match m.spawner
      case Some(_) => (over.(spawner := Some(false)), [])
      case None => (over, if m.variant == Arena then [NullReference] else [])
  }

  /**
   `HandleObstacleCollision`: ignored once over; a raised shield is spent
   and the match goes on; without one the match ends.
   */
  function HandleObstacleCollision(m: Match): (r: (Match, seq<Effect>))
    ensures m.isGameOver ==> r == (m, [])
    ensures !m.isGameOver && m.hasShield ==> r == (m.(hasShield := false), [])
    ensures !m.isGameOver && !m.hasShield ==> r == GameOver(m) && r.0.isGameOver
    ensures Inv(m) ==> Inv(r.0)
  {
    if m.isGameOver then (m, [])
    else if m.hasShield then (m.(hasShield := false), [])
    else GameOver(m)
  }

  /** `RestartGame`: every obstacle and shield pickup is destroyed, then `StartGame`. */
  function RestartGame(m: Match): (r: (Match, seq<Effect>))
    ensures r.0 == StartGame(m).0
    ensures |r.1| >= 2 && r.1[..2] == [ObstaclesDestroyed, ShieldsDestroyed] && r.1[2..] == StartGame(m).1
    ensures Inv(m) ==> Inv(r.0)
  {
    var started := StartGame(m);
    (started.0, [ObstaclesDestroyed, ShieldsDestroyed] + started.1)
  }

  /**
   `Update`: while over, only the restart key acts. While running, the
   score timer accumulates `dt` and, on reaching the tick, restarts from
   zero and adds one point.
   */
  function Update(m: Match, dt: real, restartPressed: bool): (r: (Match, seq<Effect>))
    ensures m.isGameOver && restartPressed ==> r == RestartGame(m)
    ensures m.isGameOver && !restartPressed ==> r == (m, [])
    ensures !m.isGameOver ==> !r.0.isGameOver && r.0.hasShield == m.hasShield && r.0.spawner == m.spawner
    ensures !m.isGameOver && m.scoreTimer + dt >= m.scoreTickSeconds ==> r.0.scoreTimer == 0.0 && r.0.score == m.score + 1
    ensures !m.isGameOver && m.scoreTimer + dt < m.scoreTickSeconds ==> r == (m.(scoreTimer := m.scoreTimer + dt), [])
    ensures Inv(m) ==> Inv(r.0)
  {
    if m.isGameOver then
      if restartPressed then RestartGame(m) else (m, [])
    else
      var timed := m.(scoreTimer := m.scoreTimer + dt);
      if timed.scoreTimer >= m.scoreTickSeconds then AddScore(timed.(scoreTimer := 0.0), 1)
      else (timed, [])
  }

  /** `n` running frames of length `dt`, with no collision. */
  function Frames(m: Match, dt: real, n: nat): Match
    decreases n
  {
    if n == 0 then m else Frames(Update(m, dt, false).0, dt, n - 1)
  }

  /**
   A running match gains at most one point per frame and never ends by
   itself; when every frame is at least a tick long it gains exactly one
   point per frame.
   */
  lemma {:induction false} FramesScore(m: Match, dt: real, n: nat)
    requires !m.isGameOver
    ensures var f := Frames(m, dt, n);
      && !f.isGameOver
      && m.score <= f.score <= m.score + n
      && f.hasShield == m.hasShield
    ensures dt >= m.scoreTickSeconds && m.scoreTimer >= 0.0 && dt >= 0.0 ==> Frames(m, dt, n).score == m.score + n
    decreases n
  {
    if n > 0 {
      var next := Update(m, dt, false).0;
      FramesScore(next, dt, n - 1);
    }
  }

  /** The shield absorbs exactly one collision: the next unshielded one ends the match. */
  lemma ShieldAbsorbsOne(m: Match)
    requires !m.isGameOver && m.hasShield
    ensures var once := HandleObstacleCollision(m).0;
      && !once.isGameOver && !once.hasShield && once.score == m.score
      && HandleObstacleCollision(once).0.isGameOver
  {
  }

  /** A second `GameOver` changes nothing and asks nothing of anyone. */
  lemma GameOverIdempotent(m: Match)
    ensures var once := GameOver(m).0; GameOver(once) == (once, [])
  {
  }

  /** Once over, scoring, shields and collisions are all ignored until a restart. */
  lemma OverIsFrozen(m: Match, value: int, dt: real)
    requires m.isGameOver
    ensures AddScore(m, value).0 == m && AcquireShield(m) == m
    ensures HandleObstacleCollision(m).0 == m && GameOver(m).0 == m && Update(m, dt, false).0 == m
  {
  }
}

=== FILE: racer_car.dfy ===
/**
 The lane racer's car (`PlayerCarController` in the racing project): a
 sideways move at normal or boost speed, clamped to the road, and a boost
 with its own duration and cooldown.
 */
module RacerCar {
  import opened UnityMath
  import opened Vectors
  import opened Options
  import Match

  datatype Config = Config(
    normalSpeed: real, boostSpeed: real,
    boostDuration: real, boostCooldown: real,
    minX: real, maxX: real)

  /** The serialized defaults. */
  const Defaults: Config := Config(6.0, 10.0, 0.75, 4.0, -4.0, 4.0)

  datatype Car = Car(position: Vec3, boostTimer: real, cooldownTimer: real, initialPosition: Vec3)

  /** `Awake`: the spawn position is remembered for resets. */
  function Awake(position: Vec3): (c: Car)
    ensures c.position == position && c.initialPosition == position
    ensures c.boostTimer == 0.0 && c.cooldownTimer == 0.0
  {
    Car(position, 0.0, 0.0, position)
  }

  /**
   `HandleBoost`: both timers count down while positive; the shift key
   starts a boost only once the cooldown has run out, and then sets both
   timers afresh.
   */
  function HandleBoost(c: Car, cfg: Config, shiftPressed: bool, dt: real): (r: Car)
    ensures shiftPressed && TickDown(c.cooldownTimer, dt) <= 0.0 ==>
      r == c.(boostTimer := cfg.boostDuration, cooldownTimer := cfg.boostCooldown)
    ensures !(shiftPressed && TickDown(c.cooldownTimer, dt) <= 0.0) ==>
      r == c.(boostTimer := TickDown(c.boostTimer, dt), cooldownTimer := TickDown(c.cooldownTimer, dt))
  {
    var ticked := c.(boostTimer := TickDown(c.boostTimer, dt), cooldownTimer := TickDown(c.cooldownTimer, dt));
    if shiftPressed && ticked.cooldownTimer <= 0.0 then
      ticked.(boostTimer := cfg.boostDuration, cooldownTimer := cfg.boostCooldown)
    else ticked
  }

  /** The speed of the current frame: boost speed exactly while the boost timer is positive. */
  function CurrentSpeed(c: Car, cfg: Config): (s: real)
    ensures c.boostTimer > 0.0 ==> s == cfg.boostSpeed
    ensures c.boostTimer <= 0.0 ==> s == cfg.normalSpeed
  {
    if c.boostTimer > 0.0 then cfg.boostSpeed else cfg.normalSpeed
  }

  /**
   `HandleMovement`: slide sideways by input · speed · dt and clamp to the
   road; height and depth never change.
   */
  function HandleMovement(c: Car, cfg: Config, input: real, dt: real): (r: Car)
    ensures cfg.minX <= cfg.maxX ==> cfg.minX <= r.position.x <= cfg.maxX
    ensures r.position.y == c.position.y && r.position.z == c.position.z
    ensures var x := c.position.x + input * CurrentSpeed(c, cfg) * dt;
      cfg.minX <= x <= cfg.maxX ==> r.position.x == x
    ensures var x := c.position.x + input * CurrentSpeed(c, cfg) * dt;
      cfg.minX <= cfg.maxX ==> (x < cfg.minX ==> r.position.x == cfg.minX) && (x > cfg.maxX ==> r.position.x == cfg.maxX)
    ensures r == c.(position := r.position)
  {
    var x := c.position.x + input * CurrentSpeed(c, cfg) * dt;
    c.(position := c.position.(x := Clamp(x, cfg.minX, cfg.maxX)))
  }

  /** `Update`: nothing while the match is over; otherwise boost, then move. */
  function Update(c: Car, cfg: Config, gameOver: bool, shiftPressed: bool, input: real, dt: real): (r: Car)
    ensures gameOver ==> r == c
    ensures !gameOver ==> r == HandleMovement(HandleBoost(c, cfg, shiftPressed, dt), cfg, input, dt)
    ensures !gameOver && cfg.minX <= cfg.maxX ==> cfg.minX <= r.position.x <= cfg.maxX
  {
    if gameOver then c
    else HandleMovement(HandleBoost(c, cfg, shiftPressed, dt), cfg, input, dt)
  }

  /** `ResetPlayer`: no boost, no cooldown, back at the spawn position. */
  function ResetPlayer(c: Car): (r: Car)
    ensures r.boostTimer == 0.0 && r.cooldownTimer == 0.0
    ensures r.position == c.initialPosition && r.initialPosition == c.initialPosition
  {
    c.(boostTimer := 0.0, cooldownTimer := 0.0, position := c.initialPosition)
  }

  /**
   `OnTriggerEnter`: touching an obstacle reports one collision to the
   match, when there is one; anything else is ignored.
   */
  function OnTriggerEnter(m: Option<Match.Match>, otherIsObstacle: bool): (r: Option<Match.Match>)
    ensures m.None? ==> r.None?
    ensures m.Some? && !otherIsObstacle ==> r == m
    ensures m.Some? && otherIsObstacle ==> r == Some(Match.HandleObstacleCollision(m.value).0)
  {
    if m.Some? && otherIsObstacle then Some(Match.HandleObstacleCollision(m.value).0) else m
  }

  /** `n` running frames without the shift key, steering by a fixed input. */
  function Frames(c: Car, cfg: Config, input: real, dt: real, n: nat): Car
    decreases n
  {
    if n == 0 then c else Frames(Update(c, cfg, false, false, input, dt), cfg, input, dt, n - 1)
  }

  /** Without the shift key the boost timer only counts down. */
  lemma {:induction false} FramesBoostTimer(c: Car, cfg: Config, input: real, dt: real, n: nat)
    ensures Frames(c, cfg, input, dt, n).boostTimer == TickDownN(c.boostTimer, dt, n)
    ensures Frames(c, cfg, input, dt, n).cooldownTimer == TickDownN(c.cooldownTimer, dt, n)
    decreases n
  {
    if n > 0 {
      FramesBoostTimer(Update(c, cfg, false, false, input, dt), cfg, input, dt, n - 1);
    }
  }

  /**
   A started boost lasts exactly as long as its timer: after `n` further
   frames the car still runs at boost speed iff `n` frames have not yet
   covered the boost timer.
   */
  lemma BoostLasts(c: Car, cfg: Config, input: real, dt: real, n: nat)
    requires c.boostTimer > 0.0 && dt > 0.0
    ensures (n as real) * dt < c.boostTimer <==> Frames(c, cfg, input, dt, n).boostTimer > 0.0
    ensures (n as real) * dt < c.boostTimer ==> CurrentSpeed(Frames(c, cfg, input, dt, n), cfg) == cfg.boostSpeed
    ensures (n as real) * dt >= c.boostTimer ==> CurrentSpeed(Frames(c, cfg, input, dt, n), cfg) == cfg.normalSpeed
  {
    FramesBoostTimer(c, cfg, input, dt, n);
    TickDownExpires(c.boostTimer, dt, n);
  }

  /** While the cooldown still covers the next frame, the shift key cannot start another boost. */
  lemma NoBoostDuringCooldown(c: Car, cfg: Config, dt: real)
    requires dt >= 0.0 && c.cooldownTimer > dt
    ensures HandleBoost(c, cfg, true, dt) == HandleBoost(c, cfg, false, dt)
  {
  }
}

=== FILE: racer_missile.dfy ===
/**
 The lane racer's homing missile (`MissileProjectile` in the racing
 project): a lifetime, a heading that turns toward a live locked target,
 and a hit when the target is within the hit radius. `Vector3.Slerp` is an
 oracle obeying the one law the model needs (turning toward the current
 heading leaves it alone); magnitudes come from the `length` oracle.
 */
module RacerMissile {
  import opened UnityMath
  import opened Vectors
  import opened Options

  datatype Config = Config(speed: real, maxLifetime: real, hitRadius: real, turnRate: real)

  /** The serialized defaults. */
  const Defaults: Config := Config(24.0, 2.6, 0.9, 8.0)

  datatype Missile = Missile(position: Vec3, travelDirection: Vec3, lifetimeRemaining: real, lockedTarget: Option<nat>)

  /** What the engine reports about an obstacle this frame; `None` once it is destroyed. */
  datatype TargetView = TargetView(alive: bool, position: Vec3)

  type Slerp = (Vec3, Vec3, real) -> Vec3

  /** Interpolating from a direction to itself gives that direction. */
  ghost predicate SlerpLaw(slerp: Slerp) {
    forall a: Vec3, t: real :: slerp(a, a, t) == a
  }

  /** `Initialize`: a unit heading (forward when negligible), the target, a full lifetime. */
  function Initialize(cfg: Config, position: Vec3, direction: Vec3, target: Option<nat>, length: Vec3 -> real): (m: Missile)
    requires IsLength(length)
    ensures SqrMag(m.travelDirection) == 1.0
    ensures SqrMag(direction) <= 0.001 ==> m.travelDirection == Forward
    ensures m.lifetimeRemaining == cfg.maxLifetime && m.lockedTarget == target && m.position == position
  {
    Missile(position, HeadingOf(direction, length), cfg.maxLifetime, target)
  }

  /** `Create`: guard the heading, then `Initialize` with it; the second guard changes nothing. */
  function Create(cfg: Config, position: Vec3, direction: Vec3, target: Option<nat>, length: Vec3 -> real): (m: Missile)
    requires IsLength(length)
    ensures m == Initialize(cfg, position, direction, target, length)
  {
    var heading := HeadingOf(direction, length);
    NormalizedUnit(heading, length);
    Initialize(cfg, position, heading, target, length)
  }

  /** The locked target still exists and is alive. */
  predicate LiveTarget(m: Missile, targets: nat -> Option<TargetView>) {
    m.lockedTarget.Some? && targets(m.lockedTarget.value).Some? && targets(m.lockedTarget.value).value.alive
  }

  /** The direction the missile wants: toward a live target that is not on top of it, else straight on. */
  function DesiredDirection(m: Missile, targets: nat -> Option<TargetView>, length: Vec3 -> real): (d: Vec3)
    requires IsLength(length)
    ensures !LiveTarget(m, targets) ==> d == m.travelDirection
    ensures LiveTarget(m, targets) && SqrMag(Sub(targets(m.lockedTarget.value).value.position, m.position)) <= 0.001 ==>
      d == m.travelDirection
    ensures LiveTarget(m, targets) && SqrMag(Sub(targets(m.lockedTarget.value).value.position, m.position)) > 0.001 ==>
      SqrMag(d) == 1.0
  {
    if LiveTarget(m, targets) then
      var toTarget := Sub(targets(m.lockedTarget.value).value.position, m.position);
      if SqrMag(toTarget) > 0.001 then
        LongEnough(toTarget, length(toTarget));
        Normalized(toTarget, length)
      else m.travelDirection
    else m.travelDirection
  }

  datatype Outcome =
    | Removed            // game over or expired
    | Hit(target: nat)   // `ApplyMissileHit` on the target, then destroyed
    | Flew(missile: Missile)

  /**
   `Update`: gone on game over or once the lifetime runs out, before any
   steering. Otherwise turn toward the desired direction by
   `turnRate · dt`, renormalise, advance by `speed · dt`, and hit a live
   locked target within the hit radius of the new position.
   */
  function Update(m: Missile, cfg: Config, gameOver: bool, dt: real,
                  targets: nat -> Option<TargetView>, length: Vec3 -> real, slerp: Slerp): (r: Outcome)
    requires IsLength(length)
    ensures gameOver ==> r == Removed
    ensures !gameOver && m.lifetimeRemaining - dt <= 0.0 ==> r == Removed
    ensures r.Flew? ==>
      && r.missile.lifetimeRemaining == m.lifetimeRemaining - dt
      && r.missile.position == Add(m.position, Scale(r.missile.travelDirection, cfg.speed * dt))
      && (SqrMag(r.missile.travelDirection) == 1.0 || r.missile.travelDirection == Zero)
      && r.missile.lockedTarget == m.lockedTarget
    ensures r.Flew? && SlerpLaw(slerp) && !LiveTarget(m, targets) && SqrMag(m.travelDirection) == 1.0 ==>
      r.missile.travelDirection == m.travelDirection
    ensures r.Hit? ==> LiveTarget(m, targets) && r.target == m.lockedTarget.value
    ensures !gameOver && m.lifetimeRemaining - dt > 0.0 ==> !r.Removed?
    ensures !gameOver && m.lifetimeRemaining - dt > 0.0 && !LiveTarget(m, targets) ==> r.Flew?
    ensures !gameOver && m.lifetimeRemaining - dt > 0.0 && LiveTarget(m, targets) ==>
      var dir := Normalized(slerp(m.travelDirection, DesiredDirection(m, targets, length), cfg.turnRate * dt), length);
      var moved := Add(m.position, Scale(dir, cfg.speed * dt));
      (r.Hit? <==> SqrMag(Sub(targets(m.lockedTarget.value).value.position, moved)) <= cfg.hitRadius * cfg.hitRadius)
  {
    if gameOver then Removed
    else
      var life := m.lifetimeRemaining - dt;
      if life <= 0.0 then Removed
      else
        var desired := DesiredDirection(m, targets, length);
        var dir := Normalized(slerp(m.travelDirection, desired, cfg.turnRate * dt), length);
        UnitFixed(m.travelDirection, length);
        var moved := m.(position := Add(m.position, Scale(dir, cfg.speed * dt)), travelDirection := dir, lifetimeRemaining := life);
        if !LiveTarget(m, targets) then Flew(moved)
        else
          var sqr := SqrMag(Sub(targets(m.lockedTarget.value).value.position, moved.position));
          if sqr <= cfg.hitRadius * cfg.hitRadius then Hit(m.lockedTarget.value) else Flew(moved)
  }

  /** Renormalising a unit heading changes nothing. */
  lemma UnitFixed(v: Vec3, length: Vec3 -> real)
    requires IsLength(length)
    ensures SqrMag(v) == 1.0 ==> Normalized(v, length) == v
  {
    if SqrMag(v) == 1.0 {
      NormalizedUnit(v, length);
    }
  }

  /** `n` frames with no live target, during a running match. */
  function Coast(m: Missile, cfg: Config, dt: real, n: nat, targets: nat -> Option<TargetView>,
                 length: Vec3 -> real, slerp: Slerp): Option<Missile>
    requires IsLength(length)
    decreases n
  {
    if n == 0 then Some(m)
    else
      match Update(m, cfg, false, dt, targets, length, slerp)
      case Flew(next) => Coast(next, cfg, dt, n - 1, targets, length, slerp)
      case _ => None
  }

  /** A frame of straight flight. */
  function Advance(m: Missile, cfg: Config, dt: real): Missile {
    m.(position := Add(m.position, Scale(m.travelDirection, cfg.speed * dt)), lifetimeRemaining := m.lifetimeRemaining - dt)
  }

  /** One frame without a live target, for a unit heading with lifetime to spare. */
  lemma StraightStep(m: Missile, cfg: Config, dt: real, targets: nat -> Option<TargetView>,
                     length: Vec3 -> real, slerp: Slerp)
    requires IsLength(length) && SlerpLaw(slerp)
    requires SqrMag(m.travelDirection) == 1.0 && !LiveTarget(m, targets)
    ensures m.lifetimeRemaining - dt > 0.0 ==>
      Update(m, cfg, false, dt, targets, length, slerp) == Flew(Advance(m, cfg, dt))
    ensures m.lifetimeRemaining - dt <= 0.0 ==> Update(m, cfg, false, dt, targets, length, slerp) == Removed
  {
  }

  /** Without a live target the missile lasts exactly as many frames as its lifetime covers. */
  lemma {:induction false} CoastLifetime(m: Missile, cfg: Config, dt: real, n: nat, targets: nat -> Option<TargetView>,
                                         length: Vec3 -> real, slerp: Slerp)
    requires IsLength(length) && SlerpLaw(slerp)
    requires SqrMag(m.travelDirection) == 1.0 && m.lifetimeRemaining > 0.0
    requires !LiveTarget(m, targets)
    ensures Coast(m, cfg, dt, n, targets, length, slerp).Some? <==> m.lifetimeRemaining - (n as real) * dt > 0.0
    decreases n
  {
    if n > 0 {
      StraightStep(m, cfg, dt, targets, length, slerp);
      assert (n as real) * dt == ((n - 1) as real) * dt + dt;
      if m.lifetimeRemaining - dt > 0.0 {
        var next := Advance(m, cfg, dt);
        assert Coast(m, cfg, dt, n, targets, length, slerp) == Coast(next, cfg, dt, n - 1, targets, length, slerp);
        CoastLifetime(next, cfg, dt, n - 1, targets, length, slerp);
      } else if dt >= 0.0 {
        MulMono(1.0, n as real, dt);
      }
    }
  }

  /** `n` frames of straight flight. */
  function Glide(m: Missile, cfg: Config, dt: real, n: nat): Missile
    decreases n
  {
    if n == 0 then m else Glide(Advance(m, cfg, dt), cfg, dt, n - 1)
  }

  /** Without a live target, every frame the missile survives is a frame of straight flight. */
  lemma {:induction false} CoastIsGlide(m: Missile, cfg: Config, dt: real, n: nat, targets: nat -> Option<TargetView>,
                                        length: Vec3 -> real, slerp: Slerp)
    requires IsLength(length) && SlerpLaw(slerp)
    requires SqrMag(m.travelDirection) == 1.0 && !LiveTarget(m, targets)
    requires Coast(m, cfg, dt, n, targets, length, slerp).Some?
    ensures Coast(m, cfg, dt, n, targets, length, slerp) == Some(Glide(m, cfg, dt, n))
    decreases n
  {
    if n > 0 {
      StraightStep(m, cfg, dt, targets, length, slerp);
      var next := Advance(m, cfg, dt);
      assert Coast(m, cfg, dt, n, targets, length, slerp) == Coast(next, cfg, dt, n - 1, targets, length, slerp);
      CoastIsGlide(next, cfg, dt, n - 1, targets, length, slerp);
    }
  }

  /** Straight flight covers `n` steps of `speed · dt` along the unchanged heading. */
  lemma {:induction false} GlideStraight(m: Missile, cfg: Config, dt: real, n: nat)
    ensures var f := Glide(m, cfg, dt, n);
      && f.position == Add(m.position, Scale(m.travelDirection, cfg.speed * dt * (n as real)))
      && f.travelDirection == m.travelDirection && f.lockedTarget == m.lockedTarget
      && f.lifetimeRemaining == m.lifetimeRemaining - (n as real) * dt
    decreases n
  {
    if n == 0 {
      assert Scale(m.travelDirection, cfg.speed * dt * 0.0) == Zero;
    } else {
      var next := Advance(m, cfg, dt);
      GlideStraight(next, cfg, dt, n - 1);
      StraightSum(m.position, m.travelDirection, cfg.speed * dt, n);
      assert (n as real) * dt == ((n - 1) as real) * dt + dt;
    }
  }

  /** Without a live target the missile flies a straight line at constant speed. */
  lemma CoastStraight(m: Missile, cfg: Config, dt: real, n: nat, targets: nat -> Option<TargetView>,
                      length: Vec3 -> real, slerp: Slerp)
    requires IsLength(length) && SlerpLaw(slerp)
    requires SqrMag(m.travelDirection) == 1.0 && !LiveTarget(m, targets)
    requires Coast(m, cfg, dt, n, targets, length, slerp).Some?
    ensures var f := Coast(m, cfg, dt, n, targets, length, slerp).value;
      && f.position == Add(m.position, Scale(m.travelDirection, cfg.speed * dt * (n as real)))
      && f.travelDirection == m.travelDirection
      && f.lifetimeRemaining == m.lifetimeRemaining - (n as real) * dt
  {
    CoastIsGlide(m, cfg, dt, n, targets, length, slerp);
    GlideStraight(m, cfg, dt, n);
  }

  /** One step of `k` followed by `n - 1` more is `n` steps. */
  lemma StraightSum(p: Vec3, d: Vec3, k: real, n: nat)
    requires n > 0
    ensures Add(Add(p, Scale(d, k)), Scale(d, k * ((n - 1) as real))) == Add(p, Scale(d, k * (n as real)))
  {
    var j := (n - 1) as real;
    assert k * (n as real) == k + k * j;
    assert d.x * k + d.x * (k * j) == d.x * (k + k * j);
    assert d.y * k + d.y * (k * j) == d.y * (k + k * j);
    assert d.z * k + d.z * (k * j) == d.z * (k + k * j);
  }
}

=== FILE: racer_obstacle.dfy ===
/**
 The lane racer's obstacle (`ObstacleMover` in the racing project): it
 slides toward the player along −z at its speed and, once past the despawn
 line, asks the match for one point and disappears. It has no game-over
 guard of its own; the match drops the point when the game is over.
 */
module RacerObstacle {
  import opened UnityMath
  import opened Vectors
  import opened Options
  import Match

  datatype Obstacle = Obstacle(position: Vec3, moveSpeed: real, despawnZ: real)

  /** The serialized speed and despawn line. */
  const DefaultMoveSpeed: real := 4.0
  const DefaultDespawnZ: real := -12.0

  /** `SetSpeed`: the given speed is stored as is. */
  function SetSpeed(o: Obstacle, speed: real): (r: Obstacle)
    ensures r.moveSpeed == speed
    ensures r.position == o.position && r.despawnZ == o.despawnZ
  {
    o.(moveSpeed := speed)
  }

  /** The frame's world-space translation along −z. */
  function Moved(o: Obstacle, dt: real): (p: Vec3)
    ensures p.x == o.position.x && p.y == o.position.y
    ensures p.z == o.position.z - o.moveSpeed * dt
  {
    Add(o.position, Scale(Vec3(0.0, 0.0, -1.0), o.moveSpeed * dt))
  }

  /**
   `Update`: move; past the despawn line, add one point to the match (when
   there is one) and remove the obstacle. The match changes only then.
   */
  function Update(o: Obstacle, dt: real, m: Option<Match.Match>): (r: (Option<Obstacle>, Option<Match.Match>))
    ensures r.0.Some? <==> Moved(o, dt).z >= o.despawnZ
    ensures r.0.Some? ==> r.0.value == o.(position := Moved(o, dt)) && r.1 == m
    ensures r.0.None? && m.Some? ==> r.1 == Some(Match.AddScore(m.value, 1).0)
    ensures m.None? ==> r.1.None?
    ensures m.Some? && m.value.isGameOver ==> r.1 == m
  {
    var moved := o.(position := Moved(o, dt));
    if moved.position.z < o.despawnZ then
      (None, if m.Some? then Some(Match.AddScore(m.value, 1).0) else None)
    else (Some(moved), m)
  }

  /** `n` frames of one obstacle against a match nothing else touches; a removed obstacle does nothing. */
  function Run(o: Option<Obstacle>, m: Match.Match, dt: real, n: nat): (Option<Obstacle>, Match.Match)
    decreases n
  {
    if n == 0 || o.None? then (o, m)
    else
      var step := Update(o.value, dt, Some(m));
      Run(step.0, step.1.value, dt, n - 1)
  }

  /**
   While it lasts the obstacle has travelled `n` steps of `moveSpeed · dt`;
   with a non-negative step it lasts exactly while that travel keeps it on
   or before the despawn line.
   */
  lemma {:induction false} RunTravel(o: Obstacle, m: Match.Match, dt: real, n: nat)
    ensures Run(Some(o), m, dt, n).0.Some? ==> var p := Run(Some(o), m, dt, n).0.value;
      && p.position == o.position.(z := o.position.z - (n as real) * (o.moveSpeed * dt))
      && p.moveSpeed == o.moveSpeed && p.despawnZ == o.despawnZ
    ensures o.moveSpeed * dt >= 0.0 && o.position.z >= o.despawnZ ==>
      (Run(Some(o), m, dt, n).0.Some? <==> o.position.z - (n as real) * (o.moveSpeed * dt) >= o.despawnZ)
    decreases n
  {
    if n > 0 {
      var d := o.moveSpeed * dt;
      var step := Update(o, dt, Some(m));
      assert (n as real) * d == ((n - 1) as real) * d + d;
      if step.0.Some? {
        RunTravel(step.0.value, step.1.value, dt, n - 1);
      } else if d >= 0.0 {
        MulMono(1.0, n as real, d);
      }
    }
  }

  /**
   An obstacle is worth at most one point: the score rises by one exactly
   when it has despawned during a running match, and a finished match
   drops the point.
   */
  lemma {:induction false} ScoresOnce(o: Option<Obstacle>, m: Match.Match, dt: real, n: nat)
    ensures var f := Run(o, m, dt, n).1;
      && f.isGameOver == m.isGameOver
      && (f.score == m.score + 1 <==> o.Some? && Run(o, m, dt, n).0.None? && !m.isGameOver)
      && (f.score == m.score || f.score == m.score + 1)
    decreases n
  {
    if n > 0 && o.Some? {
      var step := Update(o.value, dt, Some(m));
      if step.0.Some? {
        ScoresOnce(step.0, m, dt, n - 1);
      } else {
        ScoresOnce(None, step.1.value, dt, n - 1);
      }
    }
  }
}

=== FILE: racer_shield.dfy ===
/**
 The lane racer's shield pickup (`ShieldPickup`): it falls at a fixed speed
 and vanishes below the despawn height; touching the player raises the
 match's shield and removes the pickup. The pickup is spawned with the
 identity rotation and never turned, so its local down is world down.
 */
module RacerShield {
  import opened Vectors
  import opened Options
  import Match

  datatype Pickup = Pickup(position: Vec3, fallSpeed: real, despawnY: real)

  /** The serialized fall speed and despawn height. */
  const DefaultFallSpeed: real := 2.5
  const DefaultDespawnY: real := -7.0

  /** `Update`: fall by `fallSpeed · dt`; gone once below the despawn height. */
  function Update(p: Pickup, dt: real): (r: Option<Pickup>)
    ensures r.Some? <==> p.position.y - p.fallSpeed * dt >= p.despawnY
    ensures r.Some? ==> r.value == p.(position := p.position.(y := p.position.y - p.fallSpeed * dt))
  {
    var fallen := p.(position := Add(p.position, Scale(Vec3(0.0, -1.0, 0.0), p.fallSpeed * dt)));
    if fallen.position.y < p.despawnY then None else Some(fallen)
  }

  /**
   `OnTriggerEnter2D`: anything but the player is ignored; the player
   raises the match's shield (when there is a match) and the pickup is
   removed. The count is the number of `AcquireShield` calls made.
   */
  function OnTriggerEnter2D(p: Pickup, otherIsPlayer: bool, m: Option<Match.Match>): (r: (Option<Pickup>, Option<Match.Match>, nat))
    ensures !otherIsPlayer ==> r == (Some(p), m, 0)
    ensures otherIsPlayer ==> r.0.None? && r.2 == (if m.Some? then 1 else 0)
    ensures otherIsPlayer && m.Some? ==> r.1 == Some(Match.AcquireShield(m.value))
    ensures m.None? ==> r.1.None?
  {
    if !otherIsPlayer then (Some(p), m, 0)
    else if m.Some? then (None, Some(Match.AcquireShield(m.value)), 1)
    else (None, None, 0)
  }

  /** A sequence of contacts, `true` for the player; a removed pickup reacts to nothing. */
  function Contacts(p: Option<Pickup>, m: Match.Match, contacts: seq<bool>): (Option<Pickup>, Match.Match, nat)
    decreases |contacts|
  {
    if |contacts| == 0 || p.None? then (p, m, 0)
    else
      var hit := OnTriggerEnter2D(p.value, contacts[0], Some(m));
      var rest := Contacts(hit.0, hit.1.value, contacts[1..]);
      (rest.0, rest.1, hit.2 + rest.2)
  }

  /**
   A pickup grants the shield at most once: exactly once if the player
   touches it at all, and then the match holds a shield unless it was over.
   */
  lemma {:induction false} GrantsOnce(p: Pickup, m: Match.Match, contacts: seq<bool>)
    ensures var r := Contacts(Some(p), m, contacts);
      && (r.2 == 1 <==> true in contacts)
      && (r.2 == 0 <==> true !in contacts)
      && (r.0.None? <==> true in contacts)
      && (true in contacts && !m.isGameOver ==> r.1.hasShield)
      && (true !in contacts ==> r.1 == m)
    decreases |contacts|
  {
    if |contacts| > 0 {
      var hit := OnTriggerEnter2D(p, contacts[0], Some(m));
      if contacts[0] {
        assert true in contacts;
      } else {
        GrantsOnce(p, m, contacts[1..]);
        assert contacts == [false] + contacts[1..];
      }
    }
  }
}

=== FILE: racer_spawner.dfy ===
/**
 The lane racer's spawner (`ObstacleSpawner` in the racing project): two
 accumulating timers, an obstacle per obstacle interval whose speed grows by
 a fixed step on every firing, and a shield per shield interval when a
 shield prefab is set. Prefab presence and `Random.Range` draws are inputs.
 */
module RacerSpawner {
  import opened UnityMath
  import opened Vectors
  import opened Options

  datatype Config = Config(
    hasObstaclePrefab: bool,
    obstacleHasMover: bool,     // the prefab carries an `ObstacleMover`
    hasShieldPrefab: bool,
    minX: real, maxX: real, spawnY: real,
    obstacleSpawnInterval: real, shieldSpawnInterval: real,
    initialObstacleSpeed: real, speedIncrease: real)

  /** The serialized defaults, with both prefabs present. */
  const Defaults: Config := Config(true, true, true, -2.2, 2.2, 6.0, 1.3, 6.0, 4.0, 0.15)

  datatype Spawner = Spawner(obstacleTimer: real, shieldTimer: real, currentObstacleSpeed: real)

  datatype Event =
    | ObstacleSpawned(position: Vec3, speed: Option<real>)   // `None` when the prefab has no mover
    | ShieldSpawned(position: Vec3)

  /** `ResetSpawner` (also run by `Start`): both timers at zero, speed back to its initial value. */
  function ResetSpawner(cfg: Config): (s: Spawner)
    ensures s.obstacleTimer == 0.0 && s.shieldTimer == 0.0
    ensures s.currentObstacleSpeed == cfg.initialObstacleSpeed
  {
    Spawner(0.0, 0.0, cfg.initialObstacleSpeed)
  }

  /** The spawn point of either pickup: a random lane position at the spawn height. */
  function SpawnPosition(cfg: Config, u: real): (p: Vec3)
    ensures cfg.minX <= cfg.maxX ==> cfg.minX <= p.x <= cfg.maxX
    ensures p.y == cfg.spawnY && p.z == 0.0
  {
    Vec3(RandomRange(cfg.minX, cfg.maxX, u), cfg.spawnY, 0.0)
  }

  /** `SpawnObstacle`: nothing without a prefab; the mover, if any, gets the given speed. */
  function SpawnObstacle(cfg: Config, speed: real, u: real): (r: seq<Event>)
    ensures !cfg.hasObstaclePrefab ==> r == []
    ensures cfg.hasObstaclePrefab ==> |r| == 1 && r[0].ObstacleSpawned? && r[0].position == SpawnPosition(cfg, u)
    ensures cfg.hasObstaclePrefab ==> (r[0].speed == Some(speed) <==> cfg.obstacleHasMover)
  {
    if !cfg.hasObstaclePrefab then []
    else [ObstacleSpawned(SpawnPosition(cfg, u), if cfg.obstacleHasMover then Some(speed) else None)]
  }

  /** The obstacle timer reaches its interval this frame. */
  predicate ObstacleDue(s: Spawner, cfg: Config, dt: real) {
    s.obstacleTimer + dt >= cfg.obstacleSpawnInterval
  }

  /** A shield prefab is set and the shield timer reaches its interval this frame. */
  predicate ShieldDue(s: Spawner, cfg: Config, dt: real) {
    cfg.hasShieldPrefab && s.shieldTimer + dt >= cfg.shieldSpawnInterval
  }

  /**
   `Update`: nothing while over. Otherwise both timers gain `dt`. A full
   obstacle timer restarts, spawns at the current speed and then raises it,
   prefab or not. A full shield timer restarts and spawns only when a shield
   prefab exists; without one it keeps counting. The obstacle, if any,
   comes first and the shield, if any, last.
   */
  function Update(s: Spawner, cfg: Config, gameOver: bool, dt: real, uObstacle: real, uShield: real): (r: (Spawner, seq<Event>))
    ensures gameOver ==> r == (s, [])
    ensures !gameOver && ObstacleDue(s, cfg, dt) ==>
      r.0.obstacleTimer == 0.0 && r.0.currentObstacleSpeed == s.currentObstacleSpeed + cfg.speedIncrease
    ensures !gameOver && !ObstacleDue(s, cfg, dt) ==>
      r.0.obstacleTimer == s.obstacleTimer + dt && r.0.currentObstacleSpeed == s.currentObstacleSpeed
    ensures !gameOver && ShieldDue(s, cfg, dt) ==> r.0.shieldTimer == 0.0
    ensures !gameOver && !ShieldDue(s, cfg, dt) ==> r.0.shieldTimer == s.shieldTimer + dt
    ensures !gameOver ==> ((|r.1| > 0 && r.1[0].ObstacleSpawned?) <==> ObstacleDue(s, cfg, dt) && cfg.hasObstaclePrefab)
    ensures !gameOver && ObstacleDue(s, cfg, dt) && cfg.hasObstaclePrefab ==>
      r.1[0] == SpawnObstacle(cfg, s.currentObstacleSpeed, uObstacle)[0]
    ensures !gameOver ==> ((|r.1| > 0 && r.1[|r.1| - 1].ShieldSpawned?) <==> ShieldDue(s, cfg, dt))
    ensures !gameOver && ShieldDue(s, cfg, dt) ==> r.1[|r.1| - 1] == ShieldSpawned(SpawnPosition(cfg, uShield))
    ensures |r.1| <= 2
    ensures forall i :: 0 <= i < |r.1| && r.1[i].ObstacleSpawned? ==> i == 0
    ensures forall i :: 0 <= i < |r.1| && r.1[i].ShieldSpawned? ==> i == |r.1| - 1
  {
    if gameOver then (s, [])
    else
      var timed := s.(obstacleTimer := s.obstacleTimer + dt, shieldTimer := s.shieldTimer + dt);
      var (afterObstacle, obstacles) :=
        if timed.obstacleTimer >= cfg.obstacleSpawnInterval then
          (timed.(obstacleTimer := 0.0, currentObstacleSpeed := s.currentObstacleSpeed + cfg.speedIncrease),
           SpawnObstacle(cfg, s.currentObstacleSpeed, uObstacle))
        else (timed, []);
      if cfg.hasShieldPrefab && timed.shieldTimer >= cfg.shieldSpawnInterval then
        (afterObstacle.(shieldTimer := 0.0), obstacles + [ShieldSpawned(SpawnPosition(cfg, uShield))])
      else (afterObstacle, obstacles)
  }

  /** Running frames of length `dt`, one pair of draws per frame. */
  function Run(s: Spawner, cfg: Config, dt: real, draws: seq<(real, real)>): (Spawner, seq<Event>)
    decreases |draws|
  {
    if |draws| == 0 then (s, [])
    else
      var step := Update(s, cfg, false, dt, draws[0].0, draws[0].1);
      var rest := Run(step.0, cfg, dt, draws[1..]);
      (rest.0, step.1 + rest.1)
  }

  /** The obstacles among a run's events, in spawn order. */
  function Obstacles(events: seq<Event>): seq<Event> {
    if |events| == 0 then []
    else (if events[0].ObstacleSpawned? then [events[0]] else []) + Obstacles(events[1..])
  }

  lemma {:induction false} ObstaclesConcat(a: seq<Event>, b: seq<Event>)
    ensures Obstacles(a + b) == Obstacles(a) + Obstacles(b)
    decreases |a|
  {
    if |a| > 0 {
      assert (a + b)[1..] == a[1..] + b;
      ObstaclesConcat(a[1..], b);
    } else {
      assert a + b == b;
    }
  }

  /** One running frame contributes the due obstacle, at the current speed, or none. */
  lemma StepObstacles(s: Spawner, cfg: Config, dt: real, u0: real, u1: real)
    requires cfg.hasObstaclePrefab && cfg.obstacleHasMover
    ensures ObstacleDue(s, cfg, dt) ==>
      Obstacles(Update(s, cfg, false, dt, u0, u1).1) == [ObstacleSpawned(SpawnPosition(cfg, u0), Some(s.currentObstacleSpeed))]
    ensures !ObstacleDue(s, cfg, dt) ==> Obstacles(Update(s, cfg, false, dt, u0, u1).1) == []
  {
    var events := Update(s, cfg, false, dt, u0, u1).1;
    if ObstacleDue(s, cfg, dt) {
      NoObstacles(events[1..]);
    } else {
      NoObstacles(events);
    }
  }

  /**
   With an obstacle prefab that carries a mover, the speed after a run is
   the starting speed plus one step per obstacle spawned, and the `i`-th
   obstacle was given the starting speed plus `i` steps.
   */
  lemma {:induction false} SpeedCountsSpawns(s: Spawner, cfg: Config, dt: real, draws: seq<(real, real)>)
    requires cfg.hasObstaclePrefab && cfg.obstacleHasMover
    ensures var obs := Obstacles(Run(s, cfg, dt, draws).1);
      && Advanced(Run(s, cfg, dt, draws).0.currentObstacleSpeed, s.currentObstacleSpeed, cfg.speedIncrease, |obs|)
      && SpeedsFrom(obs, s.currentObstacleSpeed, cfg.speedIncrease)
    decreases |draws|
  {
    if |draws| > 0 {
      var step := Update(s, cfg, false, dt, draws[0].0, draws[0].1);
      var rest := Run(step.0, cfg, dt, draws[1..]);
      assert Run(s, cfg, dt, draws) == (rest.0, step.1 + rest.1);
      SpeedCountsSpawns(step.0, cfg, dt, draws[1..]);
      ObstaclesConcat(step.1, rest.1);
      StepObstacles(s, cfg, dt, draws[0].0, draws[0].1);
      var here: seq<Event> := Obstacles(step.1);
      var later: seq<Event> := Obstacles(rest.1);
      assert Obstacles(step.1 + rest.1) == here + later;
      var inc := cfg.speedIncrease;
      var v := s.currentObstacleSpeed;
      if ObstacleDue(s, cfg, dt) {
        assert step.0.currentObstacleSpeed == v + inc;
        ShiftSpeeds(v, inc, here, later, rest.0.currentObstacleSpeed);
      } else {
        assert here + later == later;
        assert step.0.currentObstacleSpeed == v;
      }
    } else {
      assert Obstacles([]) == [];
    }
  }

  /** `speed` is `v` raised by `k` steps of `inc`. */
  predicate Advanced(speed: real, v: real, inc: real, k: nat) {
    speed == v + (k as real) * inc
  }

  /** The `i`-th obstacle of `obs` was given speed `v + i · inc`. */
  predicate SpeedsFrom(obs: seq<Event>, v: real, inc: real) {
    forall i :: 0 <= i < |obs| ==> obs[i].ObstacleSpawned? && obs[i].speed == Some(v + (i as real) * inc)
  }

  /** Prepending the obstacle spawned at speed `v` to a run that started at `v + inc`. */
  lemma ShiftSpeeds(v: real, inc: real, here: seq<Event>, later: seq<Event>, final: real)
    requires |here| == 1 && here[0].ObstacleSpawned? && here[0].speed == Some(v)
    requires SpeedsFrom(later, v + inc, inc) && Advanced(final, v + inc, inc, |later|)
    ensures SpeedsFrom(here + later, v, inc) && Advanced(final, v, inc, |here + later|)
  {
    forall i | 0 <= i < |here + later|
      ensures (here + later)[i].ObstacleSpawned? && (here + later)[i].speed == Some(v + (i as real) * inc)
    {
      if i == 0 {
        assert (here + later)[0] == here[0];
        assert (0 as real) * inc == 0.0;
      } else {
        var j := i - 1;
        assert (here + later)[i] == later[j];
        OneMoreStep(j, inc);
        assert later[j].speed == Some(v + inc + (j as real) * inc);
        assert v + inc + (j as real) * inc == v + (i as real) * inc;
      }
    }
    OneMoreStep(|later|, inc);
  }

  /** `k + 1` steps of `inc` are `k` steps and one more. */
  lemma OneMoreStep(k: nat, inc: real)
    ensures ((k + 1) as real) * inc == (k as real) * inc + inc
  {
    var j := k as real;
    assert (k + 1) as real == j + 1.0;
    assert (j + 1.0) * inc == j * inc + 1.0 * inc;
  }

  lemma {:induction false} NoObstacles(events: seq<Event>)
    requires forall i :: 0 <= i < |events| ==> !events[i].ObstacleSpawned?
    ensures Obstacles(events) == []
    decreases |events|
  {
    if |events| > 0 {
      NoObstacles(events[1..]);
    }
  }
}

=== FILE: surface.dfy ===
/**
 The terrain surface model of the tank arena (`RuntimeRoadFactory`): static
 rectangular zones blended in by a smoothstep falloff and aggregated by
 minimum, then a position-keyed roughness penalty, then fixed floors.
 */
module Surface {
  import opened UnityMath
  import opened Vectors
  import opened Options

  datatype SurfaceProfile = SurfaceProfile(traction: real, speedFactor: real, turnFactor: real)

  /** A zone's footprint on the ground plane (x and z) and its three multipliers. */
  datatype SurfaceZone = SurfaceZone(
    centerX: real, centerZ: real,
    halfX: real, halfZ: real,
    traction: real, speedFactor: real, turnFactor: real)

  /** A scene transform as seen by the zone rebuild: its name, world position and local scale. */
  datatype NamedTransform = NamedTransform(name: string, position: Vec3, localScale: Vec3)

  /** The coherent noise field sampled for roughness (`Mathf.PerlinNoise`). */
  type Noise = (real, real) -> real

  const Identity: SurfaceProfile := SurfaceProfile(1.0, 1.0, 1.0)

  const TractionFloor: real := 0.42
  const SpeedFloor: real := 0.62
  const TurnFloor: real := 0.55

  /** Influence below this threshold is ignored. */
  const InfluenceCutoff: real := 0.001

  predicate InRange(p: SurfaceProfile) {
    && TractionFloor <= p.traction <= 1.0
    && SpeedFloor <= p.speedFactor <= 1.0
    && TurnFloor <= p.turnFactor <= 1.0
  }

  /** Componentwise order: `p` is nowhere better than `q`. */
  predicate Below(p: SurfaceProfile, q: SurfaceProfile) {
    p.traction <= q.traction && p.speedFactor <= q.speedFactor && p.turnFactor <= q.turnFactor
  }

  /** Linear falloff along one axis: 1 at the centre, 0 at and beyond the half-extent (floored at 0.1). */
  function AxisWeight(p: real, c: real, half: real): (w: real)
    ensures 0.0 <= w <= 1.0
    ensures p == c ==> w == 1.0
    ensures Abs(p - c) >= Max(0.1, half) ==> w == 0.0
  {
    var h := Max(0.1, half);
    var d := Abs(p - c);
    QuotientAtLeastOne(d, h);
    1.0 - Clamp01(d / h)
  }

  lemma QuotientAtLeastOne(d: real, h: real)
    requires h > 0.0
    ensures d >= h ==> d / h >= 1.0
  {
  }

  /** The bilinear influence `wx * wz` of a zone at a ground point. */
  function Influence(zone: SurfaceZone, x: real, z: real): (w: real)
    ensures 0.0 <= w <= 1.0
  {
    var wx := AxisWeight(x, zone.centerX, zone.halfX);
    var wz := AxisWeight(z, zone.centerZ, zone.halfZ);
    UnitProductBounds(wx, wz);
    wx * wz
  }

  /** The smoothstep `w*w*(3-2w)` that softens zone edges. */
  function Smoothstep(w: real): (r: real)
    requires 0.0 <= w <= 1.0
    ensures 0.0 <= r <= 1.0
    ensures w == 0.0 ==> r == 0.0
    ensures w == 1.0 ==> r == 1.0
  {
    SmoothstepBounds(w);
    w * w * (3.0 - 2.0 * w)
  }

  lemma SmoothstepBounds(w: real)
    requires 0.0 <= w <= 1.0
    ensures 0.0 <= w * w * (3.0 - 2.0 * w) <= 1.0
  {
    var sq := w * w;
    UnitProductBounds(w, w);
    MulMono(0.0, sq, 3.0 - 2.0 * w);
    var gap := (1.0 - w) * (1.0 - w);
    MulMono(0.0, 1.0 - w, 1.0 - w);
    MulMono(0.0, gap, 1.0 + 2.0 * w);
    assert 1.0 - sq * (3.0 - 2.0 * w) == gap * (1.0 + 2.0 * w);
  }

  /** The profile a zone imposes at a point, or `None` when its influence is negligible. */
  function Contribution(zone: SurfaceZone, x: real, z: real): (r: Option<SurfaceProfile>)
    ensures r.None? <==> Influence(zone, x, z) <= InfluenceCutoff
    ensures r.Some? ==> Between(r.value.traction, 1.0, zone.traction)
    ensures r.Some? ==> Between(r.value.speedFactor, 1.0, zone.speedFactor)
    ensures r.Some? ==> Between(r.value.turnFactor, 1.0, zone.turnFactor)
  {
    var w := Influence(zone, x, z);
    if w <= InfluenceCutoff then None
    else
      var s := Smoothstep(w);
      Some(SurfaceProfile(
        Lerp(1.0, zone.traction, s),
        Lerp(1.0, zone.speedFactor, s),
        Lerp(1.0, zone.turnFactor, s)))
  }

  function MinProfile(p: SurfaceProfile, q: SurfaceProfile): (r: SurfaceProfile)
    ensures Below(r, p) && Below(r, q)
  {
    SurfaceProfile(
      Min(p.traction, q.traction),
      Min(p.speedFactor, q.speedFactor),
      Min(p.turnFactor, q.turnFactor))
  }

  /** The zone contributes at this point and its blended traction is `t`. */
  predicate SetsTraction(zone: SurfaceZone, x: real, z: real, t: real) {
    Contribution(zone, x, z).Some? && Contribution(zone, x, z).value.traction == t
  }

  /**
   The zone loop: start from the identity profile and take the componentwise
   minimum with every contributing zone, in list order.
   */
  function Aggregate(zones: seq<SurfaceZone>, x: real, z: real): (r: SurfaceProfile)
    ensures Below(r, Identity)
    ensures forall i :: 0 <= i < |zones| && Contribution(zones[i], x, z).Some? ==>
      Below(r, Contribution(zones[i], x, z).value)
    ensures r.traction == 1.0 || exists i :: 0 <= i < |zones| && SetsTraction(zones[i], x, z, r.traction)
    decreases |zones|
  {
    if |zones| == 0 then Identity
    else
      var n := |zones| - 1;
      var rest := Aggregate(zones[..n], x, z);
      assert forall i :: 0 <= i < n ==> zones[..n][i] == zones[i];
      match Contribution(zones[n], x, z)
      case None => rest
      case Some(c) => MinProfile(rest, c)
  }

  /** Roughness above 0.6 scales traction by a penalty in [0.86, 1]. */
  function RoughPenalty(roughness: real): (r: real)
    ensures 0.86 <= r <= 1.0
    ensures roughness <= 0.6 ==> r == 1.0
  {
    Lerp(1.0, 0.86, Clamp01((roughness - 0.6) * 2.4))
  }

  /** The turn multiplier derived from the traction penalty, in [0.9, 1]. */
  function TurnScale(penalty: real): (r: real)
    ensures 0.9 <= r <= 1.0
    ensures penalty == 1.0 ==> r == 1.0
  {
    Lerp(1.0, 0.9, 1.0 - penalty)
  }

  /** The noise field's value at a ground point, with the source's offsets and frequency. */
  function Roughness(noise: Noise, x: real, z: real): real {
    noise((x + 113.0) * 0.07, (z + 71.0) * 0.07)
  }

  /** Apply the roughness penalty and the final floors to an aggregated profile. */
  function Finish(agg: SurfaceProfile, penalty: real): (r: SurfaceProfile)
    requires 0.86 <= penalty <= 1.0
    ensures InRange(r)
  {
    SurfaceProfile(
      Clamp(agg.traction * penalty, TractionFloor, 1.0),
      Clamp(agg.speedFactor, SpeedFloor, 1.0),
      Clamp(agg.turnFactor * TurnScale(penalty), TurnFloor, 1.0))
  }

  /** `SampleSurfaceProfile`: the profile at a world position. */
  function SampleSurfaceProfile(zones: seq<SurfaceZone>, position: Vec3, noise: Noise): (r: SurfaceProfile)
    ensures InRange(r)
    ensures |zones| == 0 ==> r == Identity
  {
    if |zones| == 0 then Identity
    else
      var agg := Aggregate(zones, position.x, position.z);
      Finish(agg, RoughPenalty(Roughness(noise, position.x, position.z)))
  }

  /** The speed factor never depends on the noise field. */
  lemma SpeedIgnoresNoise(zones: seq<SurfaceZone>, position: Vec3, n1: Noise, n2: Noise)
    ensures SampleSurfaceProfile(zones, position, n1).speedFactor == SampleSurfaceProfile(zones, position, n2).speedFactor
  {
  }

  /** Where roughness stays at or below 0.6, the sample is the clamped zone aggregate. */
  lemma SmoothGroundNoPenalty(zones: seq<SurfaceZone>, position: Vec3, noise: Noise)
    requires |zones| > 0
    requires Roughness(noise, position.x, position.z) <= 0.6
    ensures var agg := Aggregate(zones, position.x, position.z);
      SampleSurfaceProfile(zones, position, noise) == SurfaceProfile(
        Clamp(agg.traction, TractionFloor, 1.0),
        Clamp(agg.speedFactor, SpeedFloor, 1.0),
        Clamp(agg.turnFactor, TurnFloor, 1.0))
  {
    var agg := Aggregate(zones, position.x, position.z);
    assert RoughPenalty(Roughness(noise, position.x, position.z)) == 1.0;
    FinishNoPenalty(agg);
  }

  lemma FinishNoPenalty(agg: SurfaceProfile)
    ensures Finish(agg, 1.0) == SurfaceProfile(
      Clamp(agg.traction, TractionFloor, 1.0),
      Clamp(agg.speedFactor, SpeedFloor, 1.0),
      Clamp(agg.turnFactor, TurnFloor, 1.0))
  {
    assert TurnScale(1.0) == 1.0;
    assert agg.traction * 1.0 == agg.traction;
    assert agg.turnFactor * 1.0 == agg.turnFactor;
  }

  /** Appending a zone never raises any factor of the aggregate. */
  lemma AggregateAppendBelow(zones: seq<SurfaceZone>, zone: SurfaceZone, x: real, z: real)
    ensures Below(Aggregate(zones + [zone], x, z), Aggregate(zones, x, z))
    ensures Contribution(zone, x, z).None? ==> Aggregate(zones + [zone], x, z) == Aggregate(zones, x, z)
  {
    assert (zones + [zone])[..|zones|] == zones;
  }

  lemma ClampMono(a: real, b: real, lo: real, hi: real)
    requires a <= b && lo <= hi
    ensures Clamp(a, lo, hi) <= Clamp(b, lo, hi)
  {
  }

  lemma FinishMono(p: SurfaceProfile, q: SurfaceProfile, penalty: real)
    requires 0.86 <= penalty <= 1.0
    requires Below(p, q)
    ensures Below(Finish(p, penalty), Finish(q, penalty))
  {
    var k := TurnScale(penalty);
    ScaledClampMono(p.traction, q.traction, penalty, TractionFloor);
    ScaledClampMono(p.turnFactor, q.turnFactor, k, TurnFloor);
    ClampMono(p.speedFactor, q.speedFactor, SpeedFloor, 1.0);
    assert Finish(p, penalty).traction == Clamp(p.traction * penalty, TractionFloor, 1.0);
    assert Finish(q, penalty).traction == Clamp(q.traction * penalty, TractionFloor, 1.0);
  }

  lemma ScaledClampMono(a: real, b: real, k: real, lo: real)
    requires a <= b && k >= 0.0 && lo <= 1.0
    ensures Clamp(a * k, lo, 1.0) <= Clamp(b * k, lo, 1.0)
  {
    MulMono(a, b, k);
    ClampMono(a * k, b * k, lo, 1.0);
  }

  /** Adding a zone anywhere in the world never improves the surface at any point. */
  lemma AddingZoneNeverRaises(zones: seq<SurfaceZone>, zone: SurfaceZone, position: Vec3, noise: Noise)
    ensures Below(SampleSurfaceProfile(zones + [zone], position, noise), SampleSurfaceProfile(zones, position, noise))
  {
    if |zones| > 0 {
      AggregateAppendBelow(zones, zone, position.x, position.z);
      var penalty := RoughPenalty(Roughness(noise, position.x, position.z));
      FinishMono(Aggregate(zones + [zone], position.x, position.z), Aggregate(zones, position.x, position.z), penalty);
    }
  }

  /** A zone with negligible influence at a point leaves a non-empty zone list's sample unchanged. */
  lemma NegligibleZoneIgnored(zones: seq<SurfaceZone>, zone: SurfaceZone, position: Vec3, noise: Noise)
    requires |zones| > 0
    requires Influence(zone, position.x, position.z) <= InfluenceCutoff
    ensures SampleSurfaceProfile(zones + [zone], position, noise) == SampleSurfaceProfile(zones, position, noise)
  {
    AggregateAppendBelow(zones, zone, position.x, position.z);
  }

  /** `AddSurfaceZone`: append a zone with the x/z centre and non-negative half-extents |size|/2. */
  function AddSurfaceZone(zones: seq<SurfaceZone>, center: Vec3, size: Vec3,
                          traction: real, speedFactor: real, turnFactor: real): (r: seq<SurfaceZone>)
    ensures |r| == |zones| + 1 && r[..|zones|] == zones
    ensures var added := r[|zones|];
      && added.centerX == center.x && added.centerZ == center.z
      && added.halfX >= 0.0 && added.halfZ >= 0.0
      && 2.0 * added.halfX == Abs(size.x) && 2.0 * added.halfZ == Abs(size.z)
      && added.traction == traction && added.speedFactor == speedFactor && added.turnFactor == turnFactor
  {
    zones + [SurfaceZone(center.x, center.z, Abs(size.x) * 0.5, Abs(size.z) * 0.5,
                         traction, speedFactor, turnFactor)]
  }

  predicate IsSurfaceName(t: NamedTransform) {
    t.name == "DirtPatch" || t.name == "GroundMound"
  }

  /** The named patches among `ts`, in order. */
  function SurfaceNamed(ts: seq<NamedTransform>): (r: seq<NamedTransform>)
    ensures |r| <= |ts|
    ensures forall i :: 0 <= i < |r| ==> IsSurfaceName(r[i])
    decreases |ts|
  {
    if |ts| == 0 then []
    else if IsSurfaceName(ts[0]) then [ts[0]] + SurfaceNamed(ts[1..])
    else SurfaceNamed(ts[1..])
  }

  /** The named patches are exactly the transforms with a patch name. */
  lemma {:induction false} SurfaceNamedMembers(ts: seq<NamedTransform>, t: NamedTransform)
    ensures t in SurfaceNamed(ts) <==> t in ts && IsSurfaceName(t)
    decreases |ts|
  {
    if |ts| > 0 {
      SurfaceNamedMembers(ts[1..], t);
      assert t in ts <==> t == ts[0] || t in ts[1..];
    }
  }

  /** The multipliers a named scene object stands for. */
  function ZoneValues(name: string): (r: SurfaceProfile)
    requires name == "DirtPatch" || name == "GroundMound"
  {
    if name == "DirtPatch" then SurfaceProfile(0.72, 0.84, 0.82) else SurfaceProfile(0.55, 0.7, 0.64)
  }

  function ZonesFrom(zones: seq<SurfaceZone>, ts: seq<NamedTransform>): (r: seq<SurfaceZone>)
    ensures |r| == |zones| + |SurfaceNamed(ts)|
    ensures r[..|zones|] == zones
    decreases |ts|
  {
    if |ts| == 0 then zones
    else
      var t := ts[0];
      var next :=
        if IsSurfaceName(t) then
          var v := ZoneValues(t.name);
          AddSurfaceZone(zones, t.position, t.localScale, v.traction, v.speedFactor, v.turnFactor)
        else zones;
      var r := ZonesFrom(next, ts[1..]);
      assert r[..|zones|] == next[..|next|][..|zones|];
      r
  }

  /**
   `EnsureSurfaceZonesFromExisting`: when the zone list is empty and the
   battlefield root exists, rebuild one zone per "DirtPatch" or "GroundMound"
   among the root's transforms; otherwise change nothing.
   */
  function EnsureSurfaceZonesFromExisting(zones: seq<SurfaceZone>, root: Option<seq<NamedTransform>>): (r: seq<SurfaceZone>)
    ensures |zones| > 0 || root.None? ==> r == zones
    ensures |zones| == 0 && root.Some? ==> |r| == |SurfaceNamed(root.value)|
  {
    if |zones| > 0 || root.None? then zones else ZonesFrom(zones, root.value)
  }

  /** `zone` is the zone built from the named transform `t`. */
  predicate BuiltFrom(zone: SurfaceZone, t: NamedTransform)
    requires IsSurfaceName(t)
  {
    && zone.centerX == t.position.x && zone.centerZ == t.position.z
    && Abs(t.localScale.x) == 2.0 * zone.halfX && Abs(t.localScale.z) == 2.0 * zone.halfZ
    && SurfaceProfile(zone.traction, zone.speedFactor, zone.turnFactor) == ZoneValues(t.name)
  }

  /** A rebuilt zone list holds exactly the named patches, in transform order, with their fixed multipliers. */
  lemma {:induction false} ZonesFromContents(zones: seq<SurfaceZone>, ts: seq<NamedTransform>, i: nat)
    requires i < |SurfaceNamed(ts)|
    ensures BuiltFrom(ZonesFrom(zones, ts)[|zones| + i], SurfaceNamed(ts)[i])
    decreases |ts|
  {
    var f := SurfaceNamed(ts);
    var t0 := ts[0];
    var rest := SurfaceNamed(ts[1..]);
    if IsSurfaceName(t0) {
      var v := ZoneValues(t0.name);
      var next := AddSurfaceZone(zones, t0.position, t0.localScale, v.traction, v.speedFactor, v.turnFactor);
      assert f == [t0] + rest;
      var r := ZonesFrom(next, ts[1..]);
      assert ZonesFrom(zones, ts) == r;
      if i == 0 {
        assert r[..|next|][|zones|] == next[|zones|];
      } else {
        ZonesFromContents(next, ts[1..], i - 1);
        assert f[i] == rest[i - 1];
      }
    } else {
      assert f == rest;
      assert ZonesFrom(zones, ts) == ZonesFrom(zones, ts[1..]);
      ZonesFromContents(zones, ts[1..], i);
    }
  }
}

=== FILE: tank_aim_zone.dfy ===
/**
 The turret's lock-on zone (`TankAimZone`): a duplicate-free list of enemies
 that entered the trigger sphere, pruned of dead entries before every query,
 and a nearest-alive lookup. Enemies are identities; `isAlive` and `positionOf`
 are the engine's view of them.
 */
module TankAimZone {
  import opened UnityMath
  import opened Vectors
  import opened Options
  import Seqs

  datatype Zone = Zone(tracked: seq<nat>)

  /** The position of the first occurrence of `x`. */
  function IndexOf(s: seq<nat>, x: nat): (i: nat)
    requires x in s
    ensures i < |s| && s[i] == x && x !in s[..i]
    decreases |s|
  {
    if s[0] == x then 0
    else
      var k := IndexOf(s[1..], x);
      assert s[..k + 1] == [s[0]] + s[1..][..k];
      k + 1
  }

  /** `List.Remove`: drop the first occurrence, if any. */
  function RemoveFirst(s: seq<nat>, x: nat): (r: seq<nat>)
    ensures x !in s ==> r == s
    ensures x in s ==> |r| == |s| - 1
  {
    if x in s then
      var i := IndexOf(s, x);
      s[..i] + s[i + 1..]
    else s
  }

  /** `OnTriggerEnter`: track a live enemy once; ignore anything else. */
  function Enter(z: Zone, other: Option<nat>, isAlive: nat -> bool): (r: Zone)
    ensures other.None? || !isAlive(other.value) || other.value in z.tracked ==> r == z
    ensures other.Some? && isAlive(other.value) && other.value !in z.tracked ==> r.tracked == z.tracked + [other.value]
    ensures Seqs.NoDup(z.tracked) ==> Seqs.NoDup(r.tracked)
  {
    if other.None? || !isAlive(other.value) || other.value in z.tracked then z
    else Zone(z.tracked + [other.value])
  }

  /** `OnTriggerExit`: forget the leaving enemy, keeping the others in order. */
  function Exit(z: Zone, other: Option<nat>): (r: Zone)
    ensures other.None? ==> r == z
    ensures other.Some? ==> r.tracked == RemoveFirst(z.tracked, other.value)
    ensures Seqs.NoDup(z.tracked) && other.Some? ==> forall x :: x in r.tracked <==> x in z.tracked && x != other.value
    ensures Seqs.NoDup(z.tracked) ==> Seqs.NoDup(r.tracked)
  {
    if other.None? then z
    else
      RemoveKeepsOthers(z.tracked, other.value);
      Zone(RemoveFirst(z.tracked, other.value))
  }

  lemma RemoveKeepsOthers(s: seq<nat>, x: nat)
    ensures Seqs.NoDup(s) ==> forall y :: y in RemoveFirst(s, x) <==> y in s && y != x
    ensures Seqs.NoDup(s) ==> Seqs.NoDup(RemoveFirst(s, x))
  {
    if x in s && Seqs.NoDup(s) {
      RemoveMembers(s, x);
      RemoveNoDup(s, x);
    }
  }

  /** Without duplicates, removing `x` removes exactly `x`. */
  lemma RemoveMembers(s: seq<nat>, x: nat)
    requires x in s && Seqs.NoDup(s)
    ensures forall y :: y in RemoveFirst(s, x) <==> y in s && y != x
  {
    var i := IndexOf(s, x);
    var before, after := s[..i], s[i + 1..];
    assert s == before + [x] + after;
    assert x !in after by {
      forall k | 0 <= k < |after|
        ensures after[k] != x
      {
        assert after[k] == s[i + 1 + k];
      }
    }
    assert RemoveFirst(s, x) == before + after;
  }

  /** Removing an element keeps a duplicate-free list duplicate-free. */
  lemma RemoveNoDup(s: seq<nat>, x: nat)
    requires x in s && Seqs.NoDup(s)
    ensures Seqs.NoDup(RemoveFirst(s, x))
  {
    var i := IndexOf(s, x);
    var r := RemoveFirst(s, x);
    forall a, b | 0 <= a < b < |r|
      ensures r[a] != r[b]
    {
      var a' := if a < i then a else a + 1;
      var b' := if b < i then b else b + 1;
      assert r[a] == s[a'] && r[b] == s[b'];
    }
  }

  /** Entering and leaving again, for an enemy not yet tracked, restores the list. */
  lemma EnterThenExit(z: Zone, x: nat, isAlive: nat -> bool)
    requires x !in z.tracked
    ensures Exit(Enter(z, Some(x), isAlive), Some(x)) == z
  {
    RemoveLast(z.tracked, x);
  }

  lemma RemoveLast(s: seq<nat>, x: nat)
    requires x !in s
    ensures RemoveFirst(s + [x], x) == s
  {
    var t := s + [x];
    assert t[|s|] == x && t[..|s|] == s;
    var i := IndexOf(t, x);
    assert t[..i] == s;
  }

  /** `CleanupMissingTargets`: drop every entry that is gone or dead. */
  function Cleanup(z: Zone, isAlive: nat -> bool): (r: Zone)
    ensures forall i :: 0 <= i < |r.tracked| ==> isAlive(r.tracked[i])
    ensures forall x :: x in r.tracked <==> x in z.tracked && isAlive(x)
    ensures Seqs.NoDup(z.tracked) ==> Seqs.NoDup(r.tracked)
  {
    Seqs.FilterNoDup(z.tracked, isAlive);
    Zone(Seqs.Filter(z.tracked, isAlive))
  }

  /** `HasTarget`: prune, then report whether anything is left. */
  function HasTarget(z: Zone, isAlive: nat -> bool): (r: (Zone, bool))
    ensures r.0 == Cleanup(z, isAlive)
    ensures r.1 <==> exists x :: x in z.tracked && isAlive(x)
  {
    var c := Cleanup(z, isAlive);
    if |c.tracked| > 0 then
      assert c.tracked[0] in c.tracked;
      (c, true)
    else (c, false)
  }

  /** An entry the lock can pick: alive and nearer than the `float.MaxValue` seed. */
  predicate Lockable(id: nat, isAlive: nat -> bool, positionOf: nat -> Vec3, center: Vec3) {
    isAlive(id) && SqrMag(Sub(positionOf(id), center)) < FloatMax
  }

  function SqrDist(id: nat, positionOf: nat -> Vec3, center: Vec3): real {
    SqrMag(Sub(positionOf(id), center))
  }

  /** The nearest lockable entry of `s`, the first of equals winning. */
  function Nearest(s: seq<nat>, isAlive: nat -> bool, positionOf: nat -> Vec3, center: Vec3): (r: Option<nat>)
    ensures r.None? <==> forall i :: 0 <= i < |s| ==> !Lockable(s[i], isAlive, positionOf, center)
    ensures r.Some? ==> r.value < |s| && Lockable(s[r.value], isAlive, positionOf, center)
    ensures r.Some? ==> forall j :: 0 <= j < |s| && Lockable(s[j], isAlive, positionOf, center) ==>
      SqrDist(s[r.value], positionOf, center) <= SqrDist(s[j], positionOf, center)
    ensures r.Some? ==> forall j :: 0 <= j < r.value && Lockable(s[j], isAlive, positionOf, center) ==>
      SqrDist(s[r.value], positionOf, center) < SqrDist(s[j], positionOf, center)
    decreases |s|
  {
    if |s| == 0 then None
    else
      var n := |s| - 1;
      var prefix := s[..n];
      var rest := Nearest(prefix, isAlive, positionOf, center);
      assert forall i :: 0 <= i < n ==> prefix[i] == s[i];
      var best := if rest.Some? then SqrDist(s[rest.value], positionOf, center) else FloatMax;
      if isAlive(s[n]) && SqrDist(s[n], positionOf, center) < best then Some(n) else rest
  }

  /**
   `TryGetLockedTarget`: prune, then return the live tracked enemy nearest
   the zone's centre, or nothing when no entry is left; of equally near
   entries the one tracked first wins.
   */
  function TryGetLockedTarget(z: Zone, isAlive: nat -> bool, positionOf: nat -> Vec3, center: Vec3): (r: (Zone, Option<nat>))
    ensures r.0 == Cleanup(z, isAlive)
    ensures r.1.None? <==> forall x :: x in z.tracked ==> !Lockable(x, isAlive, positionOf, center)
    ensures r.1.Some? ==> r.1.value in z.tracked && isAlive(r.1.value)
    ensures r.1.Some? ==> forall x :: x in z.tracked && isAlive(x) && SqrDist(x, positionOf, center) < FloatMax ==>
      SqrDist(r.1.value, positionOf, center) <= SqrDist(x, positionOf, center)
    ensures r.1.Some? ==> exists i :: 0 <= i < |r.0.tracked| && r.0.tracked[i] == r.1.value &&
                                      (forall j :: 0 <= j < i && Lockable(r.0.tracked[j], isAlive, positionOf, center) ==>
                                         SqrDist(r.1.value, positionOf, center) < SqrDist(r.0.tracked[j], positionOf, center))
  {
    var c := Cleanup(z, isAlive);
    if |c.tracked| == 0 then (c, None)
    else
      var k := Nearest(c.tracked, isAlive, positionOf, center);
      if k.Some? then
        (c, Some(c.tracked[k.value]))
      else
        (c, None)
  }

  /** `Clear` and `OnDisable`: forget everything. */
  function Clear(z: Zone): (r: Zone)
    ensures |r.tracked| == 0
    ensures !HasTarget(r, _ => true).1
  {
    Zone([])
  }

  /** The zone's list stays duplicate-free under every operation. */
  lemma NoDupPreserved(z: Zone, other: Option<nat>, isAlive: nat -> bool, positionOf: nat -> Vec3, center: Vec3)
    requires Seqs.NoDup(z.tracked)
    ensures Seqs.NoDup(Enter(z, other, isAlive).tracked)
    ensures Seqs.NoDup(Exit(z, other).tracked)
    ensures Seqs.NoDup(HasTarget(z, isAlive).0.tracked)
    ensures Seqs.NoDup(TryGetLockedTarget(z, isAlive, positionOf, center).0.tracked)
  {
  }
}

=== FILE: tank_enemy.dfy ===
/**
 An enemy tank of the arena (`ObstacleMover` in the tank project): stat
 floors on configuration, one-shot death, the approach/retreat/strafe choice,
 the arena clamp, and the cannon's timer decision. The engine supplies the
 hull frame after this frame's turn, the player's position, and the raw
 random draws.
 */
module TankEnemy {
  import opened UnityMath
  import opened Vectors
  import opened ArenaBounds
  import opened Options

  datatype Stats = Stats(
    moveSpeed: real, turnSpeed: real, turretTurnSpeed: real,
    preferredDistance: real, fireInterval: real,
    shellSpeed: real, shellDamage: real, maxHealth: real)

  /** The serialized defaults of the component. */
  const DefaultStats: Stats := Stats(3.0, 80.0, 120.0, 11.0, 2.4, 20.0, 8.0, 42.0)

  /** Enemies ride at a fixed height. */
  const RideHeight: real := 0.55

  datatype Enemy = Enemy(
    position: Vec3, stats: Stats, arena: Arena,
    health: real, fireTimer: real, strafeTimer: real, strafeSign: real,
    alive: bool)

  /** The hull's world axes after this frame's turn toward the player. */
  datatype Frame = Frame(forward: Vec3, right: Vec3)

  datatype Shot = Shot(spawn: Vec3, direction: Vec3, speed: real, damage: real)

  datatype Event = EnemyShellFired(shot: Shot) | EnemyDestroyed(at: Vec3)

  /** `Awake`: full health, a first shot after a random delay, a random strafe phase and side. */
  function Awake(position: Vec3, stats: Stats, arena: Arena, uFire: real, uStrafe: real, uSign: real): (r: Enemy)
    ensures r.alive && r.health == stats.maxHealth && r.position == position
    ensures 0.35 <= stats.fireInterval ==> 0.35 <= r.fireTimer <= stats.fireInterval
    ensures 0.6 <= r.strafeTimer <= 1.6
    ensures r.strafeSign == 1.0 || r.strafeSign == -1.0
  {
    Enemy(position, stats, arena, stats.maxHealth,
          RandomRange(0.35, stats.fireInterval, uFire), RandomRange(0.6, 1.6, uStrafe), RandomSign(uSign), true)
  }

  /** The floors and the distance band `Configure` enforces. */
  predicate ConfiguredStats(s: Stats) {
    && s.moveSpeed >= 1.0 && s.turnSpeed >= 25.0 && s.fireInterval >= 0.65
    && s.maxHealth >= 10.0 && s.shellSpeed >= 8.0 && s.shellDamage >= 1.0
    && 6.0 <= s.preferredDistance <= 18.0
  }

  /**
   `Configure`: floor every stat, clamp the preferred distance into [6, 18],
   refill health, and schedule the first shot within the new interval.
   */
  function Configure(e: Enemy, moveSpeed: real, turnSpeed: real, fireInterval: real, health: real,
                     shellSpeed: real, shellDamage: real, preferredDistance: real, uFire: real): (r: Enemy)
    ensures ConfiguredStats(r.stats)
    ensures r.health == r.stats.maxHealth
    ensures 0.25 <= r.fireTimer <= r.stats.fireInterval
    ensures moveSpeed >= 1.0 ==> r.stats.moveSpeed == moveSpeed
    ensures health >= 10.0 ==> r.stats.maxHealth == health
    ensures 6.0 <= preferredDistance <= 18.0 ==> r.stats.preferredDistance == preferredDistance
    ensures r.stats.turretTurnSpeed == e.stats.turretTurnSpeed
    ensures r.position == e.position && r.alive == e.alive && r.strafeTimer == e.strafeTimer && r.strafeSign == e.strafeSign
  {
    var s := Stats(Max(1.0, moveSpeed), Max(25.0, turnSpeed), e.stats.turretTurnSpeed,
                   Clamp(preferredDistance, 6.0, 18.0), Max(0.65, fireInterval),
                   Max(8.0, shellSpeed), Max(1.0, shellDamage), Max(10.0, health));
    e.(stats := s, health := s.maxHealth, fireTimer := RandomRange(0.25, s.fireInterval, uFire))
  }

  /** `ApplyDamage`: a dead enemy ignores hits; a live one loses the non-negative damage and dies at zero. */
  function ApplyDamage(e: Enemy, damage: real, hasManager: bool): (r: (Enemy, seq<Event>))
    ensures !e.alive ==> r == (e, [])
    ensures r.0.health <= e.health
    ensures e.alive ==> r.0.health == e.health - Max(0.0, damage)
    ensures r.0.alive <==> e.alive && r.0.health > 0.0
    ensures r.1 == (if hasManager && e.alive && !r.0.alive then [EnemyDestroyed(e.position)] else [])
    ensures r.0 == e.(health := r.0.health, alive := r.0.alive)
  {
    if !e.alive then (e, [])
    else
      var hit := e.(health := e.health - Max(0.0, damage));
      if hit.health > 0.0 then (hit, []) else DestroyEnemy(hit, hasManager)
  }

  /**
   `DestroyEnemy`: the single alive-to-dead transition, reported once to the
   manager when there is one.
   */
  function DestroyEnemy(e: Enemy, hasManager: bool): (r: (Enemy, seq<Event>))
    ensures !r.0.alive
    ensures e.alive ==> r.1 == (if hasManager then [EnemyDestroyed(e.position)] else [])
    ensures !e.alive ==> r == (e, [])
    ensures r.0 == e.(alive := false)
  {
    if !e.alive then (e, [])
    else (e.(alive := false), if hasManager then [EnemyDestroyed(e.position)] else [])
  }

  /** Apply a whole sequence of hits, collecting the events. */
  function ApplyDamages(e: Enemy, damages: seq<real>, hasManager: bool): (Enemy, seq<Event>)
    decreases |damages|
  {
    if |damages| == 0 then (e, [])
    else
      var first := ApplyDamage(e, damages[0], hasManager);
      var rest := ApplyDamages(first.0, damages[1..], hasManager);
      (rest.0, first.1 + rest.1)
  }

  /**
   Whatever hits arrive, an enemy is reported destroyed at most once, exactly
   when it goes from alive to dead, it never comes back, and its health never rises.
   */
  lemma {:induction false} DestroyedReportedOnce(e: Enemy, damages: seq<real>, hasManager: bool)
    ensures var r := ApplyDamages(e, damages, hasManager);
      && |r.1| == (if hasManager && e.alive && !r.0.alive then 1 else 0)
      && (!e.alive ==> !r.0.alive)
      && r.0.health <= e.health
    decreases |damages|
  {
    if |damages| > 0 {
      var first := ApplyDamage(e, damages[0], hasManager);
      DestroyedReportedOnce(first.0, damages[1..], hasManager);
    }
  }

  /** The three movement modes around the preferred distance. */
  datatype Mode = Approach | Retreat | Strafe

  /** Close in beyond preferred + 1.8, back off inside preferred - 1.6, strafe in the band between. */
  function ChooseMode(distance: real, preferred: real): (m: Mode)
    ensures m == Approach <==> distance > preferred + 1.8
    ensures m == Retreat <==> distance <= preferred + 1.8 && distance < preferred - 1.6
    ensures m == Strafe <==> preferred - 1.6 <= distance <= preferred + 1.8
  {
    if distance > preferred + 1.8 then Approach
    else if distance < preferred - 1.6 then Retreat
    else Strafe
  }

  /** The unit or zero direction each mode drives along. */
  function MoveDirection(m: Mode, frame: Frame, strafeSign: real, length: Vec3 -> real): (r: Vec3)
    requires IsLength(length)
    ensures m == Approach ==> r == frame.forward
    ensures m == Retreat ==> r == Scale(frame.forward, -1.0)
    ensures m == Strafe ==> SqrMag(r) == 1.0 || r == Zero
  {
    match m
    case Approach => frame.forward
    case Retreat => Scale(frame.forward, -1.0)
    case Strafe => Normalized(Add(Scale(frame.forward, 0.15), Scale(frame.right, strafeSign)), length)
  }

  /** The strafe countdown: on expiry a fresh period in [0.8, 1.8] and a fresh side. */
  function TickStrafe(e: Enemy, dt: real, uTimer: real, uSign: real): (r: Enemy)
    ensures e.strafeTimer - dt > 0.0 ==> r == e.(strafeTimer := e.strafeTimer - dt)
    ensures e.strafeTimer - dt <= 0.0 ==> 0.8 <= r.strafeTimer <= 1.8 && (r.strafeSign == 1.0 || r.strafeSign == -1.0)
    ensures r == e.(strafeTimer := r.strafeTimer, strafeSign := r.strafeSign)
  {
    var t := e.strafeTimer - dt;
    if t <= 0.0 then e.(strafeTimer := RandomRange(0.8, 1.8, uTimer), strafeSign := RandomSign(uSign))
    else e.(strafeTimer := t)
  }

  /** `TickMovement`: strafe bookkeeping, the mode's direction, a step, and the arena clamp at ride height. */
  function TickMovement(e: Enemy, player: Vec3, frame: Frame, dt: real,
                        uTimer: real, uSign: real, length: Vec3 -> real): (r: Enemy)
    requires IsLength(length)
    ensures e.arena.Valid() ==> e.arena.Contains(r.position)
    ensures r.position.y == RideHeight
    ensures r == TickStrafe(e, dt, uTimer, uSign).(position := r.position)
  {
    var s := TickStrafe(e, dt, uTimer, uSign);
    var toPlayer := Sub(player, e.position);
    var distance := length(Vec3(toPlayer.x, 0.0, toPlayer.z));
    var dir := MoveDirection(ChooseMode(distance, e.stats.preferredDistance), frame, s.strafeSign, length);
    var step := Add(e.position, Scale(dir, e.stats.moveSpeed * dt));
    s.(position := ClampToArena(e.arena, step, RideHeight))
  }

  /** The outcome of the cannon's check this frame. */
  datatype FireDecision = Cooling | TooClose | Misaligned | Fire(shot: Shot)

  /** The muzzle's position and forward axis, when the rig has one. */
  datatype Muzzle = Muzzle(position: Vec3, forward: Vec3)

  /**
   `TickFire`: count down; on expiry, hold fire for a full interval when the
   player is within a unit, retry shortly when the barrel points away, and
   otherwise fire once and reschedule with jitter.
   */
  function TickFire(e: Enemy, player: Vec3, muzzle: Option<Muzzle>, dt: real, uJitter: real,
                    length: Vec3 -> real): (r: (Enemy, FireDecision))
    requires IsLength(length)
    ensures e.fireTimer - dt > 0.0 <==> r.1 == Cooling
    ensures r.1 == Cooling ==> r.0.fireTimer == e.fireTimer - dt
    ensures r.1 == TooClose ==> r.0.fireTimer == e.stats.fireInterval
    ensures r.1 == Misaligned ==> r.0.fireTimer == 0.08
    ensures r.1.Fire? ==> e.stats.fireInterval - 0.2 <= r.0.fireTimer <= e.stats.fireInterval + 0.35
    ensures r.1.Fire? ==> r.1.shot.speed == e.stats.shellSpeed && r.1.shot.damage == e.stats.shellDamage
    ensures r.1 != Cooling ==> var from := FirePoint(e, muzzle);
      (r.1 == TooClose <==> SqrMag(Sub(Add(player, Scale(Up, 0.7)), from)) < 1.0)
    ensures r.0 == e.(fireTimer := r.0.fireTimer)
  {
    var t := e.fireTimer - dt;
    if t > 0.0 then (e.(fireTimer := t), Cooling)
    else
      var from := FirePoint(e, muzzle);
      var toPlayer := Sub(Add(player, Scale(Up, 0.7)), from);
      if SqrMag(toPlayer) < 1.0 then (e.(fireTimer := e.stats.fireInterval), TooClose)
      else
        var dir := if muzzle.Some? then muzzle.value.forward else Normalized(toPlayer, length);
        var alignment := Dot(Normalized(dir, length), Normalized(toPlayer, length));
        if alignment < 0.78 then (e.(fireTimer := 0.08), Misaligned)
        else
          (e.(fireTimer := e.stats.fireInterval + RandomRange(-0.2, 0.35, uJitter)),
           Fire(Shot(from, dir, e.stats.shellSpeed, e.stats.shellDamage)))
  }

  /** The shell's origin: the muzzle, or a point 0.8 above the hull. */
  function FirePoint(e: Enemy, muzzle: Option<Muzzle>): Vec3 {
    if muzzle.Some? then muzzle.value.position else Add(e.position, Scale(Up, 0.8))
  }

  /** A shot is never two frames in a row: the rescheduled timer outlasts any frame shorter than the floor. */
  lemma NoBackToBackShots(e: Enemy, player: Vec3, muzzle: Option<Muzzle>, dt: real, u1: real, u2: real,
                          length: Vec3 -> real)
    requires IsLength(length)
    requires ConfiguredStats(e.stats)
    requires 0.0 <= dt < 0.45
    ensures var first := TickFire(e, player, muzzle, dt, u1, length);
      first.1.Fire? ==> TickFire(first.0, player, muzzle, dt, u2, length).1 == Cooling
  {
  }

  /** Everything the engine supplies for one enemy frame. */
  datatype Inputs = Inputs(
    gameOver: bool, player: Option<Vec3>, frame: Frame, muzzle: Option<Muzzle>,
    uTimer: real, uSign: real, uJitter: real)

  /** `Update`: nothing when dead, over or alone; else move, then consider firing. */
  function Update(e: Enemy, inp: Inputs, dt: real, length: Vec3 -> real): (r: (Enemy, seq<Event>))
    requires IsLength(length)
    ensures !e.alive || inp.gameOver || inp.player.None? ==> r == (e, [])
    ensures r.0.alive == e.alive && r.0.health == e.health && r.0.stats == e.stats
    ensures e.arena.Valid() && !(!e.alive || inp.gameOver || inp.player.None?) ==> e.arena.Contains(r.0.position)
    ensures |r.1| <= 1 && (forall i :: 0 <= i < |r.1| ==> r.1[i].EnemyShellFired?)
    ensures e.alive && !inp.gameOver && inp.player.Some? ==>
      var moved := TickMovement(e, inp.player.value, inp.frame, dt, inp.uTimer, inp.uSign, length);
      var fired := TickFire(moved, inp.player.value, inp.muzzle, dt, inp.uJitter, length);
      && r.0 == fired.0
      && (|r.1| == 1 <==> fired.1.Fire?)
      && (fired.1.Fire? ==> r.1 == [EnemyShellFired(fired.1.shot)])
  {
    if !e.alive || inp.gameOver || inp.player.None? then (e, [])
    else
      var moved := TickMovement(e, inp.player.value, inp.frame, dt, inp.uTimer, inp.uSign, length);
      var fired := TickFire(moved, inp.player.value, inp.muzzle, dt, inp.uJitter, length);
      (fired.0, if fired.1.Fire? then [EnemyShellFired(fired.1.shot)] else [])
  }

  /** Two frames in a row never both fire: the frame after a shot is a cooling one. */
  lemma NoBackToBackFrames(e: Enemy, inp1: Inputs, inp2: Inputs, dt: real, length: Vec3 -> real)
    requires IsLength(length)
    requires ConfiguredStats(e.stats)
    requires 0.0 <= dt < 0.45
    ensures |Update(e, inp1, dt, length).1| == 1 ==> Update(Update(e, inp1, dt, length).0, inp2, dt, length).1 == []
  {
  }

  /** A dead enemy stays put forever. */
  lemma DeadIsInert(e: Enemy, inp: Inputs, dt: real, damage: real, hasManager: bool, length: Vec3 -> real)
    requires IsLength(length)
    requires !e.alive
    ensures Update(e, inp, dt, length) == (e, [])
    ensures ApplyDamage(e, damage, hasManager) == (e, [])
  {
  }
}

=== FILE: tank_player.dfy ===
/**
 The player tank of the arena (`PlayerCarController` in the tank project):
 differential track drive, the turret's manual/automatic aim decision, the
 cannon cooldown, destruction and reset. The hull's orientation is a yaw
 angle; the engine turns a yaw into a forward/right frame (`frameOf`) and
 measures each enemy's distance and bearing from the turret (`EnemyView`).
 */
module TankPlayer {
  import opened UnityMath
  import opened Vectors
  import opened ArenaBounds
  import opened Options
  import Surface

  datatype Config = Config(
    maxForwardSpeed: real, maxReverseSpeed: real,
    steerMixSpeed: real, pivotTrackSpeed: real,
    trackAcceleration: real, trackBrakeAcceleration: real, trackIdleDeceleration: real,
    hullTrackWidth: real, boundaryBrakeMultiplier: real, arena: Arena,
    turretTurnSpeed: real, autoTrackSpeed: real, autoTrackRange: real, autoTrackCone: real,
    fireCooldown: real, shellSpeed: real, shellDamage: real)

  /** The serialized defaults of the component. */
  const Defaults: Config := Config(
    11.8, 5.4, 3.3, 4.9, 16.0, 24.0, 9.0, 1.95, 1.55, DefaultArena,
    135.0, 170.0, 26.0, 65.0, 0.55, 30.0, 35.0)

  /** Seconds between automatic target rescans. */
  const TargetRefreshInterval: real := 0.2

  /** The cached target is an enemy identity, not a copy of its state. */
  datatype Tank = Tank(
    position: Vec3, yaw: real,
    initialPosition: Vec3, initialYaw: real,
    leftTrack: real, rightTrack: real,
    hullVelocity: Vec3, turnMagnitude: real,
    fireTimer: real, targetRefreshTimer: real,
    cachedTarget: Option<nat>,
    destroyed: bool, collidersEnabled: bool)

  /** The hull's world axes at a given yaw, as the engine computes them. */
  datatype Frame = Frame(forward: Vec3, right: Vec3)

  /** One enemy as the turret sees it: flat offset, its length, and the bearing off the turret's forward axis. */
  datatype EnemyView = EnemyView(id: nat, alive: bool, offset: Vec3, distance: real, angle: real)

  /** The keys and axes read during one frame. */
  datatype Controls = Controls(
    verticalAxis: real, keyW: bool, keyUp: bool, keyS: bool, keyDown: bool,
    horizontalAxis: real, keyD: bool, keyRight: bool, keyA: bool, keyLeft: bool,
    keyQ: bool, keyE: bool, firePressed: bool)

  /** What the turret pivot is told to do this frame. */
  datatype TurretMotion =
    | Still
    | Rotate(degrees: real)
    | TrackToward(direction: Vec3, maxDegrees: real)

  /** A shell leaving the muzzle. */
  datatype Shot = Shot(spawn: Vec3, direction: Vec3, speed: real, damage: real)

  /** Outbound notifications: the shell to create and the manager's shot counter. */
  datatype Event = ShellFired(shot: Shot) | PlayerShotRegistered | PlayerDamaged(amount: real)

  // ---------------------------------------------------------------- input

  /** `ReadForwardInput`: up wins over down; the result is -1, 0 or 1. */
  function ReadForwardInput(c: Controls): (r: real)
    ensures r == 1.0 <==> c.verticalAxis > 0.01 || c.keyW || c.keyUp
    ensures r == -1.0 <==> !(c.verticalAxis > 0.01 || c.keyW || c.keyUp) && (c.verticalAxis < -0.01 || c.keyS || c.keyDown)
    ensures r == 0.0 || r == 1.0 || r == -1.0
  {
    if c.verticalAxis > 0.01 || c.keyW || c.keyUp then 1.0
    else if c.verticalAxis < -0.01 || c.keyS || c.keyDown then -1.0
    else 0.0
  }

  /** `ReadTurnInput`: right wins over left; the result is -1, 0 or 1. */
  function ReadTurnInput(c: Controls): (r: real)
    ensures r == 1.0 <==> c.horizontalAxis > 0.01 || c.keyD || c.keyRight
    ensures r == -1.0 <==> !(c.horizontalAxis > 0.01 || c.keyD || c.keyRight) && (c.horizontalAxis < -0.01 || c.keyA || c.keyLeft)
    ensures r == 0.0 || r == 1.0 || r == -1.0
  {
    if c.horizontalAxis > 0.01 || c.keyD || c.keyRight then 1.0
    else if c.horizontalAxis < -0.01 || c.keyA || c.keyLeft then -1.0
    else 0.0
  }

  /** `ReadTurretInput`: Q turns left and wins over E. */
  function ReadTurretInput(c: Controls): (r: real)
    ensures r == -1.0 <==> c.keyQ
    ensures r == 1.0 <==> !c.keyQ && c.keyE
    ensures r == 0.0 <==> !c.keyQ && !c.keyE
  {
    if c.keyQ then -1.0 else if c.keyE then 1.0 else 0.0
  }

  // ---------------------------------------------------------------- tracks

  /** Pivot turning: throttle released and steering held. */
  predicate IsPivot(throttle: real, steer: real) {
    Abs(throttle) < 0.05 && Abs(steer) > 0.01
  }

  /** Steering is softened to 72% while reversing. */
  function ReverseSteerFactor(throttle: real): real {
    if throttle < -0.01 then 0.72 else 1.0
  }

  /**
   The unclamped (left, right) track targets: a pivot spins the tracks
   against each other; otherwise both run at the base speed, split apart by
   the steering mix.
   */
  function TargetTrackSpeeds(throttle: real, steer: real, surface: Surface.SurfaceProfile, cfg: Config): (r: (real, real))
    ensures IsPivot(throttle, steer) ==> r.0 == -r.1 && r.1 == steer * cfg.pivotTrackSpeed * surface.turnFactor
    ensures !IsPivot(throttle, steer) ==> r.0 + r.1 == 2.0 * BaseTrackSpeed(throttle, cfg)
    ensures !IsPivot(throttle, steer) ==>
      r.1 - r.0 == 2.0 * (steer * cfg.steerMixSpeed * ReverseSteerFactor(throttle) * surface.turnFactor)
  {
    if IsPivot(throttle, steer) then
      var pivot := steer * cfg.pivotTrackSpeed * surface.turnFactor;
      (-pivot, pivot)
    else
      var steerMix := steer * cfg.steerMixSpeed * ReverseSteerFactor(throttle) * surface.turnFactor;
      var base := BaseTrackSpeed(throttle, cfg);
      (base - steerMix, base + steerMix)
  }

  /**
   Throttle scaled by the forward or the reverse top speed: the result has
   the throttle's sign, and full throttle either way gives that top speed.
   */
  function BaseTrackSpeed(throttle: real, cfg: Config): (r: real)
    ensures throttle == 0.0 ==> r == 0.0
    ensures throttle == 1.0 ==> r == cfg.maxForwardSpeed
    ensures throttle == -1.0 ==> r == -cfg.maxReverseSpeed
    ensures cfg.maxForwardSpeed >= 0.0 && cfg.maxReverseSpeed >= 0.0 ==>
      Abs(r) == Abs(throttle) * (if throttle >= 0.0 then cfg.maxForwardSpeed else cfg.maxReverseSpeed)
    ensures cfg.maxForwardSpeed > 0.0 && cfg.maxReverseSpeed > 0.0 ==>
      (r > 0.0 <==> throttle > 0.0) && (r < 0.0 <==> throttle < 0.0)
  {
    if throttle >= 0.0 then throttle * cfg.maxForwardSpeed else throttle * cfg.maxReverseSpeed
  }

  /** The surface-scaled forward limit. */
  function MaxForwardOnSurface(surface: Surface.SurfaceProfile, cfg: Config): real {
    cfg.maxForwardSpeed * surface.speedFactor
  }

  /** The surface-scaled reverse limit; reverse loses only a fifth as much as forward. */
  function MaxReverseOnSurface(surface: Surface.SurfaceProfile, cfg: Config): real {
    cfg.maxReverseSpeed * Lerp(surface.speedFactor, 1.0, 0.2)
  }

  /** A track target clamped into the surface's reverse and forward limits. */
  function ClampTrackTarget(v: real, surface: Surface.SurfaceProfile, cfg: Config): (r: real)
    ensures var lo := -MaxReverseOnSurface(surface, cfg); var hi := MaxForwardOnSurface(surface, cfg);
      lo <= hi ==> lo <= r <= hi
    ensures var lo := -MaxReverseOnSurface(surface, cfg); var hi := MaxForwardOnSurface(surface, cfg);
      lo <= v <= hi ==> r == v
    ensures v < -MaxReverseOnSurface(surface, cfg) ==> r == -MaxReverseOnSurface(surface, cfg)
    ensures -MaxReverseOnSurface(surface, cfg) <= v && v > MaxForwardOnSurface(surface, cfg) ==> r == MaxForwardOnSurface(surface, cfg)
  {
    Clamp(v, -MaxReverseOnSurface(surface, cfg), MaxForwardOnSurface(surface, cfg))
  }

  /** The traction scale on track acceleration, between 0.45 and 1. */
  function TractionScale(traction: real): (r: real)
    ensures 0.45 <= r <= 1.0
    ensures traction >= 1.0 ==> r == 1.0
    ensures traction <= 0.0 ==> r == 0.45
  {
    Lerp(0.45, 1.0, Clamp01(traction))
  }

  /** A track already moving one way is asked to move the other. */
  predicate Reversing(current: real, target: real) {
    Abs(current) > 0.05 && Sign(current) != Sign(target)
  }

  /** The unscaled acceleration: idle deceleration with no target, braking when reversing, drive otherwise. */
  function BaseTrackAccel(current: real, target: real, cfg: Config): (r: real)
    ensures Abs(target) <= 0.01 ==> r == cfg.trackIdleDeceleration
    ensures Abs(target) > 0.01 && Reversing(current, target) ==> r == cfg.trackBrakeAcceleration
    ensures Abs(target) > 0.01 && !Reversing(current, target) ==> r == cfg.trackAcceleration
  {
    if Abs(target) > 0.01 then
      if Reversing(current, target) then cfg.trackBrakeAcceleration else cfg.trackAcceleration
    else cfg.trackIdleDeceleration
  }

  predicate AccelsNonNegative(cfg: Config) {
    cfg.trackAcceleration >= 0.0 && cfg.trackBrakeAcceleration >= 0.0 && cfg.trackIdleDeceleration >= 0.0
  }

  /** The acceleration actually applied to one track. */
  function TrackAccel(current: real, target: real, traction: real, cfg: Config): (r: real)
    ensures AccelsNonNegative(cfg) ==> 0.45 * BaseTrackAccel(current, target, cfg) <= r <= BaseTrackAccel(current, target, cfg)
  {
    var base := BaseTrackAccel(current, target, cfg);
    var k := TractionScale(traction);
    ScaledBetween(base, k);
    base * k
  }

  lemma ScaledBetween(base: real, k: real)
    requires 0.45 <= k <= 1.0
    ensures base >= 0.0 ==> 0.45 * base <= base * k <= base
  {
    if base >= 0.0 {
      MulMono(0.45, k, base);
      MulMono(k, 1.0, base);
      assert 1.0 * base == base;
    }
  }

  /** `MoveTrackSpeed`: approach the target by at most the applied acceleration times dt, never past it. */
  function MoveTrackSpeed(current: real, target: real, dt: real, traction: real, cfg: Config): (r: real)
    ensures var step := TrackAccel(current, target, traction, cfg) * dt;
      && (Abs(target - current) <= step ==> r == target)
      && (step >= 0.0 ==> Between(r, current, target) && Abs(r - current) <= step)
  {
    MoveTowards(current, target, TrackAccel(current, target, traction, cfg) * dt)
  }

  /** The targets of both tracks, clamped into the surface's reverse and forward limits. */
  function ClampedTargets(throttle: real, steer: real, surface: Surface.SurfaceProfile, cfg: Config): (r: (real, real))
    ensures var lo := -MaxReverseOnSurface(surface, cfg); var hi := MaxForwardOnSurface(surface, cfg);
      lo <= hi ==> lo <= r.0 <= hi && lo <= r.1 <= hi
    ensures var t := TargetTrackSpeeds(throttle, steer, surface, cfg);
      var lo := -MaxReverseOnSurface(surface, cfg); var hi := MaxForwardOnSurface(surface, cfg);
      && (lo <= t.0 <= hi ==> r.0 == t.0) && (t.0 < lo ==> r.0 == lo) && (lo <= t.0 && t.0 > hi ==> r.0 == hi)
      && (lo <= t.1 <= hi ==> r.1 == t.1) && (t.1 < lo ==> r.1 == lo) && (lo <= t.1 && t.1 > hi ==> r.1 == hi)
  {
    var t := TargetTrackSpeeds(throttle, steer, surface, cfg);
    (ClampTrackTarget(t.0, surface, cfg), ClampTrackTarget(t.1, surface, cfg))
  }

  /**
   The track speeds after driving, before any boundary brake: each track
   approaches its clamped target, never past it, by at most its applied
   acceleration times dt, and lands on it when that step covers the gap.
   The targets are written out, not let-bound, so that they match the
   terms of the helper lemmas.
   */
  function DriveTracks(tank: Tank, throttle: real, steer: real, surface: Surface.SurfaceProfile, dt: real, cfg: Config): (r: (real, real))
    ensures Approaches(r.0, tank.leftTrack, ClampedTargets(throttle, steer, surface, cfg).0,
      TrackAccel(tank.leftTrack, ClampedTargets(throttle, steer, surface, cfg).0, surface.traction, cfg) * dt)
    ensures Approaches(r.1, tank.rightTrack, ClampedTargets(throttle, steer, surface, cfg).1,
      TrackAccel(tank.rightTrack, ClampedTargets(throttle, steer, surface, cfg).1, surface.traction, cfg) * dt)
    ensures dt >= 0.0 && AccelsNonNegative(cfg) ==>
      && Between(r.0, tank.leftTrack, ClampedTargets(throttle, steer, surface, cfg).0)
      && Between(r.1, tank.rightTrack, ClampedTargets(throttle, steer, surface, cfg).1)
  {
    TrackApproaches(tank.leftTrack, ClampedTargets(throttle, steer, surface, cfg).0, dt, surface.traction, cfg);
    TrackApproaches(tank.rightTrack, ClampedTargets(throttle, steer, surface, cfg).1, dt, surface.traction, cfg);
    AccelStepNonNegative(tank.leftTrack, ClampedTargets(throttle, steer, surface, cfg).0, surface.traction, dt, cfg);
    AccelStepNonNegative(tank.rightTrack, ClampedTargets(throttle, steer, surface, cfg).1, surface.traction, dt, cfg);
    (MoveTrackSpeed(tank.leftTrack, ClampedTargets(throttle, steer, surface, cfg).0, dt, surface.traction, cfg),
     MoveTrackSpeed(tank.rightTrack, ClampedTargets(throttle, steer, surface, cfg).1, dt, surface.traction, cfg))
  }

  /** `MoveTrackSpeed`'s contract, stated as one `Approaches` fact. */
  lemma TrackApproaches(current: real, target: real, dt: real, traction: real, cfg: Config)
    ensures Approaches(MoveTrackSpeed(current, target, dt, traction, cfg), current, target, TrackAccel(current, target, traction, cfg) * dt)
  {
  }

  /** With non-negative accelerations and time step, a track's step is non-negative. */
  lemma AccelStepNonNegative(current: real, target: real, traction: real, dt: real, cfg: Config)
    ensures dt >= 0.0 && AccelsNonNegative(cfg) ==> TrackAccel(current, target, traction, cfg) * dt >= 0.0
  {
    if dt >= 0.0 && AccelsNonNegative(cfg) {
      MulMono(0.0, TrackAccel(current, target, traction, cfg), dt);
    }
  }

  /** `n` frames of one track held at a fixed target. */
  function TrackFrames(current: real, target: real, dt: real, traction: real, cfg: Config, n: nat): real
    decreases n
  {
    if n == 0 then current
    else TrackFrames(MoveTrackSpeed(current, target, dt, traction, cfg), target, dt, traction, cfg, n - 1)
  }

  /** The weakest acceleration a track can get: the least of the three at the lowest traction scale. */
  function MinTrackAccel(cfg: Config): real {
    0.45 * Min(cfg.trackIdleDeceleration, Min(cfg.trackAcceleration, cfg.trackBrakeAcceleration))
  }

  /** The smallest step a track can take in one frame. */
  function MinTrackStep(dt: real, cfg: Config): real {
    MinTrackAccel(cfg) * dt
  }

  lemma MinTrackAccelBelow(current: real, target: real, traction: real, cfg: Config)
    requires AccelsNonNegative(cfg)
    ensures 0.0 <= MinTrackAccel(cfg) <= TrackAccel(current, target, traction, cfg)
  {
  }

  lemma MinTrackStepBelow(current: real, target: real, dt: real, traction: real, cfg: Config)
    requires dt >= 0.0 && AccelsNonNegative(cfg)
    ensures 0.0 <= MinTrackStep(dt, cfg) <= TrackAccel(current, target, traction, cfg) * dt
  {
    MinTrackAccelBelow(current, target, traction, cfg);
    MulMono(0.0, MinTrackAccel(cfg), dt);
    MulMono(MinTrackAccel(cfg), TrackAccel(current, target, traction, cfg), dt);
  }

  /**
   A track held at one target for `n` frames reaches it, and stays, once
   `n` of the smallest possible steps cover the starting gap.
   */
  lemma {:induction false} TrackReachesTarget(current: real, target: real, dt: real, traction: real, cfg: Config, n: nat)
    requires dt >= 0.0 && AccelsNonNegative(cfg)
    requires Abs(target - current) <= (n as real) * MinTrackStep(dt, cfg)
    ensures TrackFrames(current, target, dt, traction, cfg, n) == target
    decreases n
  {
    if n > 0 {
      var next := MoveTrackSpeed(current, target, dt, traction, cfg);
      MinTrackStepBelow(current, target, dt, traction, cfg);
      TrackGapShrinks(current, target, dt, traction, cfg, MinTrackStep(dt, cfg));
      if next == target {
        TrackStaysOnTarget(target, dt, traction, cfg, n - 1);
      } else {
        OneStepFewer(n, MinTrackStep(dt, cfg));
        TrackReachesTarget(next, target, dt, traction, cfg, n - 1);
      }
    }
  }

  lemma OneStepFewer(n: nat, m: real)
    requires n > 0
    ensures ((n - 1) as real) * m == (n as real) * m - m
  {
  }

  lemma MoveTrackSpeedSteps(current: real, target: real, dt: real, traction: real, cfg: Config)
    ensures MoveTrackSpeed(current, target, dt, traction, cfg) == MoveTowards(current, target, TrackAccel(current, target, traction, cfg) * dt)
  {
  }

  /** One frame lands on the target or closes the gap by at least any `m` the frame's step covers. */
  lemma TrackGapShrinks(current: real, target: real, dt: real, traction: real, cfg: Config, m: real)
    requires 0.0 <= m <= TrackAccel(current, target, traction, cfg) * dt
    ensures || MoveTrackSpeed(current, target, dt, traction, cfg) == target
            || Abs(target - MoveTrackSpeed(current, target, dt, traction, cfg)) <= Abs(target - current) - m
  {
    MoveTrackSpeedSteps(current, target, dt, traction, cfg);
    MoveTowardsGap(current, target, TrackAccel(current, target, traction, cfg) * dt, m);
  }

  /** A track already at its target stays there. */
  lemma {:induction false} TrackStaysOnTarget(target: real, dt: real, traction: real, cfg: Config, n: nat)
    requires dt >= 0.0 && AccelsNonNegative(cfg)
    ensures TrackFrames(target, target, dt, traction, cfg, n) == target
    decreases n
  {
    if n > 0 {
      AccelStepNonNegative(target, target, traction, dt, cfg);
      TrackStaysOnTarget(target, dt, traction, cfg, n - 1);
    }
  }

  /** Turn rate in degrees per second from the track difference. */
  function AngularSpeedDeg(left: real, right: real, surface: Surface.SurfaceProfile, cfg: Config): (r: real)
    ensures left == right ==> r == 0.0
    ensures surface.turnFactor > 0.0 ==> (r > 0.0 <==> right > left) && (r < 0.0 <==> right < left)
  {
    var rate := (right - left) / Max(0.1, cfg.hullTrackWidth);
    SameSign(rate, Rad2Deg * surface.turnFactor);
    rate * (Rad2Deg * surface.turnFactor)
  }

  /** A positive factor keeps the sign. */
  lemma SameSign(x: real, k: real)
    ensures k > 0.0 ==> (x * k > 0.0 <==> x > 0.0) && (x * k < 0.0 <==> x < 0.0)
  {
  }

  /**
   Steering right turns the hull right and steering left turns it left,
   pivoting or driving, whenever the steering gains and the surface's turn
   factor are positive.
   */
  lemma SteerTurnsHull(throttle: real, steer: real, surface: Surface.SurfaceProfile, cfg: Config)
    requires cfg.pivotTrackSpeed > 0.0 && cfg.steerMixSpeed > 0.0 && surface.turnFactor > 0.0
    ensures var t := TargetTrackSpeeds(throttle, steer, surface, cfg);
      var w := AngularSpeedDeg(t.0, t.1, surface, cfg);
      (w > 0.0 <==> steer > 0.0) && (w < 0.0 <==> steer < 0.0)
  {
    var t := TargetTrackSpeeds(throttle, steer, surface, cfg);
    var gain := if IsPivot(throttle, steer) then cfg.pivotTrackSpeed * surface.turnFactor
      else cfg.steerMixSpeed * ReverseSteerFactor(throttle) * surface.turnFactor;
    assert gain > 0.0;
    SameSign(steer, gain);
    if IsPivot(throttle, steer) {
      assert t.1 - t.0 == 2.0 * (steer * gain);
    } else {
      assert t.1 - t.0 == 2.0 * (steer * gain);
    }
  }

  /** The unclamped step leaves the arena rectangle. */
  predicate TouchedBoundary(a: Arena, p: Vec3) {
    p.x < a.minX || p.x > a.maxX || p.z < a.minZ || p.z > a.maxZ
  }

  lemma TouchedIffOutside(a: Arena, p: Vec3)
    ensures TouchedBoundary(a, p) <==> !a.Contains(p)
  {
  }

  /**
   `HandleMovement`: drive the tracks, turn the hull, let the hull velocity
   follow the tracks along the new forward axis while lateral slip decays,
   step, clamp into the arena at the initial height, and brake on contact
   with the boundary.
   */
  function HandleMovement(tank: Tank, throttle: real, steer: real, surface: Surface.SurfaceProfile,
                          dt: real, cfg: Config, frameOf: real -> Frame, length: Vec3 -> real): (r: Tank)
    requires IsLength(length)
    ensures cfg.arena.Valid() ==> cfg.arena.Contains(r.position)
    ensures r.position.y == tank.initialPosition.y
    ensures 0.0 <= r.turnMagnitude <= 1.0
    ensures var d := DriveTracks(tank, throttle, steer, surface, dt, cfg);
      var hv := HullVelocityAfter(tank, d, surface, dt, cfg, frameOf);
      var unclamped := Add(tank.position, Scale(hv, dt));
      !TouchedBoundary(cfg.arena, unclamped) ==>
        && r.leftTrack == d.0 && r.rightTrack == d.1 && r.hullVelocity == hv
        && r.position.x == unclamped.x && r.position.z == unclamped.z
    ensures r.initialPosition == tank.initialPosition && r.initialYaw == tank.initialYaw
    ensures r.fireTimer == tank.fireTimer && r.cachedTarget == tank.cachedTarget
    ensures r.destroyed == tank.destroyed
  {
    var d := DriveTracks(tank, throttle, steer, surface, dt, cfg);
    var angular := AngularSpeedDeg(d.0, d.1, surface, cfg);
    var yaw := tank.yaw + angular * dt;
    var hv := HullVelocityAfter(tank, d, surface, dt, cfg, frameOf);
    var unclamped := Add(tank.position, Scale(hv, dt));
    var position := ClampToArena(cfg.arena, unclamped, tank.initialPosition.y);
    var moved := tank.(position := position, yaw := yaw, leftTrack := d.0, rightTrack := d.1,
                       hullVelocity := hv, turnMagnitude := Clamp01(Abs(angular) / 120.0));
    if TouchedBoundary(cfg.arena, unclamped) then
      BoundaryBrake(moved, cfg.trackBrakeAcceleration * cfg.boundaryBrakeMultiplier * dt, length)
    else
      TouchedIffOutside(cfg.arena, unclamped);
      moved
  }

  /** The hull velocity after following the tracks in the newly turned frame. */
  function HullVelocityAfter(tank: Tank, d: (real, real), surface: Surface.SurfaceProfile,
                             dt: real, cfg: Config, frameOf: real -> Frame): Vec3
  {
    var angular := AngularSpeedDeg(d.0, d.1, surface, cfg);
    var frame := frameOf(tank.yaw + angular * dt);
    var forwardSpeed := (d.0 + d.1) * 0.5;
    var forwardFollow := Lerp(3.2, 12.0, surface.traction);
    var lateralDamping := Lerp(1.2, 10.5, surface.traction);
    var forwardVelocity := MoveTowards(Dot(tank.hullVelocity, frame.forward), forwardSpeed, forwardFollow * dt);
    var lateralVelocity := MoveTowards(Dot(tank.hullVelocity, frame.right), 0.0, lateralDamping * dt);
    Add(Scale(frame.forward, forwardVelocity), Scale(frame.right, lateralVelocity))
  }

  /** The boundary brake: both tracks and the hull velocity are pulled toward zero. */
  function BoundaryBrake(tank: Tank, brake: real, length: Vec3 -> real): (r: Tank)
    requires IsLength(length)
    ensures brake >= 0.0 ==> Abs(r.leftTrack) <= Abs(tank.leftTrack) && Abs(r.rightTrack) <= Abs(tank.rightTrack)
    ensures r.position == tank.position && r.turnMagnitude == tank.turnMagnitude
    ensures r == tank.(leftTrack := r.leftTrack, rightTrack := r.rightTrack, hullVelocity := r.hullVelocity)
  {
    MoveTowardsZeroShrinksBoth(tank.leftTrack, tank.rightTrack, brake);
    tank.(leftTrack := MoveTowards(tank.leftTrack, 0.0, brake),
          rightTrack := MoveTowards(tank.rightTrack, 0.0, brake),
          hullVelocity := MoveTowardsVec(tank.hullVelocity, Zero, brake * 0.8, length))
  }

  lemma MoveTowardsZeroShrinksBoth(a: real, b: real, brake: real)
    ensures brake >= 0.0 ==> Abs(MoveTowards(a, 0.0, brake)) <= Abs(a) && Abs(MoveTowards(b, 0.0, brake)) <= Abs(b)
  {
    if brake >= 0.0 {
      MoveTowardsZeroShrinks(a, brake);
      MoveTowardsZeroShrinks(b, brake);
    }
  }

  /** Touching the boundary never speeds a track up beyond what driving produced. */
  lemma BoundaryNeverSpeedsUp(tank: Tank, throttle: real, steer: real, surface: Surface.SurfaceProfile,
                              dt: real, cfg: Config, frameOf: real -> Frame, length: Vec3 -> real)
    requires IsLength(length)
    requires dt >= 0.0 && cfg.trackBrakeAcceleration >= 0.0 && cfg.boundaryBrakeMultiplier >= 0.0
    ensures var d := DriveTracks(tank, throttle, steer, surface, dt, cfg);
      var r := HandleMovement(tank, throttle, steer, surface, dt, cfg, frameOf, length);
      Abs(r.leftTrack) <= Abs(d.0) && Abs(r.rightTrack) <= Abs(d.1)
  {
    MulMono(0.0, cfg.trackBrakeAcceleration, cfg.boundaryBrakeMultiplier);
    MulMono(0.0, cfg.trackBrakeAcceleration * cfg.boundaryBrakeMultiplier, dt);
  }

  // ---------------------------------------------------------------- targeting

  /** Alive, between 0.1 and the tracking range, and inside the cone. */
  predicate Qualifies(v: EnemyView, cfg: Config) {
    v.alive && 0.1 <= v.distance <= cfg.autoTrackRange && v.angle <= cfg.autoTrackCone
  }

  /** The rank of a candidate: nearer and more central is better. */
  function Score(v: EnemyView): real {
    v.distance + v.angle * 0.12
  }

  /** A candidate the scan can pick: it qualifies and beats the `float.MaxValue` seed. */
  predicate Eligible(v: EnemyView, cfg: Config) {
    Qualifies(v, cfg) && Score(v) < FloatMax
  }

  /** Index `k` is the scan's answer over `views`: eligible, no worse than any eligible view, strictly better than every earlier one. */
  predicate IsBest(views: seq<EnemyView>, cfg: Config, k: nat) {
    && k < |views| && Eligible(views[k], cfg)
    && (forall j :: 0 <= j < |views| && Eligible(views[j], cfg) ==> Score(views[k]) <= Score(views[j]))
    && (forall j :: 0 <= j < k && Eligible(views[j], cfg) ==> Score(views[k]) < Score(views[j]))
  }

  /**
   `FindBestTargetInCone`: the scan keeps a candidate only when its score is
   strictly below the best so far, so the first of equally good candidates wins.
   */
  function FindBestTargetInCone(views: seq<EnemyView>, cfg: Config): (r: Option<nat>)
    ensures r.None? <==> forall i :: 0 <= i < |views| ==> !Eligible(views[i], cfg)
    ensures r.Some? ==> IsBest(views, cfg, r.value)
    decreases |views|
  {
    if |views| == 0 then None
    else
      var n := |views| - 1;
      var prefix := views[..n];
      var rest := FindBestTargetInCone(prefix, cfg);
      assert forall i :: 0 <= i < n ==> prefix[i] == views[i];
      var bestScore := if rest.Some? then Score(views[rest.value]) else FloatMax;
      if Qualifies(views[n], cfg) && Score(views[n]) < bestScore then Some(n) else rest
  }

  /** The scan's answer is the only index with the `IsBest` property. */
  lemma BestIsUnique(views: seq<EnemyView>, cfg: Config, k: nat)
    requires IsBest(views, cfg, k)
    ensures FindBestTargetInCone(views, cfg) == Some(k)
  {
  }

  /** The scan as the source writes it: one pass with a running best score seeded at `float.MaxValue`. */
  method ScanTargets(views: seq<EnemyView>, cfg: Config) returns (best: Option<nat>)
    ensures best == FindBestTargetInCone(views, cfg)
    ensures best.Some? ==> IsBest(views, cfg, best.value)
  {
    best := None;
    var bestScore := FloatMax;
    var i := 0;
    while i < |views|
      invariant 0 <= i <= |views|
      invariant best == FindBestTargetInCone(views[..i], cfg)
      invariant best.Some? ==> best.value < i
      invariant bestScore == (if best.Some? then Score(views[best.value]) else FloatMax)
    {
      assert views[..i + 1][..i] == views[..i];
      if Qualifies(views[i], cfg) && Score(views[i]) < bestScore {
        best := Some(i);
        bestScore := Score(views[i]);
      }
      i := i + 1;
    }
    assert views[..|views|] == views;
  }

  /** The first view carrying an identity, if any. */
  function Lookup(views: seq<EnemyView>, id: nat): (r: Option<EnemyView>)
    ensures r.Some? ==> r.value in views && r.value.id == id
    ensures r.None? ==> forall i :: 0 <= i < |views| ==> views[i].id != id
  {
    if |views| == 0 then None
    else if views[0].id == id then Some(views[0])
    else Lookup(views[1..], id)
  }

  /** `IsValidAutoTarget`: the cached enemy still exists and still qualifies. */
  predicate IsValidAutoTarget(cached: Option<nat>, views: seq<EnemyView>, cfg: Config) {
    cached.Some? && Lookup(views, cached.value).Some? && Qualifies(Lookup(views, cached.value).value, cfg)
  }

  /** `ResolveAutoTarget`: keep a valid cached target until the refresh timer runs out, else rescan. */
  function ResolveAutoTarget(tank: Tank, views: seq<EnemyView>, dt: real, cfg: Config): (r: Tank)
    ensures var timer := tank.targetRefreshTimer - dt;
      timer > 0.0 && IsValidAutoTarget(tank.cachedTarget, views, cfg) ==>
        r == tank.(targetRefreshTimer := timer)
    ensures var timer := tank.targetRefreshTimer - dt;
      !(timer > 0.0 && IsValidAutoTarget(tank.cachedTarget, views, cfg)) ==>
        && r.targetRefreshTimer == TargetRefreshInterval
        && (r.cachedTarget.None? <==> forall i :: 0 <= i < |views| ==> !Eligible(views[i], cfg))
        && (r.cachedTarget.Some? ==> exists k: nat :: IsBest(views, cfg, k) && views[k].id == r.cachedTarget.value)
    ensures r.cachedTarget.Some? ==> exists i :: 0 <= i < |views| && views[i].id == r.cachedTarget.value && Qualifies(views[i], cfg)
    ensures r == tank.(targetRefreshTimer := r.targetRefreshTimer, cachedTarget := r.cachedTarget)
  {
    var timer := tank.targetRefreshTimer - dt;
    if timer > 0.0 && IsValidAutoTarget(tank.cachedTarget, views, cfg) then
      tank.(targetRefreshTimer := timer)
    else
      var best := FindBestTargetInCone(views, cfg);
      tank.(targetRefreshTimer := TargetRefreshInterval,
            cachedTarget := if best.Some? then Some(views[best.value].id) else None)
  }

  /** The auto-target choice over several frames, one enemy snapshot per frame. */
  function ResolveFrames(tank: Tank, frames: seq<seq<EnemyView>>, dt: real, cfg: Config): Tank
    decreases |frames|
  {
    if |frames| == 0 then tank else ResolveFrames(ResolveAutoTarget(tank, frames[0], dt, cfg), frames[1..], dt, cfg)
  }

  /**
   A cached target that stays valid is kept without a rescan until the
   refresh timer runs out: over `n` frames it is kept while `n * dt` is
   still below the timer, and only the timer changes.
   */
  lemma {:induction false} CachedTargetKept(tank: Tank, frames: seq<seq<EnemyView>>, dt: real, cfg: Config)
    requires dt >= 0.0
    requires forall i :: 0 <= i < |frames| ==> IsValidAutoTarget(tank.cachedTarget, frames[i], cfg)
    requires tank.targetRefreshTimer - (|frames| as real) * dt > 0.0
    ensures ResolveFrames(tank, frames, dt, cfg) == tank.(targetRefreshTimer := tank.targetRefreshTimer - (|frames| as real) * dt)
    decreases |frames|
  {
    if |frames| > 0 {
      var n := |frames| as real;
      MulMono(1.0, n, dt);
      var next := ResolveAutoTarget(tank, frames[0], dt, cfg);
      assert next == tank.(targetRefreshTimer := tank.targetRefreshTimer - dt);
      assert (n - 1.0) * dt + dt == n * dt;
      assert forall i :: 0 <= i < |frames[1..]| ==> frames[1..][i] == frames[i + 1];
      CachedTargetKept(next, frames[1..], dt, cfg);
    }
  }

  /**
   `HandleTurretAim`: manual input drops the target and turns the turret
   directly; otherwise the turret tracks the resolved target (at the faster
   tracking speed) or swings back to the hull's forward axis, unless the
   flattened aim vector is negligible.
   */
  function HandleTurretAim(tank: Tank, hasTurret: bool, manual: real, views: seq<EnemyView>,
                           dt: real, cfg: Config, frameOf: real -> Frame): (r: (Tank, TurretMotion))
    ensures !hasTurret ==> r == (tank, Still)
    ensures hasTurret && Abs(manual) > 0.01 ==>
      r == (tank.(cachedTarget := None, targetRefreshTimer := 0.0), Rotate(manual * cfg.turretTurnSpeed * dt))
    ensures hasTurret && Abs(manual) <= 0.01 ==> r.0 == ResolveAutoTarget(tank, views, dt, cfg)
    ensures r.1.TrackToward? ==> r.1.direction.y == 0.0 && SqrMag(r.1.direction) >= 0.001
    ensures r.1.TrackToward? ==> r.1.maxDegrees == (if r.0.cachedTarget.Some? then cfg.autoTrackSpeed else cfg.turretTurnSpeed) * dt
  {
    if !hasTurret then (tank, Still)
    else if Abs(manual) > 0.01 then
      (tank.(cachedTarget := None, targetRefreshTimer := 0.0), Rotate(manual * cfg.turretTurnSpeed * dt))
    else
      var t := ResolveAutoTarget(tank, views, dt, cfg);
      var target := if t.cachedTarget.Some? then Lookup(views, t.cachedTarget.value) else None;
      var aim := if target.Some? then target.value.offset else frameOf(t.yaw).forward;
      var speed := if t.cachedTarget.Some? then cfg.autoTrackSpeed else cfg.turretTurnSpeed;
      var flat := Vec3(aim.x, 0.0, aim.z);
      if SqrMag(flat) < 0.001 then (t, Still) else (t, TrackToward(flat, speed * dt))
  }

  // ---------------------------------------------------------------- cannon

  /** Where the shell appears and which way it flies: the muzzle, or a point ahead of and above the hull. */
  function ShotOrigin(tank: Tank, muzzle: Option<Frame>, muzzlePosition: Vec3, frameOf: real -> Frame): (r: (Vec3, Vec3))
  {
    if muzzle.Some? then (muzzlePosition, muzzle.value.forward)
    else
      var f := frameOf(tank.yaw).forward;
      (Add(Add(tank.position, Scale(f, 1.8)), Scale(Up, 0.9)), f)
  }

  /**
   `HandleFire`: a press with the cannon ready restarts the cooldown and
   emits one shell, and the shot notice when a manager is there to take it.
   */
  function HandleFire(tank: Tank, pressed: bool, origin: (Vec3, Vec3), hasManager: bool, cfg: Config): (r: (Tank, seq<Event>))
    ensures !pressed || tank.fireTimer > 0.0 ==> r == (tank, [])
    ensures ShellCount(r.1) == (if pressed && tank.fireTimer <= 0.0 then 1 else 0)
    ensures PlayerShotRegistered in r.1 <==> hasManager && pressed && tank.fireTimer <= 0.0
    ensures pressed && tank.fireTimer <= 0.0 ==>
      && r.0 == tank.(fireTimer := cfg.fireCooldown)
      && r.1 == [ShellFired(Shot(origin.0, origin.1, cfg.shellSpeed, cfg.shellDamage))] + (if hasManager then [PlayerShotRegistered] else [])
  {
    if !pressed || tank.fireTimer > 0.0 then (tank, [])
    else
      var notice := if hasManager then [PlayerShotRegistered] else [];
      var events := [ShellFired(Shot(origin.0, origin.1, cfg.shellSpeed, cfg.shellDamage))] + notice;
      assert events[1..] == notice;
      assert ShellCount(notice) == 0 by {
        if hasManager {
          assert notice[1..] == [];
        }
      }
      (tank.(fireTimer := cfg.fireCooldown), events)
  }

  /** The number of shells among a frame's events. */
  function ShellCount(events: seq<Event>): nat {
    if |events| == 0 then 0 else (if events[0].ShellFired? then 1 else 0) + ShellCount(events[1..])
  }

  /** Everything the engine supplies for one frame of the player tank. */
  datatype World = World(
    gameOver: bool, hasManager: bool, zones: seq<Surface.SurfaceZone>, noise: Surface.Noise,
    hasTurret: bool, views: seq<EnemyView>,
    muzzle: Option<Frame>, muzzlePosition: Vec3,
    frameOf: real -> Frame, length: Vec3 -> real)

  /** `Update`: nothing while destroyed or over; else tick the cooldown, move, aim, and maybe fire. */
  function Update(tank: Tank, c: Controls, w: World, dt: real, cfg: Config): (r: (Tank, TurretMotion, seq<Event>))
    requires IsLength(w.length)
    ensures tank.destroyed || w.gameOver ==> r == (tank, Still, [])
    ensures !(tank.destroyed || w.gameOver) ==>
      && (cfg.arena.Valid() ==> cfg.arena.Contains(r.0.position))
      && r.0.position.y == tank.initialPosition.y
      && ShellCount(r.2) <= 1
      && (ShellCount(r.2) == 1 <==> c.firePressed && TickDown(tank.fireTimer, dt) <= 0.0)
      && (ShellCount(r.2) == 1 ==> r.0.fireTimer == cfg.fireCooldown)
      && (ShellCount(r.2) == 0 ==> r.0.fireTimer == TickDown(tank.fireTimer, dt))
      && (PlayerShotRegistered in r.2 <==> w.hasManager && ShellCount(r.2) == 1)
  {
    if tank.destroyed || w.gameOver then (tank, Still, [])
    else
      var ticked := tank.(fireTimer := TickDown(tank.fireTimer, dt));
      var surface := Surface.SampleSurfaceProfile(w.zones, ticked.position, w.noise);
      var moved := HandleMovement(ticked, ReadForwardInput(c), ReadTurnInput(c), surface, dt, cfg, w.frameOf, w.length);
      var aimed := HandleTurretAim(moved, w.hasTurret, ReadTurretInput(c), w.views, dt, cfg, w.frameOf);
      var fired := HandleFire(aimed.0, c.firePressed, ShotOrigin(aimed.0, w.muzzle, w.muzzlePosition, w.frameOf), w.hasManager, cfg);
      (fired.0, aimed.1, fired.1)
  }

  /**
   Between two shells lie at least enough frames to run down the cooldown:
   after a shot the cannon is ready again exactly when `n * dt` reaches it.
   */
  lemma CooldownBetweenShots(cfg: Config, dt: real, n: nat)
    requires cfg.fireCooldown > 0.0 && dt > 0.0
    ensures TickDownN(cfg.fireCooldown, dt, n) <= 0.0 <==> (n as real) * dt >= cfg.fireCooldown
  {
    TickDownExpires(cfg.fireCooldown, dt, n);
  }

  // ---------------------------------------------------------------- damage and lifecycle

  /** `ApplyDamage`: forwarded to the manager unless destroyed, unmanaged or over. */
  function ApplyDamage(tank: Tank, hasManager: bool, gameOver: bool, damage: real): (r: seq<Event>)
    ensures r == [] <==> tank.destroyed || !hasManager || gameOver
    ensures r != [] ==> r == [PlayerDamaged(damage)]
  {
    if tank.destroyed || !hasManager || gameOver then [] else [PlayerDamaged(damage)]
  }

  /** `HandleDestroyed`: stop, keep the cannon cold for at least a cooldown, disable collisions. */
  function HandleDestroyed(tank: Tank, cfg: Config): (r: Tank)
    ensures tank.destroyed ==> r == tank
    ensures r.destroyed && (!tank.destroyed ==> !r.collidersEnabled)
    ensures !tank.destroyed ==>
      && r.fireTimer >= cfg.fireCooldown && r.fireTimer >= tank.fireTimer
      && r.leftTrack == 0.0 && r.rightTrack == 0.0 && r.hullVelocity == Zero && r.turnMagnitude == 0.0
      && r.position == tank.position && r.cachedTarget == tank.cachedTarget
  {
    if tank.destroyed then tank
    else
      tank.(destroyed := true, fireTimer := Max(tank.fireTimer, cfg.fireCooldown),
            leftTrack := 0.0, rightTrack := 0.0, hullVelocity := Zero, turnMagnitude := 0.0,
            collidersEnabled := false)
  }

  lemma HandleDestroyedIdempotent(tank: Tank, cfg: Config)
    ensures HandleDestroyed(HandleDestroyed(tank, cfg), cfg) == HandleDestroyed(tank, cfg)
  {
  }

  /** A destroyed tank ignores every frame until it is reset. */
  lemma DestroyedIsFrozen(tank: Tank, c: Controls, w: World, dt: real, cfg: Config)
    requires IsLength(w.length)
    ensures var d := HandleDestroyed(tank, cfg); Update(d, c, w, dt, cfg) == (d, Still, [])
  {
  }

  /** `ResetPlayer`: back to the spawn pose, stationary, cannon ready, no target, collisions on. */
  function ResetPlayer(tank: Tank): (r: Tank)
    ensures r.position == tank.initialPosition && r.yaw == tank.initialYaw
    ensures r.initialPosition == tank.initialPosition && r.initialYaw == tank.initialYaw
    ensures !r.destroyed && r.collidersEnabled
    ensures r.fireTimer == 0.0 && r.targetRefreshTimer == 0.0 && r.cachedTarget.None?
    ensures r.leftTrack == 0.0 && r.rightTrack == 0.0 && r.hullVelocity == Zero && r.turnMagnitude == 0.0
  {
    Tank(tank.initialPosition, tank.initialYaw, tank.initialPosition, tank.initialYaw,
         0.0, 0.0, Zero, 0.0, 0.0, 0.0, None, false, true)
  }

  /** Reset forgets everything but the spawn pose, and undoes a destruction. */
  lemma ResetForgetsHistory(a: Tank, b: Tank, cfg: Config)
    requires a.initialPosition == b.initialPosition && a.initialYaw == b.initialYaw
    ensures ResetPlayer(a) == ResetPlayer(b)
    ensures ResetPlayer(HandleDestroyed(a, cfg)) == ResetPlayer(a)
  {
  }
}

=== FILE: tank_shell.dfy ===
/**
 The arena's ballistic shell (`MissileProjectile` in the tank project): a
 straight flight with a lifetime, a sphere probe one step ahead, owner
 exclusion, and at most one hit. The engine's overlap query is the sequence
 of colliders it reports at the probe point, in its order.
 */
module TankShell {
  import opened UnityMath
  import opened Vectors
  import opened Options

  datatype Owner = PlayerOwned | EnemyOwned

  datatype Config = Config(maxLifetime: real, hitRadius: real)

  /** The serialized defaults; speed and damage always come from `Initialize`. */
  const Defaults: Config := Config(3.0, 0.35)

  datatype Shell = Shell(
    owner: Owner, position: Vec3, direction: Vec3,
    speed: real, damage: real, lifetimeRemaining: real,
    ownerRoot: Option<nat>)

  /** The enemy component found in a collider's parents, with its liveness. */
  datatype EnemyRef = EnemyRef(id: nat, alive: bool)

  /**
   A collider the probe touched: its transform, the transforms above it
   (for `IsChildOf`), and the enemy or player component found upward from it.
   */
  datatype Collider = Collider(transform: nat, ancestors: seq<nat>, enemy: Option<EnemyRef>, hasPlayer: bool)

  datatype Event =
    | EnemyDamaged(enemy: nat, amount: real)
    | PlayerHitRegistered
    | PlayerDamaged(amount: real)
    | Impact(at: Vec3)

  /** `Initialize`: a unit heading (forward when negligible), speed at least 8, damage at least 1, full lifetime. */
  function Initialize(owner: Owner, position: Vec3, heading: Vec3, shellSpeed: real, shellDamage: real,
                      ownerRoot: Option<nat>, cfg: Config, length: Vec3 -> real): (s: Shell)
    requires IsLength(length)
    ensures SqrMag(s.direction) == 1.0
    ensures SqrMag(heading) <= 0.001 ==> s.direction == Forward
    ensures s.speed >= 8.0 && s.damage >= 1.0
    ensures shellSpeed >= 8.0 ==> s.speed == shellSpeed
    ensures shellDamage >= 1.0 ==> s.damage == shellDamage
    ensures s.lifetimeRemaining == cfg.maxLifetime
    ensures s.owner == owner && s.position == position && s.ownerRoot == ownerRoot
  {
    Shell(owner, position, HeadingOf(heading, length), Max(8.0, shellSpeed), Max(1.0, shellDamage),
          cfg.maxLifetime, ownerRoot)
  }

  /** `CreateShell` normalises the heading, then `Initialize` normalises it again; the second pass changes nothing. */
  lemma CreateThenInitialize(heading: Vec3, length: Vec3 -> real)
    requires IsLength(length)
    ensures HeadingOf(HeadingOf(heading, length), length) == HeadingOf(heading, length)
  {
    var h := HeadingOf(heading, length);
    NormalizedUnit(h, length);
  }

  /** The collider belongs to the shell's own tank. */
  predicate OwnedBy(c: Collider, ownerRoot: Option<nat>) {
    ownerRoot.Some? && (c.transform == ownerRoot.value || ownerRoot.value in c.ancestors)
  }

  /** The collider is something this shell damages: a live enemy for player shells, the player for enemy shells. */
  predicate Damages(s: Shell, c: Collider) {
    !OwnedBy(c, s.ownerRoot) &&
    match s.owner
    case PlayerOwned => c.enemy.Some? && c.enemy.value.alive
    case EnemyOwned => c.hasPlayer
  }

  /** `TryResolveHit`'s scan: the index of the first collider the shell damages. */
  function FirstHit(s: Shell, hits: seq<Collider>): (r: Option<nat>)
    ensures r.Some? ==> r.value < |hits| && Damages(s, hits[r.value])
    ensures r.Some? ==> forall j :: 0 <= j < r.value ==> !Damages(s, hits[j])
    ensures r.None? <==> forall j :: 0 <= j < |hits| ==> !Damages(s, hits[j])
    decreases |hits|
  {
    if |hits| == 0 then None
    else if Damages(s, hits[0]) then Some(0)
    else
      var rest := FirstHit(s, hits[1..]);
      if rest.Some? then Some(rest.value + 1) else None
  }

  /**
   The effect of hitting one collider: damage to its owner, a hit notice for
   player shells when a manager is there to take it, and an impact.
   */
  function HitEvents(s: Shell, c: Collider, at: Vec3, hasManager: bool): seq<Event>
    requires Damages(s, c)
  {
    match s.owner
    case PlayerOwned => [EnemyDamaged(c.enemy.value.id, s.damage)] + (if hasManager then [PlayerHitRegistered] else []) + [Impact(at)]
    case EnemyOwned => [PlayerDamaged(s.damage), Impact(at)]
  }

  /** What a frame did to the shell. */
  datatype Outcome =
    | Removed                                  // destroyed by game over or expiry
    | Struck(index: nat, events: seq<Event>)   // hit a collider and was destroyed
    | Flew(shell: Shell)                       // still in flight

  /** The number of damage events in a frame's output: a shell hurts one thing at most. */
  function DamageCount(events: seq<Event>): nat {
    if |events| == 0 then 0
    else (if events[0].EnemyDamaged? || events[0].PlayerDamaged? then 1 else 0) + DamageCount(events[1..])
  }

  /**
   `Update`: gone on game over; count the lifetime down and expire at zero
   before moving; probe the next position and either strike the first
   damageable collider or move there.
   */
  function Update(s: Shell, gameOver: bool, hasManager: bool, dt: real, hitsAt: Vec3 -> seq<Collider>): (r: Outcome)
    ensures gameOver ==> r == Removed
    ensures !gameOver && s.lifetimeRemaining - dt <= 0.0 ==> r == Removed
    ensures r.Flew? ==>
      && r.shell == s.(position := Add(s.position, Scale(s.direction, s.speed * dt)), lifetimeRemaining := s.lifetimeRemaining - dt)
      && FirstHit(s, hitsAt(r.shell.position)) == None
    ensures r.Struck? ==> var probe := Add(s.position, Scale(s.direction, s.speed * dt));
      && FirstHit(s, hitsAt(probe)) == Some(r.index)
      && DamageCount(r.events) == 1
    ensures r.Struck? && s.owner == PlayerOwned ==> var probe := Add(s.position, Scale(s.direction, s.speed * dt));
      var c := hitsAt(probe)[r.index]; c.enemy.Some? && c.enemy.value.alive && r.events[0] == EnemyDamaged(c.enemy.value.id, s.damage)
    ensures r.Struck? && s.owner == EnemyOwned ==> r.events[0] == PlayerDamaged(s.damage)
    ensures r.Struck? ==> (PlayerHitRegistered in r.events <==> hasManager && s.owner == PlayerOwned)
    ensures !gameOver && s.lifetimeRemaining - dt > 0.0 ==> !r.Removed?
    ensures !gameOver && s.lifetimeRemaining - dt > 0.0 ==>
      (r.Struck? <==> FirstHit(s, hitsAt(Add(s.position, Scale(s.direction, s.speed * dt)))).Some?)
  {
    if gameOver then Removed
    else
      var life := s.lifetimeRemaining - dt;
      if life <= 0.0 then Removed
      else
        var probe := Add(s.position, Scale(s.direction, s.speed * dt));
        var hits := hitsAt(probe);
        var first := FirstHit(s, hits);
        if first.Some? then
          var events := HitEvents(s, hits[first.value], probe, hasManager);
          HitEventsDamageOnce(s, hits[first.value], probe, hasManager);
          Struck(first.value, events)
        else
          Flew(s.(position := probe, lifetimeRemaining := life))
  }

  lemma HitEventsDamageOnce(s: Shell, c: Collider, at: Vec3, hasManager: bool)
    requires Damages(s, c)
    ensures DamageCount(HitEvents(s, c, at, hasManager)) == 1
  {
    var e := HitEvents(s, c, at, hasManager);
    if s.owner == PlayerOwned {
      var tail := (if hasManager then [PlayerHitRegistered] else []) + [Impact(at)];
      assert e[1..] == tail;
      assert DamageCount([Impact(at)]) == 0;
      if hasManager {
        assert tail[1..] == [Impact(at)];
      } else {
        assert tail == [Impact(at)];
      }
      assert DamageCount(tail) == 0;
    } else {
      assert e[1..] == [Impact(at)];
    }
  }

  /** `n` frames in open air: no collider is ever reported. */
  function Coast(s: Shell, dt: real, n: nat): Option<Shell>
    decreases n
  {
    if n == 0 then Some(s)
    else
      match Update(s, false, true, dt, _ => [])
      case Flew(next) => Coast(next, dt, n - 1)
      case _ => None
  }

  /** Without a hit the shell flies exactly while its lifetime covers the elapsed frames: it is gone within ⌈L/dt⌉ frames. */
  lemma {:induction false} CoastLifetime(s: Shell, dt: real, n: nat)
    requires s.lifetimeRemaining > 0.0
    ensures Coast(s, dt, n).Some? <==> s.lifetimeRemaining - (n as real) * dt > 0.0
    ensures Coast(s, dt, n).Some? ==> Coast(s, dt, n).value.lifetimeRemaining == s.lifetimeRemaining - (n as real) * dt
    decreases n
  {
    if n > 0 {
      var r := Update(s, false, true, dt, _ => []);
      assert (n as real) * dt == ((n - 1) as real) * dt + dt;
      if r.Flew? {
        CoastLifetime(r.shell, dt, n - 1);
      } else {
        CoastGone(s, dt, n);
      }
    }
  }

  /** A shell whose next frame expires it stays gone. */
  lemma CoastGone(s: Shell, dt: real, n: nat)
    requires n > 0 && s.lifetimeRemaining - dt <= 0.0
    requires s.lifetimeRemaining > 0.0
    ensures Coast(s, dt, n).None?
    ensures s.lifetimeRemaining - (n as real) * dt <= 0.0
  {
    if dt < 0.0 {
      assert false;
    }
    MulMono(1.0, n as real, dt);
  }

  /** In open air the shell follows a straight line at constant speed. */
  lemma {:induction false} CoastStraight(s: Shell, dt: real, n: nat)
    requires Coast(s, dt, n).Some?
    ensures var t := Coast(s, dt, n).value;
      t.position == Add(s.position, Scale(s.direction, s.speed * dt * (n as real)))
      && t.direction == s.direction && t.speed == s.speed
    decreases n
  {
    if n == 0 {
      assert Scale(s.direction, s.speed * dt * 0.0) == Zero;
    } else {
      var next := Update(s, false, true, dt, _ => []).shell;
      CoastStraight(next, dt, n - 1);
      var k := s.speed * dt;
      assert k * (n as real) == k + k * ((n - 1) as real);
    }
  }
}

=== FILE: tank_spawner.dfy ===
/**
 The arena's enemy spawner (`ObstacleSpawner` in the tank project): waves
 that grow with elapsed time, a population cap and a spawn interval that
 follow the wave, pruning of dead enemies, per-wave enemy stats, and spawn
 positions drawn around the player and clamped into the arena. Enemies are
 tracked by identity; whether one still lives is the `isAlive` oracle.
 */
module TankSpawner {
  import opened UnityMath
  import opened Vectors
  import opened ArenaBounds
  import opened Options
  import Seqs

  datatype Config = Config(
    spawnInterval: real, baseMaxAlive: int,
    minSpawnRadius: real, maxSpawnRadius: real,
    waveDurationSeconds: real, arena: Arena)

  /** The serialized defaults of the component. */
  const Defaults: Config := Config(2.2, 4, 13.0, 22.0, 22.0, DefaultArena)

  /** Number of ring samples tried before falling back to a uniform point. */
  const SpawnAttempts: nat := 12

  /** The fixed spawn height. */
  const SpawnHeight: real := 0.55

  datatype Spawner = Spawner(spawnTimer: real, elapsedSeconds: real, currentWave: int, activeEnemies: seq<nat>)

  // ---------------------------------------------------------------- waves

  /** `CurrentWave`: one more wave every `max(5, waveDuration)` seconds. */
  function WaveAt(elapsed: real, waveDuration: real): (w: int)
    ensures elapsed >= 0.0 ==> w >= 1
  {
    var d := Max(5.0, waveDuration);
    NonNegativeQuotient(elapsed, d);
    1 + FloorToInt(elapsed / d)
  }

  lemma NonNegativeQuotient(a: real, d: real)
    requires d > 0.0
    ensures a >= 0.0 ==> a / d >= 0.0
  {
  }

  /** Waves never go back as time passes. */
  lemma WaveMonotone(e1: real, e2: real, waveDuration: real)
    requires e1 <= e2
    ensures WaveAt(e1, waveDuration) <= WaveAt(e2, waveDuration)
  {
    var d := Max(5.0, waveDuration);
    QuotientMono(e1, e2, d);
    FloorMono(e1 / d, e2 / d);
  }

  lemma QuotientMono(a: real, b: real, d: real)
    requires a <= b && d > 0.0
    ensures a / d <= b / d
  {
    var k := 1.0 / d;
    assert a / d == a * k && b / d == b * k;
    MulMono(a, b, k);
  }

  lemma FloorMono(a: real, b: real)
    requires a <= b
    ensures a.Floor <= b.Floor
  {
  }

  /** The population cap: one extra enemy every second wave. */
  function MaxAlive(baseMaxAlive: int, wave: int): (r: int)
    ensures wave >= 1 ==> r >= baseMaxAlive
  {
    baseMaxAlive + FloorToInt(((wave - 1) as real) * 0.5)
  }

  /** The spawn interval: 0.12 s shorter per wave, never below 0.65 s. */
  function DynamicInterval(spawnInterval: real, wave: int): (r: real)
    ensures r >= 0.65
    ensures wave == 1 ==> r == Max(0.65, spawnInterval)
  {
    Max(0.65, spawnInterval - ((wave - 1) as real) * 0.12)
  }

  /** Later waves allow at least as many enemies and spawn at least as often. */
  lemma PressureGrowsWithWave(cfg: Config, w1: int, w2: int)
    requires w1 <= w2
    ensures MaxAlive(cfg.baseMaxAlive, w1) <= MaxAlive(cfg.baseMaxAlive, w2)
    ensures DynamicInterval(cfg.spawnInterval, w2) <= DynamicInterval(cfg.spawnInterval, w1)
  {
    FloorMono(((w1 - 1) as real) * 0.5, ((w2 - 1) as real) * 0.5);
  }

  // ---------------------------------------------------------------- enemy stats

  /** The arguments `SpawnEnemy` passes to `Configure`, before the enemy applies its own floors. */
  datatype EnemyStats = EnemyStats(
    moveSpeed: real, turnSpeed: real, fireInterval: real, health: real,
    shellSpeed: real, shellDamage: real, preferredDistance: real)

  /** The per-wave stat curves with their three random jitters. */
  function StatsForWave(wave: int, uMove: real, uFire: real, uRange: real): (s: EnemyStats)
    ensures s.fireInterval >= 0.85 && s.preferredDistance >= 7.0
    ensures s.turnSpeed == 80.0 + ((wave - 1) as real) * 6.0
    ensures s.health == 35.0 + ((wave - 1) as real) * 6.5
    ensures 2.55 + ((wave - 1) as real) * 0.35 <= s.moveSpeed <= 3.05 + ((wave - 1) as real) * 0.35
  {
    var w := (wave - 1) as real;
    EnemyStats(
      2.8 + w * 0.35 + RandomRange(-0.25, 0.25, uMove),
      80.0 + w * 6.0,
      Max(0.85, 2.5 - w * 0.1 + RandomRange(-0.2, 0.2, uFire)),
      35.0 + w * 6.5,
      18.0 + w * 0.9,
      7.5 + w * 1.15,
      Max(7.0, 11.5 - w * 0.3 + RandomRange(-0.6, 0.6, uRange)))
  }

  /** With the same draws, a later wave's enemy is faster, tougher and harder-hitting, and fires sooner from closer. */
  lemma StatsMonotone(w1: int, w2: int, uMove: real, uFire: real, uRange: real)
    requires w1 <= w2
    ensures var a := StatsForWave(w1, uMove, uFire, uRange); var b := StatsForWave(w2, uMove, uFire, uRange);
      && a.moveSpeed <= b.moveSpeed && a.turnSpeed <= b.turnSpeed && a.health <= b.health
      && a.shellSpeed <= b.shellSpeed && a.shellDamage <= b.shellDamage
      && b.fireInterval <= a.fireInterval && b.preferredDistance <= a.preferredDistance
  {
  }

  // ---------------------------------------------------------------- spawn position

  /** Where a spawn ended up: an accepted ring sample, or the uniform fallback. */
  datatype Placement = Accepted(attempt: nat, position: Vec3) | Fallback(position: Vec3)

  /** The ring centre: the player at spawn height, or (0, 0.55, 5) without one. */
  function SpawnCenter(player: Option<Vec3>): (c: Vec3)
    ensures c.y == SpawnHeight
  {
    if player.Some? then Vec3(player.value.x, SpawnHeight, player.value.z) else Vec3(0.0, SpawnHeight, 5.0)
  }

  /**
   One ring sample's draws: `direction` is `(cos a, 0, sin a)` for the
   drawn angle `a` (the trigonometry is the engine's), `uRadius` drives the
   radius draw.
   */
  datatype RingDraw = RingDraw(direction: Vec3, uRadius: real)

  /** The drawn direction is a flat unit vector, as `(cos a, 0, sin a)` is. */
  predicate FlatUnit(d: RingDraw) {
    d.direction.y == 0.0 && SqrMag(d.direction) == 1.0
  }

  /** The polar offset: the direction scaled by a radius drawn from [minSpawnRadius, maxSpawnRadius]. */
  function RingOffset(cfg: Config, d: RingDraw): Vec3 {
    Scale(d.direction, RandomRange(cfg.minSpawnRadius, cfg.maxSpawnRadius, d.uRadius))
  }

  /** Before clamping, every ring sample lies in the annulus between the two spawn radii. */
  lemma RingOffsetInAnnulus(cfg: Config, d: RingDraw)
    requires FlatUnit(d) && 0.0 <= cfg.minSpawnRadius <= cfg.maxSpawnRadius
    ensures RingOffset(cfg, d).y == 0.0
    ensures cfg.minSpawnRadius * cfg.minSpawnRadius <= SqrMag(RingOffset(cfg, d)) <= cfg.maxSpawnRadius * cfg.maxSpawnRadius
  {
    var radius := RandomRange(cfg.minSpawnRadius, cfg.maxSpawnRadius, d.uRadius);
    ScaleSqrMag(d.direction, radius);
    assert SqrMag(RingOffset(cfg, d)) == radius * radius;
    MulMono(cfg.minSpawnRadius, radius, cfg.minSpawnRadius);
    MulMono(cfg.minSpawnRadius, radius, radius);
    MulMono(radius, cfg.maxSpawnRadius, radius);
    MulMono(radius, cfg.maxSpawnRadius, cfg.maxSpawnRadius);
  }

  /** The offsets of the twelve attempts, one ring draw each. */
  function RingOffsets(cfg: Config, ring: nat -> RingDraw): nat -> Vec3 {
    (k: nat) => RingOffset(cfg, ring(k))
  }

  /**
   A ring sample the arena does not clamp lies between the two spawn radii
   of the ring centre.
   */
  lemma CandidateOnRing(player: Option<Vec3>, cfg: Config, ring: nat -> RingDraw, k: nat)
    requires FlatUnit(ring(k)) && 0.0 <= cfg.minSpawnRadius <= cfg.maxSpawnRadius
    requires cfg.arena.Contains(Add(SpawnCenter(player), RingOffsets(cfg, ring)(k)))
    ensures var d := Sub(Candidate(player, cfg, RingOffsets(cfg, ring), k), SpawnCenter(player));
      cfg.minSpawnRadius * cfg.minSpawnRadius <= SqrMag(d) <= cfg.maxSpawnRadius * cfg.maxSpawnRadius
  {
    var o := RingOffset(cfg, ring(k));
    RingOffsetInAnnulus(cfg, ring(k));
    var c := Candidate(player, cfg, RingOffsets(cfg, ring), k);
    assert Sub(c, SpawnCenter(player)) == o;
  }

  /**
   Ring sample `k` around the centre, clamped into the arena at spawn
   height; `offset(k)` is attempt `k`'s polar offset, `RingOffsets`.
   */
  function Candidate(player: Option<Vec3>, cfg: Config, offset: nat -> Vec3, k: nat): (c: Vec3)
    ensures cfg.arena.Valid() ==> cfg.arena.Contains(c)
    ensures c.y == SpawnHeight
  {
    ClampToArena(cfg.arena, Add(SpawnCenter(player), offset(k)), SpawnHeight)
  }

  /** The acceptance test: far enough from the player, with a 0.45 slack on the squared radius. */
  predicate FarEnough(c: Vec3, player: Vec3, cfg: Config) {
    SqrMag(Sub(c, player)) >= cfg.minSpawnRadius * cfg.minSpawnRadius * 0.45
  }

  /** Whether the search stops at sample `k`: always the first one without a player. */
  predicate Stops(player: Option<Vec3>, cfg: Config, offset: nat -> Vec3, k: nat) {
    player.None? || FarEnough(Candidate(player, cfg, offset, k), player.value, cfg)
  }

  /** The search from sample `k` on. */
  function TryFrom(player: Option<Vec3>, cfg: Config, offset: nat -> Vec3, k: nat, uX: real, uZ: real): (r: Placement)
    requires k <= SpawnAttempts
    ensures r.Accepted? ==>
      && k <= r.attempt < SpawnAttempts && Stops(player, cfg, offset, r.attempt)
      && r.position == Candidate(player, cfg, offset, r.attempt)
      && (forall j :: k <= j < r.attempt ==> !Stops(player, cfg, offset, j))
    ensures r.Fallback? ==> forall j :: k <= j < SpawnAttempts ==> !Stops(player, cfg, offset, j)
    ensures r.Fallback? ==> r.position == Vec3(RandomRange(cfg.arena.minX, cfg.arena.maxX, uX), SpawnHeight,
                                              RandomRange(cfg.arena.minZ, cfg.arena.maxZ, uZ))
    decreases SpawnAttempts - k
  {
    if k == SpawnAttempts then
      Fallback(Vec3(RandomRange(cfg.arena.minX, cfg.arena.maxX, uX), SpawnHeight,
                    RandomRange(cfg.arena.minZ, cfg.arena.maxZ, uZ)))
    else if Stops(player, cfg, offset, k) then Accepted(k, Candidate(player, cfg, offset, k))
    else TryFrom(player, cfg, offset, k + 1, uX, uZ)
  }

  /**
   `ResolveSpawnPosition`: the first of twelve ring samples far enough from
   the player (the very first when there is none), else a uniform arena point.
   */
  function ResolveSpawnPosition(player: Option<Vec3>, cfg: Config, offset: nat -> Vec3, uX: real, uZ: real): (r: Placement)
    ensures cfg.arena.Valid() ==> cfg.arena.Contains(r.position)
    ensures r.position.y == SpawnHeight
    ensures player.None? ==> r == Accepted(0, Candidate(player, cfg, offset, 0))
    ensures r.Accepted? ==>
      && r.attempt < SpawnAttempts && Stops(player, cfg, offset, r.attempt)
      && r.position == Candidate(player, cfg, offset, r.attempt)
      && (forall j :: 0 <= j < r.attempt ==> !Stops(player, cfg, offset, j))
    ensures r.Fallback? <==> player.Some? && forall j :: 0 <= j < SpawnAttempts ==> !FarEnough(Candidate(player, cfg, offset, j), player.value, cfg)
  {
    var r := TryFrom(player, cfg, offset, 0, uX, uZ);
    if r.Accepted? then r
    else
      assert player.Some? by { assert !Stops(player, cfg, offset, 0); }
      r
  }

  // ---------------------------------------------------------------- update

  /** An instruction to place and configure one new enemy. */
  datatype SpawnOrder = SpawnOrder(id: nat, placement: Placement, facing: Vec3, stats: EnemyStats)

  /** The raw draws one spawn consumes. */
  datatype Draws = Draws(ring: nat -> RingDraw, uX: real, uZ: real, uMove: real, uFire: real, uRange: real)

  /** `CleanupEnemies`: drop every entry that is gone or dead. */
  function CleanupEnemies(active: seq<nat>, isAlive: nat -> bool): (r: seq<nat>)
    ensures forall i :: 0 <= i < |r| ==> isAlive(r[i])
    ensures forall id :: id in r <==> id in active && isAlive(id)
    ensures |r| <= |active|
  {
    Seqs.Filter(active, isAlive)
  }

  /** The direction a new enemy faces: toward the player on the ground plane, or backward when on top of it. */
  function Facing(player: Option<Vec3>, spawn: Vec3): (f: Vec3)
    ensures f.y == 0.0
  {
    var d := if player.Some? then Sub(player.value, spawn) else Vec3(0.0, 0.0, -1.0);
    var flat := Vec3(d.x, 0.0, d.z);
    if SqrMag(flat) < 0.001 then Vec3(0.0, 0.0, -1.0) else flat
  }

  /** `SpawnEnemy`: place, face and configure a new enemy, and track it. */
  function SpawnEnemy(s: Spawner, player: Option<Vec3>, cfg: Config, id: nat, d: Draws): (r: (Spawner, SpawnOrder))
    ensures r.0.activeEnemies == s.activeEnemies + [id]
    ensures r.1.id == id && r.1.stats == StatsForWave(s.currentWave, d.uMove, d.uFire, d.uRange)
    ensures cfg.arena.Valid() ==> cfg.arena.Contains(r.1.placement.position)
    ensures r.1.placement == ResolveSpawnPosition(player, cfg, RingOffsets(cfg, d.ring), d.uX, d.uZ)
    ensures r.1.facing == Facing(player, r.1.placement.position)
    ensures r.0 == s.(activeEnemies := r.0.activeEnemies)
  {
    var placement := ResolveSpawnPosition(player, cfg, RingOffsets(cfg, d.ring), d.uX, d.uZ);
    (s.(activeEnemies := s.activeEnemies + [id]),
     SpawnOrder(id, placement, Facing(player, placement.position), StatsForWave(s.currentWave, d.uMove, d.uFire, d.uRange)))
  }

  /** With a player around, a spawn the search accepted sits far enough from it. */
  lemma SpawnFarFromPlayer(s: Spawner, player: Vec3, cfg: Config, id: nat, d: Draws)
    ensures SpawnEnemy(s, Some(player), cfg, id, d).1.placement.Accepted? ==>
      FarEnough(SpawnEnemy(s, Some(player), cfg, id, d).1.placement.position, player, cfg)
  {
  }

  /** The facing points toward the player whenever the flat direction to it is not negligible. */
  lemma FacingTowardPlayer(player: Vec3, spawn: Vec3)
    ensures SqrMag(Vec3(Sub(player, spawn).x, 0.0, Sub(player, spawn).z)) >= 0.001 ==>
      Dot(Facing(Some(player), spawn), Sub(player, spawn)) > 0.0
  {
    var flat := Vec3(Sub(player, spawn).x, 0.0, Sub(player, spawn).z);
    if SqrMag(flat) >= 0.001 {
      assert Facing(Some(player), spawn) == flat;
      assert Dot(flat, Sub(player, spawn)) == SqrMag(flat);
    }
  }

  /**
   `Update`: nothing while over or without a player; else advance the clock
   and wave, prune the dead, and spawn at most one enemy once the interval
   has elapsed and the live count is under the cap.
   */
  function Update(s: Spawner, gameOver: bool, player: Option<Vec3>, isAlive: nat -> bool,
                  dt: real, cfg: Config, nextId: nat, d: Draws): (r: (Spawner, Option<SpawnOrder>))
    ensures gameOver || player.None? ==> r == (s, None)
    ensures !(gameOver || player.None?) ==>
      var elapsed := s.elapsedSeconds + dt;
      var wave := WaveAt(elapsed, cfg.waveDurationSeconds);
      var live := CleanupEnemies(s.activeEnemies, isAlive);
      var timer := s.spawnTimer + dt;
      var spawns := timer >= DynamicInterval(cfg.spawnInterval, wave) && |live| < MaxAlive(cfg.baseMaxAlive, wave);
      && r.0.elapsedSeconds == elapsed && r.0.currentWave == wave
      && (r.1.Some? <==> spawns)
      && (spawns ==> r.0.spawnTimer == 0.0 && r.0.activeEnemies == live + [nextId]
                     && |r.0.activeEnemies| <= MaxAlive(cfg.baseMaxAlive, wave))
      && (!spawns ==> r.0.spawnTimer == timer && r.0.activeEnemies == live)
      && (spawns ==> r.1 == Some(SpawnEnemy(Spawner(0.0, elapsed, wave, live), player, cfg, nextId, d).1))
  {
    if gameOver || player.None? then (s, None)
    else
      var elapsed := s.elapsedSeconds + dt;
      var wave := WaveAt(elapsed, cfg.waveDurationSeconds);
      var live := CleanupEnemies(s.activeEnemies, isAlive);
      var timer := s.spawnTimer + dt;
      var ticked := Spawner(timer, elapsed, wave, live);
      if timer >= DynamicInterval(cfg.spawnInterval, wave) && |live| < MaxAlive(cfg.baseMaxAlive, wave) then
        var spawned := SpawnEnemy(ticked.(spawnTimer := 0.0), player, cfg, nextId, d);
        (spawned.0, Some(spawned.1))
      else (ticked, None)
  }

  /** Every tracked enemy except the one just spawned is alive after an update. */
  lemma TrackedAreAlive(s: Spawner, player: Vec3, isAlive: nat -> bool, dt: real, cfg: Config, nextId: nat, d: Draws)
    ensures var r := Update(s, false, Some(player), isAlive, dt, cfg, nextId, d);
      var n := if r.1.Some? then |r.0.activeEnemies| - 1 else |r.0.activeEnemies|;
      forall i :: 0 <= i < n ==> isAlive(r.0.activeEnemies[i])
  {
  }

  /** The wave recorded by consecutive updates never decreases while time runs forward. */
  lemma UpdateWaveMonotone(s: Spawner, player: Vec3, isAlive: nat -> bool, dt: real, cfg: Config, nextId: nat, d: Draws)
    requires dt >= 0.0
    requires s.currentWave == WaveAt(s.elapsedSeconds, cfg.waveDurationSeconds)
    ensures var r := Update(s, false, Some(player), isAlive, dt, cfg, nextId, d);
      s.currentWave <= r.0.currentWave && r.0.currentWave == WaveAt(r.0.elapsedSeconds, cfg.waveDurationSeconds)
  {
    WaveMonotone(s.elapsedSeconds, s.elapsedSeconds + dt, cfg.waveDurationSeconds);
  }

  /** `ResetSpawner`: timers at zero, wave one, no tracked enemies. */
  function ResetSpawner(s: Spawner): (r: Spawner)
    ensures r.spawnTimer == 0.0 && r.elapsedSeconds == 0.0 && r.currentWave == 1 && r.activeEnemies == []
    ensures r.currentWave == WaveAt(r.elapsedSeconds, Defaults.waveDurationSeconds)
  {
    Spawner(0.0, 0.0, 1, [])
  }
}

=== FILE: track_trail.dfy ===
/**
 The track-mark trails of the tank's visual effects (`TankVFXController` in
 the racing project): each track keeps a bounded list of mark points, adds a
 mark only once the anchor has moved far enough from the last one, drops the
 oldest mark when full, and tints the line by slip and traction. The speed,
 smoothed slip and traction of the frame are inputs; `length` is the
 engine's `Vector3.Distance`.
 */
module TrackTrail {
  import opened UnityMath
  import opened Vectors
  import opened Options

  datatype Config = Config(markMinDistance: real, maxPointsPerTrail: int)

  /** The serialized defaults. */
  const Defaults: Config := Config(0.28, 220)

  /** A mark sits this far above its anchor. */
  const MarkLift: real := 0.015

  /** The line renderer: its points, oldest first, and the alpha of its colour. */
  datatype Line = Line(points: seq<Vec3>, alpha: real)

  /** One track's trail: the line, if it exists, and the last mark placed. */
  datatype Trail = Trail(line: Option<Line>, lastMark: Vec3, hasLastMark: bool)

  function MarkPosition(anchor: Vec3): (p: Vec3)
    ensures p == anchor.(y := anchor.y + MarkLift)
  {
    Add(anchor, Scale(Up, MarkLift))
  }

  /** The new mark is within the minimum spacing of the last one. */
  predicate TooClose(t: Trail, mark: Vec3, cfg: Config, length: Vec3 -> real) {
    t.hasLastMark && length(Sub(mark, t.lastMark)) < cfg.markMinDistance
  }

  /** The colour's alpha: more slip or less traction gives darker marks. */
  function Alpha(slip: real, traction: real): (a: real)
    ensures 0.09 <= a <= 0.42
    ensures slip * 0.75 + (1.0 - traction) * 1.15 <= 0.0 ==> a == 0.09
    ensures slip * 0.75 + (1.0 - traction) * 1.15 >= 1.0 ==> a == 0.42
  {
    Lerp(0.09, 0.42, Clamp01(slip * 0.75 + (1.0 - traction) * 1.15))
  }

  /**
   Append a mark to a line holding at most `max` points; when full, the
   points after the oldest shift down first and the line is cut to
   `max - 1`.
   */
  function Push(points: seq<Vec3>, mark: Vec3, max: int): (r: seq<Vec3>)
    requires max >= 1
    ensures |r| <= max && |r| > 0 && r[|r| - 1] == mark
    ensures |points| < max ==> r == points + [mark]
    ensures |points| >= max ==> r[..|r| - 1] == points[1..max] && |r| == max
  {
    var kept := if |points| >= max then points[1..max] else points;
    assert (kept + [mark])[..|kept|] == kept;
    kept + [mark]
  }

  /**
   `UpdateTrackTrail`: nothing without a line or when the mark is too close
   to the last one; otherwise push the mark, retint the line, and remember
   the mark.
   */
  function UpdateTrackTrail(t: Trail, cfg: Config, anchor: Vec3, traction: real, slip: real, length: Vec3 -> real): (r: Trail)
    requires cfg.maxPointsPerTrail >= 1
    ensures t.line.None? || TooClose(t, MarkPosition(anchor), cfg, length) ==> r == t
    ensures t.line.Some? && !TooClose(t, MarkPosition(anchor), cfg, length) ==>
      && r.line == Some(Line(Push(t.line.value.points, MarkPosition(anchor), cfg.maxPointsPerTrail), Alpha(slip, traction)))
      && r.lastMark == MarkPosition(anchor) && r.hasLastMark
    ensures r.line.Some? ==> |r.line.value.points| <= cfg.maxPointsPerTrail || r == t
  {
    var mark := MarkPosition(anchor);
    if t.line.None? || TooClose(t, mark, cfg, length) then t
    else
      Trail(Some(Line(Push(t.line.value.points, mark, cfg.maxPointsPerTrail), Alpha(slip, traction))), mark, true)
  }

  /** `ResetTrail`: an empty line and no last mark. */
  function ResetTrail(t: Trail): (r: Trail)
    ensures r.line.Some? ==> r.line.value.points == []
    ensures r.line.Some? <==> t.line.Some?
    ensures !r.hasLastMark
  {
    Trail(if t.line.Some? then Some(t.line.value.(points := [])) else None, t.lastMark, false)
  }

  /** Both tracks' trails. */
  datatype Trails = Trails(left: Trail, right: Trail)

  /** The gate in `LateUpdate`: moving, and slipping or on a low-traction surface. */
  predicate MarksTrack(speed: real, slip: real, traction: real) {
    speed > 0.65 && (slip > 0.11 || traction < 0.92)
  }

  /**
   The trail part of `LateUpdate`: nothing once the match is over or while
   the rig is missing; otherwise both trails are updated exactly when the
   gate holds.
   */
  function LateUpdate(ts: Trails, cfg: Config, gameOver: bool, rigReady: bool, speed: real, slip: real, traction: real,
                      leftAnchor: Vec3, rightAnchor: Vec3, length: Vec3 -> real): (r: Trails)
    requires cfg.maxPointsPerTrail >= 1
    ensures gameOver || !rigReady || !MarksTrack(speed, slip, traction) ==> r == ts
    ensures !gameOver && rigReady && MarksTrack(speed, slip, traction) ==>
      r == Trails(UpdateTrackTrail(ts.left, cfg, leftAnchor, traction, slip, length),
                  UpdateTrackTrail(ts.right, cfg, rightAnchor, traction, slip, length))
  {
    if gameOver || !rigReady || !MarksTrack(speed, slip, traction) then ts
    else Trails(UpdateTrackTrail(ts.left, cfg, leftAnchor, traction, slip, length),
                UpdateTrackTrail(ts.right, cfg, rightAnchor, traction, slip, length))
  }

  /** The last `k` elements of `s`, or all of it when shorter. */
  function Last(s: seq<Vec3>, k: nat): (r: seq<Vec3>)
    ensures |r| == if |s| < k then |s| else k
  {
    if |s| <= k then s else s[|s| - k..]
  }

  /** Pushing marks one after another. */
  function PushAll(points: seq<Vec3>, marks: seq<Vec3>, max: int): seq<Vec3>
    requires max >= 1
    decreases |marks|
  {
    if |marks| == 0 then points else PushAll(Push(points, marks[0], max), marks[1..], max)
  }

  /**
   The line is a bounded queue: after pushing marks onto a line within its
   bound, it holds exactly the newest `max` of all points, in order.
   */
  lemma {:induction false} PushAllKeepsNewest(points: seq<Vec3>, marks: seq<Vec3>, max: int)
    requires max >= 1 && |points| <= max
    ensures PushAll(points, marks, max) == Last(points + marks, max)
    decreases |marks|
  {
    if |marks| == 0 {
      assert points + marks == points;
    } else {
      var next := Push(points, marks[0], max);
      PushAllKeepsNewest(next, marks[1..], max);
      PushStep(points, marks, max);
    }
  }

  /** One push, then the rest: the newest `max` points are the same either way. */
  lemma PushStep(points: seq<Vec3>, marks: seq<Vec3>, max: int)
    requires max >= 1 && |points| <= max && |marks| > 0
    ensures Last(Push(points, marks[0], max) + marks[1..], max) == Last(points + marks, max)
  {
    var all := points + marks;
    var next := Push(points, marks[0], max);
    if |points| == max {
      assert next == points[1..] + [marks[0]];
      assert next + marks[1..] == all[1..];
    } else {
      assert next == points + [marks[0]];
      assert next + marks[1..] == all;
    }
  }

  /** The spacing test through the length oracle is the squared-distance test. */
  lemma TooCloseIffSquared(t: Trail, mark: Vec3, cfg: Config, length: Vec3 -> real)
    requires IsLength(length)
    ensures TooClose(t, mark, cfg, length) <==>
      t.hasLastMark && cfg.markMinDistance > 0.0 &&
      SqrMag(Sub(mark, t.lastMark)) < cfg.markMinDistance * cfg.markMinDistance
  {
    var d := length(Sub(mark, t.lastMark));
    var m := cfg.markMinDistance;
    assert d >= 0.0 && d * d == SqrMag(Sub(mark, t.lastMark));
    if d < m {
      SquareLess(d, m);
    } else if m > 0.0 && m < d {
      SquareLess(m, d);
    }
  }
}
